=== FILE: README.md ===
# Theatre tickets and stock transactions over a key-value store

This project models the data-access core of a small Java service that keeps
two kinds of records in a DynamoDB-style table:

- **Theatre shows and tickets.** They share one partition per show. The show
  record sits under the sort key `SHOW`; each ticket sits under `TICKET#<id>`.
  A ticket is reserved by a conditional update. The update moves `status`
  from `AVAILABLE` to `RESERVED` and stores a `ticketRef`. Several tickets
  can be reserved in one all-or-nothing transaction. A reserved ticket is
  found again by its reference, through the `ticket-ref-index` secondary
  index.
- **Stock transactions.** They are partitioned by account number and sorted
  by the text of their `timestamp`. They are read:
  - whole;
  - page by page, with an exclusive start key;
  - filtered by trade action, with a fixed limit of ten;
  - between two instants;
  - through a paging loop that keeps querying until it has a page's worth
    of matches.

The model has four layers:

| Layer | Modules | Content |
|---|---|---|
| Store | `Store` | An immutable table. Each partition is a sequence of items in strictly ascending sort-key order. Queries by key condition, paged reads with a limit and a filter, conditional single-item updates, and transactional multi-item updates. |
| Codecs | `StockTransactions`, `StockTransactionKeys` | Attribute-map codecs for stock records and their keys. `JavaLang` holds the Java library calls they rely on: `Instant`, `Integer.parseInt`, `BigDecimal`, enum `valueOf`. |
| DAOs | `TheatreDao`, `EventDao`, `StockTransactionDao` | The three data-access objects, each written as a pure function from a table to a result. |
| Services | `ShowTicketService`, `TicketMapper` | The service layer and the two DTO mappers. |

For the inputs the model covers, each Java exception becomes a `Failure` of a
`Result` or a `None` of an `Option`, and a null result becomes `None`.
`TicketMapper.StockMapFromItemAsWritten` and `StockTransactions.DecodeItem`
use `None` for a `NullPointerException` or a parse error.
Null arguments to the DAO and service methods are not covered (see Left out).

The stock readers all decode records with `toStockTransaction`, which reads
`unitPrice` through the string member although `saveStockTransaction` stores
it as a number (see Findings). The model therefore takes the `unitPrice`
reader as a parameter of every stock reader:

- `ReadUnitPriceAsWritten()` reads the string member, as the source does.
  `StockDaoAsWritten` states what the readers do with it on a table of
  stored records: they fail as soon as a response holds one record.
- `ReadUnitPrice()` reads the number member, as evidently intended.
  `StockDaoProperties` states the readers' properties with it, over a stock
  table (`IsStockTable`) whose every item has the shape
  `saveStockTransaction` writes (`SavedRecordIsStockRecord`).

Members of `StockTransactionDao` whose contracts do not depend on how
`unitPrice` is read are stated for any reader, and so hold of the source as
written.

## Model

Source cells are paths relative to the repository root.

| member | source | states |
|---|---|---|
| Store.StringValue | src/main/java/space/gavinklfong/stock/model/StockTransaction.java:30 | `stringValue(s)` builds a string attribute. A null string gives a value with no member set, which reads back as null. |
| Store.StringAttribute | src/main/java/space/gavinklfong/theatre/dao/DynamoDBDao.java:228 | Reading a string attribute succeeds exactly when the attribute is present and holds a string. |
| Store.QuerySortKeyEquals | src/main/java/space/gavinklfong/theatre/dao/DynamoDBDao.java:156-162 | A query on `partition = :p AND sortKey = :k` returns exactly the items of the partition whose sort key is k. |
| Store.QuerySortKeyEqualsIsItemAt | src/main/java/space/gavinklfong/theatre/dao/DynamoDBDao.java:164-166 | On a well-formed table, the first item of that query is the item stored under the primary key (p, k). |
| Store.QueryBeginsWith | src/main/java/space/gavinklfong/theatre/dao/DynamoDBDao.java:136-142 | A `begins_with` key condition returns exactly the partition's items whose sort key starts with the prefix. |
| Store.QueryBetween | src/main/java/space/gavinklfong/stock/dao/StockTransactionDao.java:126-133 | A `BETWEEN` key condition is rejected exactly when the upper bound sorts before the lower one. Otherwise it returns exactly the partition's items whose sort key lies between the bounds. |
| Store.QueryIndexEquals | src/main/java/space/gavinklfong/theatre/dao/DynamoDBDao.java:175-182 | A query on a secondary index returns exactly the partition's items that carry the indexed attribute with the given value. |
| Store.QueryPage | src/main/java/space/gavinklfong/stock/dao/StockTransactionDao.java:193-202 | A paged read fails exactly when the limit is below one or the exclusive start key is not a key of the partition. A page holds at most `limit` items, and all of them pass the filter. A last-evaluated key is returned exactly when at least `limit` items remained to be read. |
| Store.ItemAt | src/main/java/space/gavinklfong/theatre/dao/DynamoDBDao.java:85-86 | The item stored under a primary key is an item of its partition carrying that sort key. None means no item carries it. |
| Store.ConditionalUpdate | src/main/java/space/gavinklfong/theatre/dao/DynamoDBDao.java:61-71 | A conditional update succeeds exactly when the item exists, the condition holds, and the update leaves the key attributes alone. A failed update leaves the table unchanged. |
| Store.ConditionalUpdateEffect | src/main/java/space/gavinklfong/theatre/dao/DynamoDBDao.java:73-90 | A successful update merges the new attributes into that item only. Every other item is unchanged and the table stays well formed. |
| Store.TransactUpdate | src/main/java/space/gavinklfong/theatre/dao/DynamoDBDao.java:92-104 | A transaction succeeds exactly when it has 1 to 100 actions and every addressed item exists and meets the condition. Otherwise nothing is written. |
| Store.TransactUpdateEffect | src/main/java/space/gavinklfong/theatre/dao/DynamoDBDao.java:99-103 | A successful transaction updates every addressed item and nothing else, and keeps the table well formed. |
| Store.AfterKeyOfItem | src/main/java/space/gavinklfong/stock/dao/StockTransactionDao.java:185-199 | Resuming after the key of the item at position i reads exactly the items after position i. |
| Store.FilterAscending | src/main/java/space/gavinklfong/stock/dao/StockTransactionDao.java:196 | Filtering a partition keeps its items in sort-key order. |
| Strings.LastIndexOf | src/main/java/space/gavinklfong/stock/service/DynamoDBItemMapper.java:20 | `lastIndexOf` returns the greatest position where the pattern occurs, or -1 when it does not occur. |
| Strings.Substring | src/main/java/space/gavinklfong/stock/service/DynamoDBItemMapper.java:20 | `substring(b)` returns the suffix of the string that starts at b. |
| Grouping.GroupBy | src/main/java/space/gavinklfong/theatre/service/ShowTicketService.java:44 | `groupingBy` succeeds exactly when every element has a non-null key. |
| Grouping.GroupByGroups | src/main/java/space/gavinklfong/theatre/service/ShowTicketService.java:41-45 | The groups are keyed by exactly the keys that occur. Each group holds exactly the elements with that key, in their original order. |
| Grouping.GroupByPlacesEachOnce | src/main/java/space/gavinklfong/theatre/service/ShowTicketService.java:41-45 | Every element lies in its own key's group and in no other group. No group is empty. |
| JavaLang.FormatInstant | src/main/java/space/gavinklfong/stock/model/StockTransactionKey.java:18-20 | Formatting an instant yields canonical text. |
| JavaLang.ParseInstant | src/main/java/space/gavinklfong/stock/model/StockTransaction.java:51 | `Instant.parse` throws on null and rejects text that is not an instant. |
| JavaLang.InstantRoundTrip | src/main/java/space/gavinklfong/stock/model/StockTransaction.java:31 | Parsing a formatted instant gives the instant back. Formatting parsed canonical text gives the text back. |
| JavaLang.ParseJavaInt | src/main/java/space/gavinklfong/stock/model/StockTransaction.java:54 | `Integer.parseInt` succeeds exactly on an ASCII numeral within 32-bit range, and returns its value. |
| JavaLang.NewBigDecimal | src/main/java/space/gavinklfong/stock/model/StockTransaction.java:55 | `new BigDecimal` throws on null, accepts exactly the ASCII integer numerals, and returns their value. |
| StockTransactions.TradeActionValueOf | src/main/java/space/gavinklfong/stock/model/StockTransaction.java:52 | `TradeAction.valueOf` returns the constant whose name is the text. It throws on null and on any other name. |
| StockTransactions.Encode | src/main/java/space/gavinklfong/stock/model/StockTransaction.java:28-39 | Encoding succeeds exactly when timestamp, trade action and unit price are non-null. The result has exactly the seven attributes; `unit` and `unitPrice` are numbers. Each other attribute is a string, or a value with no member set when its field is null. |
| StockTransactions.DecodeField | src/main/java/space/gavinklfong/stock/model/StockTransaction.java:48-59 | An unknown attribute name is rejected with IllegalArgumentException. The string fields always decode. |
| StockTransactions.DecodeEntries | src/main/java/space/gavinklfong/stock/model/StockTransaction.java:41-46 | Decoding a sequence of entries succeeds exactly when every entry decodes. |
| StockTransactions.DecodeEntriesIsDecoded | src/main/java/space/gavinklfong/stock/model/StockTransaction.java:43-44 | Decoding the entries of a map in any listing order agrees with the order-free decoding of the map. |
| StockTransactions.DecodeOrderIndependent | src/main/java/space/gavinklfong/stock/model/StockTransaction.java:43-44 | The result of `toStockTransaction` does not depend on the iteration order of the attribute map. |
| StockTransactions.UnknownAttributeRejected | src/main/java/space/gavinklfong/stock/model/StockTransaction.java:57 | A record carrying an unknown attribute, with all other attributes valid, is rejected with IllegalArgumentException. |
| StockTransactions.MissingAttributesKeepDefaults | src/main/java/space/gavinklfong/stock/model/StockTransaction.java:42-45 | A missing attribute leaves its field at the builder default: null, or 0 for `unit`. |
| StockTransactions.RoundTrip | src/main/java/space/gavinklfong/stock/model/StockTransaction.java:28-59 | With `unitPrice` read as a number, decoding an encoded transaction gives the transaction back. |
| StockTransactions.EncodedEntryAsWritten | src/main/java/space/gavinklfong/stock/model/StockTransaction.java:55 | As written, every encoded attribute except `unitPrice` decodes. `unitPrice` throws NullPointerException because a number is read through its string member. |
| StockTransactions.AsWrittenRejectsEveryRecord | src/main/java/space/gavinklfong/stock/model/StockTransaction.java:41-59 | As written, decoding any encoded transaction throws NullPointerException. |
| StockTransactions.DecodeItem | src/main/java/space/gavinklfong/stock/model/StockTransaction.java:41-46 | Order-free decoding of a stored record, with a given `unitPrice` reader. It is defined exactly when every attribute decodes with that reader. |
| StockTransactions.DecodeItemAgrees | src/main/java/space/gavinklfong/stock/model/StockTransaction.java:41-46 | For either `unitPrice` reader, order-free decoding agrees with `toStockTransaction` over any listing of the map. |
| StockTransactions.DecodeItemEncode | src/main/java/space/gavinklfong/stock/model/StockTransaction.java:28-46 | With the corrected `n()` reader for `unitPrice`, order-free decoding inverts encoding. |
| StockTransactions.DecodeItemEncodeAsWritten | src/main/java/space/gavinklfong/stock/model/StockTransaction.java:28-55 | With the `s()` reader as written, order-free decoding rejects every encoded transaction. |
| StockTransactionKeys.TimestampFormatted | src/main/java/space/gavinklfong/stock/model/StockTransactionKey.java:18-20 | `getTimestampFormatted` throws on a null timestamp. Otherwise it yields canonical text that parses back to the timestamp. |
| StockTransactionKeys.EncodeStartKey | src/main/java/space/gavinklfong/stock/dao/StockTransactionDao.java:185-191 | The exclusive start key map holds exactly `accountNumber` and `timestamp`, with the account and the formatted timestamp. |
| StockTransactionKeys.DecodeKeyField | src/main/java/space/gavinklfong/stock/model/StockTransactionKey.java:29-35 | A key attribute other than the two names is rejected with IllegalArgumentException. The account always decodes. |
| StockTransactionKeys.DecodeKeyEntries | src/main/java/space/gavinklfong/stock/model/StockTransactionKey.java:22-27 | Decoding a key's entries succeeds exactly when every entry decodes. |
| StockTransactionKeys.DecodeKeyEntriesIsDecoded | src/main/java/space/gavinklfong/stock/model/StockTransactionKey.java:24-25 | Decoding the key's entries in any listing order agrees with the order-free decoding of the map. |
| StockTransactionKeys.KeyDecodeOrderIndependent | src/main/java/space/gavinklfong/stock/model/StockTransactionKey.java:22-27 | The decoded key does not depend on the iteration order of the map. |
| StockTransactionKeys.KeyUnknownAttributeRejected | src/main/java/space/gavinklfong/stock/model/StockTransactionKey.java:33 | A key map with an unknown attribute, the others valid, is rejected with IllegalArgumentException. |
| StockTransactionKeys.MissingKeyAttributeIsNull | src/main/java/space/gavinklfong/stock/model/StockTransactionKey.java:23-26 | A missing key attribute leaves its field null. |
| StockTransactionKeys.StartKeyRoundTrip | src/main/java/space/gavinklfong/stock/model/StockTransactionKey.java:18-35 | Decoding an encoded start key gives the key back. |
| StockTransactionKeys.DecodeKeyItem | src/main/java/space/gavinklfong/stock/model/StockTransactionKey.java:22-27 | Order-free decoding of a key map. It is defined exactly when every attribute decodes. |
| StockTransactionKeys.DecodeKeyItemAgrees | src/main/java/space/gavinklfong/stock/model/StockTransactionKey.java:22-27 | Order-free key decoding agrees with `toStockTransactionKey` over any listing of the map. |
| StockTransactionDao.StockTableIsCursorSafe | src/main/java/space/gavinklfong/stock/dao/StockTransactionDao.java:141-155 | In a table of stored stock records, every sort key is canonical, so every cursor resumes where the last read stopped. |
| StockTransactionDao.DecodeAll | src/main/java/space/gavinklfong/stock/dao/StockTransactionDao.java:46-48 | For any `unitPrice` reader, mapping a response succeeds exactly when every item decodes with it, and yields one record per item in order. Otherwise the query throws. |
| StockTransactionDao.SavedRecordIsStockRecord | src/main/java/space/gavinklfong/stock/model/StockTransaction.java:28-39 | Every record `saveStockTransaction` writes has the seven attributes, decodes with the corrected reader, and carries canonical timestamp text. |
| StockTransactionDao.StoredRecordRejectedAsWritten | src/main/java/space/gavinklfong/stock/model/StockTransaction.java:55 | Every such record is rejected by the `s()` reader as written. |
| StockTransactionDao.DecodedConcat | src/main/java/space/gavinklfong/stock/dao/StockTransactionDao.java:153 | Decoding two stretches one after the other equals decoding their concatenation. |
| StockTransactionDao.NextQueryKey | src/main/java/space/gavinklfong/stock/dao/StockTransactionDao.java:111-115 | The next query key is null exactly when the response has no last-evaluated key. Otherwise it is decoded from that key. |
| StockTransactionDao.StartKeyItem | src/main/java/space/gavinklfong/stock/dao/StockTransactionDao.java:57-64 | A null start key sends none. Otherwise the start key carries exactly the account and the formatted timestamp, and a null timestamp throws. |
| StockTransactionDao.StartKeyItemRoundTrip | src/main/java/space/gavinklfong/stock/dao/StockTransactionDao.java:57-64 | The start key sent to the store decodes back to the caller's key. |
| StockTransactionDao.QueryTransactions | src/main/java/space/gavinklfong/stock/dao/StockTransactionDao.java:176-211 | For any `unitPrice` reader, one paged query decodes exactly the store's page, in order, with at most `limit` results. Its cursor is null exactly when the store returned no last-evaluated key. |
| StockTransactionDao.QueryTransactionsStep | src/main/java/space/gavinklfong/stock/dao/StockTransactionDao.java:176-211 | For any `unitPrice` reader, one paged query reads the partition stretch [start, start + limit), or the rest when fewer remain. It returns the filtered records of that stretch and a cursor that resumes exactly where the read stopped. |
| StockTransactionDao.FindByAccount | src/main/java/space/gavinklfong/stock/dao/StockTransactionDao.java:33-49 | For any `unitPrice` reader, the unpaged reader succeeds exactly when every item of the partition decodes with it. It then returns one record per item; on a well-formed table each carries that account. |
| StockTransactionDao.FindByAccountPage | src/main/java/space/gavinklfong/stock/dao/StockTransactionDao.java:51-82 | For any `unitPrice` reader, the paged reader returns at most `pageSize` records. Its cursor is null exactly when fewer than `pageSize` items remained. |
| StockTransactionDao.FindByAccountAndAction | src/main/java/space/gavinklfong/stock/dao/StockTransactionDao.java:85-109 | For any `unitPrice` reader, the two-argument reader returns at most ten records, all with the requested action. |
| StockTransactionDao.DoFind | src/main/java/space/gavinklfong/stock/dao/StockTransactionDao.java:176-211 | For any `unitPrice` reader, one filtered page holds at most `pageSize` records, all with the requested action. |
| StockTransactionDao.FindByAccountWithTimeRange | src/main/java/space/gavinklfong/stock/dao/StockTransactionDao.java:117-138 | For any `unitPrice` reader, the time-range reader is rejected exactly when the end formats before the start. Otherwise it succeeds exactly when the items between the bounds decode. |
| StockTransactionDao.Accumulate | src/main/java/space/gavinklfong/stock/dao/StockTransactionDao.java:146-155 | For any `unitPrice` reader, the do/while loop stops with a non-null cursor only once it holds at least `pageSize` records. |
| StockTransactionDao.FindByAccountAndActionPage | src/main/java/space/gavinklfong/stock/dao/StockTransactionDao.java:141-174 | For any `unitPrice` reader, the four-argument reader returns at most `pageSize` records. A non-null cursor comes only with a full page. |
| StockTransactionDao.DoFindAdvances | src/main/java/space/gavinklfong/stock/dao/StockTransactionDao.java:150-155 | Each non-final page moves the cursor strictly forward, so the loop terminates. |
| StockTransactionDao.AccumulateSpec | src/main/java/space/gavinklfong/stock/dao/StockTransactionDao.java:146-155 | The loop's results are the earlier results followed by the matching records of the partition, from the start key to where the final cursor resumes. |
| StockTransactionDao.PageSpec | src/main/java/space/gavinklfong/stock/dao/StockTransactionDao.java:157-171 | A page holds exactly the matching records of a partition stretch that begins at the start key. A non-null cursor resumes just after the last returned record, strictly beyond the start. |
| StockTransactionDao.PageCut | src/main/java/space/gavinklfong/stock/dao/StockTransactionDao.java:157-166 | When the loop overshoots, the truncated page plus a cursor built from its last record still reads a contiguous stretch. |
| StockTransactionDao.CutStretch | src/main/java/space/gavinklfong/stock/dao/StockTransactionDao.java:158-165 | The first `pageSize` matches of a stretch end at a stored item. The key built from the last record resumes right after that item. |
| StockTransactionDao.PageWhole | src/main/java/space/gavinklfong/stock/dao/StockTransactionDao.java:167-171 | When the loop does not overshoot, the page and the last page's cursor read a contiguous stretch. |
| StockDaoProperties.QueryTransactionsSucceeds | src/main/java/space/gavinklfong/stock/dao/StockTransactionDao.java:176-211 | With the corrected `n()` reader: on a stock table with a cursor of the same account, a paged query succeeds exactly when the limit is at least one. |
| StockDaoProperties.ResponseDecodes | src/main/java/space/gavinklfong/stock/dao/StockTransactionDao.java:204-210 | With the corrected `n()` reader, on a stock table, every returned item decodes, and so does every last-evaluated key. |
| StockDaoProperties.AccumulateSucceeds | src/main/java/space/gavinklfong/stock/dao/StockTransactionDao.java:150-155 | With the corrected `n()` reader, on a stock table, the paging loop succeeds exactly when `pageSize >= 1`. |
| StockDaoProperties.PageSucceeds | src/main/java/space/gavinklfong/stock/dao/StockTransactionDao.java:141-174 | With the corrected `n()` reader, on a stock table, the four-argument reader succeeds exactly when `pageSize >= 1`. |
| StockDaoProperties.FollowCursorsSucceeds | src/main/java/space/gavinklfong/stock/dao/StockTransactionDao.java:141-174 | With the corrected `n()` reader: a client that keeps following cursors succeeds exactly when `pageSize >= 1`. |
| StockDaoProperties.JoinReads | src/main/java/space/gavinklfong/stock/dao/StockTransactionDao.java:153 | With the corrected `n()` reader: reading two adjacent stretches and concatenating the results reads the joined stretch. |
| StockDaoProperties.FollowCursorsSpec | src/main/java/space/gavinklfong/stock/dao/StockTransactionDao.java:141-174 | With the corrected `n()` reader: following cursors from a start key reads every matching record from that key to the end of the partition. |
| StockDaoProperties.FollowCursorsVisitsEachMatchOnce | src/main/java/space/gavinklfong/stock/dao/StockTransactionDao.java:141-174 | With the corrected `n()` reader: starting with no cursor and following every cursor returns each matching record of the account exactly once, in sort-key order. |
| StockDaoProperties.RecordOfStored | src/main/java/space/gavinklfong/stock/model/StockTransaction.java:28-59 | With the corrected `n()` reader: a stored stock record decodes to a transaction of its account, whose formatted timestamp is the item's sort key. |
| StockDaoProperties.DecodedInOrder | src/main/java/space/gavinklfong/stock/dao/StockTransactionDao.java:46-48 | With the corrected `n()` reader: decoding items read in key order gives records of that account, in timestamp-text order. |
| StockDaoProperties.StretchRecords | src/main/java/space/gavinklfong/stock/dao/StockTransactionDao.java:141-174 | With the corrected `n()` reader: the records of a stretch read with an action filter all belong to the account, all carry the action, and are in timestamp-text order. |
| StockDaoProperties.FindByAccountOnStockTable | src/main/java/space/gavinklfong/stock/dao/StockTransactionDao.java:33-49 | With the corrected `n()` reader, on a stock table, the unpaged reader returns the whole partition decoded, in timestamp-text order. |
| StockDaoProperties.FindByAccountPageSpec | src/main/java/space/gavinklfong/stock/dao/StockTransactionDao.java:51-82 | With the corrected `n()` reader: the paged reader succeeds exactly when `pageSize >= 1`. It returns the next `pageSize` records after the start key, or the rest when fewer remain. Its cursor is null exactly in the second case and resumes where the page ended. |
| StockDaoProperties.FindByAccountAndActionReadsTen | src/main/java/space/gavinklfong/stock/dao/StockTransactionDao.java:93-99 | With the corrected `n()` reader: the two-argument reader returns the matching records among the first ten items, not the first ten matches. Its cursor is null exactly when the partition has fewer than ten items. |
| StockDaoProperties.FindByAccountAndActionMissesLaterMatches | src/main/java/space/gavinklfong/stock/dao/StockTransactionDao.java:96-98 | With the corrected `n()` reader: a match stored beyond the tenth item is never returned by the two-argument reader, so it returns fewer records than there are matches. |
| StockDaoProperties.TimeRangeSpec | src/main/java/space/gavinklfong/stock/dao/StockTransactionDao.java:117-138 | With the corrected `n()` reader: the time-range reader succeeds exactly when the bounds are ordered. It returns the account's records whose timestamp text lies between the bounds, in order. |
| StockDaoProperties.PageRecords | src/main/java/space/gavinklfong/stock/dao/StockTransactionDao.java:141-174 | With the corrected `n()` reader: a page holds at most `pageSize` records, of the account and the action, in timestamp-text order. A null cursor means the page holds every remaining match. |
| StockDaoAsWritten.QueryTransactionsAsWritten | src/main/java/space/gavinklfong/stock/dao/StockTransactionDao.java:202-210 | As written, on a stock table, one paged query succeeds exactly when the limit is positive and its filter keeps nothing of the stretch it reads; it then returns no records, and its cursor is null exactly when fewer than `limit` items remained. |
| StockDaoAsWritten.FindByAccountAsWritten | src/main/java/space/gavinklfong/stock/dao/StockTransactionDao.java:44-48 | As written, the unpaged reader returns the empty list when the account has no records and throws otherwise. |
| StockDaoAsWritten.FindByAccountPageAsWritten | src/main/java/space/gavinklfong/stock/dao/StockTransactionDao.java:74-81 | As written, the paged reader succeeds exactly when the page size is positive and nothing remains after the start key, and then returns an empty page with a null cursor. |
| StockDaoAsWritten.FindByAccountAndActionAsWritten | src/main/java/space/gavinklfong/stock/dao/StockTransactionDao.java:93-108 | As written, the two-argument reader succeeds exactly when none of the first ten items carries the action, and then returns no records. |
| StockDaoAsWritten.TimeRangeAsWritten | src/main/java/space/gavinklfong/stock/dao/StockTransactionDao.java:126-137 | As written, the time-range reader succeeds exactly when the bounds are ordered and no record lies between them, and then returns the empty list. |
| StockDaoAsWritten.DoFindAsWritten | src/main/java/space/gavinklfong/stock/dao/StockTransactionDao.java:202-210 | As written, one filtered fetch from a cursor with no match after it succeeds with no records. |
| StockDaoAsWritten.AccumulateAsWrittenSucceeds | src/main/java/space/gavinklfong/stock/dao/StockTransactionDao.java:146-155 | As written, the do/while loop succeeds from a cursor with no match after it. |
| StockDaoAsWritten.PageAsWritten | src/main/java/space/gavinklfong/stock/dao/StockTransactionDao.java:141-174 | As written, the four-argument reader succeeds exactly when the page size is positive and no item after the start key carries the action, and then returns an empty page with a null cursor. |
| StockDaoAsWritten.FollowCursorsAsWritten | src/main/java/space/gavinklfong/stock/dao/StockTransactionDao.java:141-174 | As written, following cursors from a null cursor succeeds exactly when the page size is positive and the account has no record with the action, and then returns nothing. |
| TheatreDao.Reservation | src/main/java/space/gavinklfong/theatre/dao/DynamoDBDao.java:76-84 | The reservation update sets exactly `status` and `ticketRef`. |
| TheatreDao.ExpectAvailableHolds | src/main/java/space/gavinklfong/theatre/dao/DynamoDBDao.java:75 | The reservation condition holds exactly when the ticket's status is `AVAILABLE`. |
| TheatreDao.ReserveTicket | src/main/java/space/gavinklfong/theatre/dao/DynamoDBDao.java:61-71 | Reserving succeeds exactly when the ticket exists and is available. Otherwise it raises TicketReservationException and changes nothing. |
| TheatreDao.ReserveTicketEffect | src/main/java/space/gavinklfong/theatre/dao/DynamoDBDao.java:73-90 | A reservation marks the ticket `RESERVED` with the given reference. It keeps every other attribute and every other item, and the table stays well formed. |
| TheatreDao.ReserveTwice | src/main/java/space/gavinklfong/theatre/dao/DynamoDBDao.java:65-69 | A second reservation of the same ticket fails, changes nothing, and keeps the first reference. |
| TheatreDao.ReserveTickets | src/main/java/space/gavinklfong/theatre/dao/DynamoDBDao.java:92-104 | A multi-ticket reservation succeeds exactly when it names 1 to 100 tickets and all are available. Otherwise nothing is written, with a cancellation or a validation error. |
| TheatreDao.ReserveTicketsEffect | src/main/java/space/gavinklfong/theatre/dao/DynamoDBDao.java:106-122 | Every named ticket becomes `RESERVED` under the one reference. Every other item is unchanged. |
| TheatreDao.FindTicketById | src/main/java/space/gavinklfong/theatre/dao/DynamoDBDao.java:150-167 | The found ticket is an item of the show with that sort key. None means there is no such item. |
| TheatreDao.FindShowById | src/main/java/space/gavinklfong/theatre/dao/DynamoDBDao.java:189-207 | The found show is the show's `SHOW` item. None means there is no such item. |
| TheatreDao.FindByKeyIsItemAt | src/main/java/space/gavinklfong/theatre/dao/DynamoDBDao.java:150-207 | On a theatre table, both lookups return exactly the item stored under the primary key. |
| TheatreDao.FindTicketByReference | src/main/java/space/gavinklfong/theatre/dao/DynamoDBDao.java:169-187 | The found ticket is an item of the show carrying the reference. None means no item carries it. |
| TheatreDao.ReserveThenFindByReference | src/main/java/space/gavinklfong/theatre/dao/DynamoDBDao.java:169-187 | After a reservation under a fresh reference, looking the reference up finds exactly the reserved ticket. |
| TheatreDao.SplitShowAndTickets | src/main/java/space/gavinklfong/theatre/dao/DynamoDBDao.java:223-236 | The split fails exactly when an item has no string sort key. The tickets are exactly the `TICKET#` items, in order. The show is the empty placeholder when no `SHOW` item was read, and a `SHOW` item otherwise. |
| TheatreDao.FindShowAndTicketsById | src/main/java/space/gavinklfong/theatre/dao/DynamoDBDao.java:209-237 | Reading a show with its tickets throws exactly when a record of the show has no string sort key. The tickets are exactly the show's `TICKET#` records, in key order. The show is a `SHOW` record of the partition, or the empty placeholder when there is none. |
| TheatreDao.FindShowAndTicketsByIdMatchesQueries | src/main/java/space/gavinklfong/theatre/dao/DynamoDBDao.java:209-237 | On a theatre table, the combined read agrees with the show lookup and with the `begins_with TICKET#` query. |
| TheatreDao.FindTicketsBySeatArea | src/main/java/space/gavinklfong/theatre/dao/DynamoDBDao.java:130-147 | Grouping by seat area succeeds exactly when every ticket has an area and a price. |
| TheatreDao.FindTicketsBySeatAreaGroups | src/main/java/space/gavinklfong/theatre/dao/DynamoDBDao.java:144-146 | The areas are exactly those that occur. Each group holds exactly that area's tickets. |
| EventDao.SplitShowTickets | src/main/java/space/gavinklfong/event/service/DynamoDBDao.java:168-180 | The split fails exactly when an item has no sort key. Every item not keyed `SHOW` becomes a ticket, in order. The show is the placeholder or a `SHOW` item. |
| EventDao.RetrieveShowTickets | src/main/java/space/gavinklfong/event/service/DynamoDBDao.java:152-181 | `retrieveShowTickets` throws exactly when a record of the show has no sort key. Every record of the show not keyed `SHOW` is a ticket, in key order. The show is a `SHOW` record of the partition, or the empty placeholder when there is none. |
| EventDao.RetrieveShowTicketsCount | src/main/java/space/gavinklfong/event/service/DynamoDBDao.java:171-178 | Each item read is counted once, either as a show or as a ticket. |
| EventDao.RetrieveShowTicketsWellFormed | src/main/java/space/gavinklfong/event/service/DynamoDBDao.java:152-181 | On a well-formed table the read succeeds. Without a `SHOW` item, it returns the placeholder show and the whole partition as tickets. |
| TicketMapper.PriceAttribute | src/main/java/space/gavinklfong/theatre/model/TicketItem.java:21 | A ticket's price is present exactly when the record holds a number `price`. |
| TicketMapper.TheatreMapFromItem | src/main/java/space/gavinklfong/theatre/service/DynamoDBItemMapper.java:18-19 | The theatre mapper copies status, area and price, takes `reference` from `ticketRef`, and leaves `id` null. |
| TicketMapper.TicketIdAsWrittenIsSuffix | src/main/java/space/gavinklfong/stock/service/DynamoDBItemMapper.java:20 | The as-written id is the sort key after position `lastIndexOf + 1`. It is the whole key when the prefix is absent. |
| TicketMapper.TicketIdAsWrittenKeepsPrefixTail | src/main/java/space/gavinklfong/stock/service/DynamoDBItemMapper.java:20 | When the prefix occurs, the as-written id begins with `ICKET#` followed by the intended id. |
| TicketMapper.TicketIdAsWrittenExample | src/main/java/space/gavinklfong/stock/service/DynamoDBItemMapper.java:20 | For the sort key `TICKET#ABC`, the expression yields `ICKET#ABC` where `ABC` is intended. |
| TicketMapper.PrefixDoesNotOverlap | src/main/java/space/gavinklfong/stock/service/DynamoDBItemMapper.java:16 | `TICKET#` does not occur again at any offset inside its own first occurrence. |
| TicketMapper.TicketIdRoundTrip | src/main/java/space/gavinklfong/stock/service/DynamoDBItemMapper.java:20 | The corrected id of `TICKET#` + id is id, for any id that does not itself contain the prefix. |
| TicketMapper.StockMapFromItemAsWritten | src/main/java/space/gavinklfong/stock/service/DynamoDBItemMapper.java:20-22 | The stock mapper as written throws on a null sort key. Otherwise it is the theatre mapping plus the as-written id. |
| TicketMapper.StockMapFromItem | src/main/java/space/gavinklfong/stock/service/DynamoDBItemMapper.java:20-22 | The corrected stock mapper takes `reference` from `ticketRef`, and maps a ticket stored under `TICKET#` + id back to id. |
| ShowTicketService.FindTheatreShow | src/main/java/space/gavinklfong/theatre/service/ShowTicketService.java:25-28 | A show DTO is returned exactly when the show lookup finds a record. |
| ShowTicketService.FindTheatreShowIsStoredShow | src/main/java/space/gavinklfong/theatre/service/ShowTicketService.java:25-28 | On a theatre table, the DTO is the mapping of the stored `SHOW` item. |
| ShowTicketService.FindTheatreShowAndTickets | src/main/java/space/gavinklfong/theatre/service/ShowTicketService.java:30-39 | The service returns one ticket DTO per ticket record, in order, each mapped by the theatre mapper. |
| ShowTicketService.FindTheatreShowAndTicketsContents | src/main/java/space/gavinklfong/theatre/service/ShowTicketService.java:30-39 | On a theatre table, the ticket DTOs carry the references and statuses of the stored `TICKET#` items. The show is the mapped `SHOW` item or the mapped placeholder. |
| ShowTicketService.FindTicketsGroupingByArea | src/main/java/space/gavinklfong/theatre/service/ShowTicketService.java:41-45 | Grouping fails exactly when the read fails or a ticket has no area. |
| ShowTicketService.FindTicketsGroupingByAreaGroups | src/main/java/space/gavinklfong/theatre/service/ShowTicketService.java:41-45 | The keys are exactly the areas that occur. Each group holds exactly that area's tickets, no group is empty, and each ticket lies in its own area's group only. |
| ShowTicketService.ReserveTicket | src/main/java/space/gavinklfong/theatre/service/ShowTicketService.java:47-51 | The service returns the new reference exactly when the DAO reservation succeeds. On failure the table is unchanged. |
| ShowTicketService.FindTicketByReference | src/main/java/space/gavinklfong/theatre/service/ShowTicketService.java:53-56 | A ticket is found exactly when the DAO finds one, and it carries the reference asked for. |
| ShowTicketService.ReserveThenFindTicket | src/main/java/space/gavinklfong/theatre/service/ShowTicketService.java:47-56 | Reserving an available ticket under a fresh reference returns that reference. Looking it up finds a `RESERVED` ticket. |

## Left out

- Table creation, deletion and configuration, the controllers and `StockService`, and `saveShow`, `saveTicket` and `deleteTicket`. These are plumbing and wiring around the core. A stock table's content is assumed to be what `saveStockTransaction` writes (`IsStockTable`); the write itself is not modelled.
- `stock/dao/DynamoDBDao.java` and the `DynamoItemMapper` that turns theatre attribute maps into `ShowItem` and `TicketItem`. The mapper is not part of this model, so a show or ticket record is identified with its attribute map: a field is null exactly when its attribute is absent or holds a value of the wrong kind (`Store.StringAttribute`, `TicketMapper.PriceAttribute`). The ticket DTO's `Double price` is carried as the stored number text, not as a floating-point value.
- `TheatreDao.FindTicketsBySeatArea`: groups the ticket records by area. It does not compute the `double` averages; floating point is left out.
- `ShowTicketService.ReserveTicket`: the reference is a parameter rather than a fresh `UUID.randomUUID()`. Randomness is left out, and freshness is a precondition where a property needs it (`IsFreshReference`).
- `JavaLang.FormatInstant`: `Instant` is modelled as whole epoch seconds. `ISO_INSTANT` text is modelled as the canonical decimal numeral, and `Instant.parse` accepts exactly the decimal numerals. The calendar rendering is left out. As a consequence, the model's "timestamp-text order" is numeral text order, not chronological order.
- JavaLang.NewBigDecimal: a `BigDecimal` is modelled at scale 0 (an integer). The model accepts only an optional sign followed by ASCII digits `0`-`9`. Java also accepts fractions, exponent forms such as `1E3`, and any Unicode decimal digit. All three are left out.
- JavaLang.ParseJavaInt: the model accepts only an optional sign followed by ASCII digits `0`-`9`. Java's `Integer.parseInt` also accepts any Unicode decimal digit (`Character.digit`), for example Arabic-Indic digits. Such text fails here but parses in Java.
- Null arguments to the DAO and service methods are not modelled. Every parameter is a value, so the model has no path for these Java exceptions:
  - `tradeAction.name()` throws on a null action (src/main/java/space/gavinklfong/stock/dao/StockTransactionDao.java:90 and :182).
  - `ISO_INSTANT.format` throws on a null `startTime` or `endTime` (StockTransactionDao.java:122-123).
  - `s(null)` builds a query value with no member set, which the store rejects (StockTransactionDao.java:35, 54, 89, 121 and 181).
  - In the theatre DAO, `stringValue(null)` builds such a value for the new reference and the update key (src/main/java/space/gavinklfong/theatre/dao/DynamoDBDao.java:81-84).
  - `ticketIds.stream()` throws on a null set (theatre/dao/DynamoDBDao.java:94).
- The trade-action enum's source is not part of this model. The repository's tests use only `SELL`, and `BUY` is assumed as the other constant (`StockTransactions.TradeAction`).
- The store's 1 MB page cap, its rejection of empty-string key values, and its consumed-capacity bookkeeping are left out. A page here ends only at `limit` or at the end of the partition.
- Concurrency between callers is left out. Every operation is one atomic step on an immutable table.
- `StockTransactionDao.DecodeAll`: one `Undecodable` error stands for whichever exception the first bad attribute throws. Which one is thrown first depends on the iteration order of a `HashMap`.
- `StockTransactionDao.Accumulate`: the loop is proved only over a cursor-safe table (`CursorSafe`). A stored timestamp in non-canonical text would make the rebuilt cursor resume elsewhere, and the loop need not terminate. Stock tables written by the service are cursor-safe (`StockTableIsCursorSafe`).
- `StockTransactionDao.FollowCursors` is a client that calls the four-argument reader until its cursor is null. It is not in the source; it exists to state what repeated paging returns.
- `reserveTickets` sends no client request token, so idempotent replay of a transaction is not modelled. The store's 100-action transaction limit applies (`TheatreDao.ReserveTickets`).
- A paged read returns a last-evaluated key, and so a non-null cursor, whenever the page limit was reached, even when nothing is left to read (`Store.QueryPage`).
- The event DAO treats every non-`SHOW` item as a ticket (`EventDao.SplitShowTickets`), while the theatre DAO keeps only items whose sort key starts with `TICKET#` (`TheatreDao.SplitShowAndTickets`). Both are modelled as written.
- The ticket invariant "reference non-null iff RESERVED" is not enforced by the code and is not assumed by the model.
- TheatreDao.ReserveThenFindByReference: reads are modelled as strongly consistent, so a lookup sees the reservation just written. No `QueryRequest` in the source sets `consistentRead`. The `ticket-ref-index` lookup (theatre/dao/DynamoDBDao.java:175-180) is a local secondary index query, so it is eventually consistent by default, and right after the write the source may find nothing.
- ShowTicketService.ReserveThenFindTicket: rests on `TheatreDao.ReserveThenFindByReference`, so it too assumes strongly consistent reads, which the source does not request.
- StockTransactions.DecodeItemEncode: states the round trip for the corrected `n()` reader of `unitPrice`. The source as written reads `s()`, which rejects every encoded record (`StockTransactions.DecodeItemEncodeAsWritten`).
- StockDaoProperties.QueryTransactionsSucceeds: stated with the corrected `n()` reader of `unitPrice`. As written the reader throws on any response holding a record (`StockDaoAsWritten.QueryTransactionsAsWritten`).
- StockDaoProperties.ResponseDecodes: stated with the corrected `n()` reader of `unitPrice`. As written the reader throws on any response holding a record (`StockDaoAsWritten.QueryTransactionsAsWritten`).
- StockDaoProperties.AccumulateSucceeds: stated with the corrected `n()` reader of `unitPrice`. As written the reader throws on any response holding a record (`StockDaoAsWritten.AccumulateAsWrittenSucceeds`).
- StockDaoProperties.PageSucceeds: stated with the corrected `n()` reader of `unitPrice`. As written the reader throws on any response holding a record (`StockDaoAsWritten.PageAsWritten`).
- StockDaoProperties.FollowCursorsSucceeds: stated with the corrected `n()` reader of `unitPrice`. As written the reader throws on any response holding a record (`StockDaoAsWritten.FollowCursorsAsWritten`).
- StockDaoProperties.JoinReads: stated with the corrected `n()` reader of `unitPrice`. As written the reader throws on any response holding a record (`StockDaoAsWritten.PageAsWritten`).
- StockDaoProperties.FollowCursorsSpec: stated with the corrected `n()` reader of `unitPrice`. As written the reader throws on any response holding a record (`StockDaoAsWritten.FollowCursorsAsWritten`).
- StockDaoProperties.FollowCursorsVisitsEachMatchOnce: stated with the corrected `n()` reader of `unitPrice`. As written the reader throws on any response holding a record (`StockDaoAsWritten.FollowCursorsAsWritten`).
- StockDaoProperties.RecordOfStored: stated with the corrected `n()` reader of `unitPrice`. As written a stored record does not decode (`StockTransactionDao.StoredRecordRejectedAsWritten`).
- StockDaoProperties.DecodedInOrder: stated with the corrected `n()` reader of `unitPrice`. As written the reader throws on any response holding a record (`StockDaoAsWritten.FindByAccountAsWritten`).
- StockDaoProperties.StretchRecords: stated with the corrected `n()` reader of `unitPrice`. As written the reader throws on any response holding a record (`StockDaoAsWritten.PageAsWritten`).
- StockDaoProperties.FindByAccountOnStockTable: stated with the corrected `n()` reader of `unitPrice`. As written the reader throws on any response holding a record (`StockDaoAsWritten.FindByAccountAsWritten`).
- StockDaoProperties.FindByAccountPageSpec: stated with the corrected `n()` reader of `unitPrice`. As written the reader throws on any response holding a record (`StockDaoAsWritten.FindByAccountPageAsWritten`).
- StockDaoProperties.FindByAccountAndActionReadsTen: stated with the corrected `n()` reader of `unitPrice`. As written the reader throws on any response holding a record (`StockDaoAsWritten.FindByAccountAndActionAsWritten`).
- StockDaoProperties.FindByAccountAndActionMissesLaterMatches: stated with the corrected `n()` reader of `unitPrice`. As written the reader throws on any response holding a record (`StockDaoAsWritten.FindByAccountAndActionAsWritten`).
- StockDaoProperties.TimeRangeSpec: stated with the corrected `n()` reader of `unitPrice`. As written the reader throws on any response holding a record (`StockDaoAsWritten.TimeRangeAsWritten`).
- StockDaoProperties.PageRecords: stated with the corrected `n()` reader of `unitPrice`. As written the reader throws on any response holding a record (`StockDaoAsWritten.PageAsWritten`).

## Findings

| source | as written | input that shows it | evidently intended | confidence | as-written member | corrected member |
|---|---|---|---|---|---|---|
| src/main/java/space/gavinklfong/stock/model/StockTransaction.java:55 | `unitPrice` is written as a number (line 35) but read through the string member `s()`, which is null for a number. `new BigDecimal(null)` then throws. | any encoded transaction, e.g. one with `unitPrice` 10 | read `unitPrice` through `n()`, so that decoding inverts encoding | high; not executed | StockTransactions.AsWrittenRejectsEveryRecord | StockTransactions.RoundTrip |
| src/main/java/space/gavinklfong/stock/dao/StockTransactionDao.java:46-48 | every reader maps its response through `toStockTransaction`, so the `s()` read of `unitPrice` makes each reader throw as soon as the response holds a record; the same map is at lines 77-79, 104-106, 135-137 and 206-208 | an account holding one saved transaction: `findStockTransactionByAccountNumber` throws instead of returning it | the readers return the account's records | high; not executed | StockDaoAsWritten.FindByAccountAsWritten | StockDaoProperties.FindByAccountOnStockTable |
| src/main/java/space/gavinklfong/stock/service/DynamoDBItemMapper.java:20 | the id is `substring(lastIndexOf("TICKET#") + 1)`, which skips one character instead of the prefix's seven | sort key `TICKET#ABC` gives id `ICKET#ABC` | skip the whole prefix, giving `ABC` | high; not executed | TicketMapper.TicketIdAsWrittenExample | TicketMapper.TicketIdRoundTrip |

=== FILE: event_dao.dfy ===
/** The older event DAO's reader `retrieveShowTickets`: one query over a
    show's partition, split into the show record (sort key "SHOW") and
    tickets. Unlike the theatre DAO it has no prefix check: every record
    that is not the show is taken as a ticket. */
module EventDao {
  import opened Wrappers
  import opened Seqs
  import opened Store

  const ShowSortKey: string := "SHOW"

  /** `ShowItem.builder().build()`: the placeholder show. */
  const EmptyShowItem: Item := map[]

  datatype EventError = NullPointer

  /** `item.get("sortKey")`: null when the attribute is absent. */
  function SortKeyValue(item: Item): Option<AttributeValue>
  {
    if "sortKey" in item then Some(item["sortKey"]) else None
  }

  /** `SHOW_ITEM_SORT_KEY.equals(item.get("sortKey").s())`; the lookup of
      an absent attribute is null and dereferencing it throws, while a
      number-valued sort key just reads as null and does not match. */
  predicate IsShowRecord(item: Item)
  {
    SortKeyValue(item) == Some(S(ShowSortKey))
  }

  function IsShowFn(): Item -> bool
  {
    item => IsShowRecord(item)
  }

  function IsTicketFn(): Item -> bool
  {
    item => !IsShowRecord(item)
  }

  /** The loop of `retrieveShowTickets`. */
  function SplitShowTickets(items: seq<Item>): (r: Result<(Item, seq<Item>), EventError>)
    ensures r.Success? <==> forall i :: 0 <= i < |items| ==> SortKeyValue(items[i]).Some?
    ensures r.Success? ==> r.value.1 == Filter(items, IsTicketFn())
    ensures r.Success? && (forall i :: 0 <= i < |items| ==> !IsShowRecord(items[i])) ==> r.value.0 == EmptyShowItem
    ensures r.Success? && (exists i :: 0 <= i < |items| && IsShowRecord(items[i])) ==>
              r.value.0 in items && IsShowRecord(r.value.0)
    decreases |items|
  {
    if items == [] then Success((EmptyShowItem, []))
    else
      var n := |items| - 1;
      var front := items[..n];
      var item := items[n];
      match SplitShowTickets(front)
      case Failure(e) => Failure(e)
      case Success(acc) =>
        if SortKeyValue(item).None? then Failure(NullPointer)
        else
          FilterSnoc(items, n, IsTicketFn());
          assert items[..n + 1] == items;
          assert forall i :: 0 <= i < n ==> front[i] == items[i];
          if IsShowRecord(item) then Success((item, acc.1)) else Success((acc.0, acc.1 + [item]))
  }

  /** `retrieveShowTickets`: one query over the whole partition, split.
      It throws exactly when a record of the show has no sort key; every
      record not keyed `SHOW` is a ticket, in key order, and the show is a
      `SHOW` record of the partition, or the placeholder when there is
      none. */
  function RetrieveShowTickets(t: Table, showId: string): (r: Result<(Item, seq<Item>), EventError>)
    ensures r.Success? <==> forall i :: 0 <= i < |Partition(t, showId)| ==> SortKeyValue(Partition(t, showId)[i]).Some?
    ensures r.Success? ==> r.value.1 == Filter(Partition(t, showId), IsTicketFn())
    ensures r.Success? && (forall i :: 0 <= i < |Partition(t, showId)| ==> !IsShowRecord(Partition(t, showId)[i])) ==>
              r.value.0 == EmptyShowItem
    ensures r.Success? && (exists i :: 0 <= i < |Partition(t, showId)| && IsShowRecord(Partition(t, showId)[i])) ==>
              r.value.0 in Partition(t, showId) && IsShowRecord(r.value.0)
  {
    SplitShowTickets(QueryPartition(t, showId))
  }

  /** Every record of the partition is either the show or a ticket: the
      tickets plus the "SHOW" records account for all records. */
  lemma RetrieveShowTicketsCount(t: Table, showId: string)
    requires RetrieveShowTickets(t, showId).Success?
    ensures var items := QueryPartition(t, showId);
            |RetrieveShowTickets(t, showId).value.1| + |Filter(items, IsShowFn())| == |items|
  {
    var items := QueryPartition(t, showId);
    FilterCongruent(items, IsTicketFn(), Not(IsShowFn()));
    FilterSplitsCount(items, IsShowFn());
  }

  /** On a table keyed by (showId, sortKey) in the store's invariant, the
      split never throws, and a partition without a "SHOW" record yields
      the placeholder show and all records as tickets. */
  lemma RetrieveShowTicketsWellFormed(t: Table, showId: string)
    requires WellFormed(t) && t.schema.sortKey == "sortKey"
    ensures RetrieveShowTickets(t, showId).Success?
    ensures ItemAt(t, showId, ShowSortKey).None? ==>
              RetrieveShowTickets(t, showId).value == (EmptyShowItem, QueryPartition(t, showId))
  {
    var part := QueryPartition(t, showId);
    if ItemAt(t, showId, ShowSortKey).None? {
      forall i | 0 <= i < |part|
        ensures IsTicketFn()(part[i])
      {
        assert SortKeyOf(t.schema, part[i]) != ShowSortKey;
        assert !IsShowRecord(part[i]);
      }
      FilterKeepsAll(part, IsTicketFn());
    }
  }
}

=== FILE: grouping.dfy ===
/** `Collectors.groupingBy(classifier)`: a map from each classifier value
    to the list of elements with that value, in encounter order. A null
    classifier value makes the collector throw. */
module Grouping {
  import opened Wrappers
  import opened Seqs

  datatype GroupingError = NullKey

  function HasKeyFn<T>(key: T -> Option<string>, a: string): T -> bool
  {
    x => key(x) == Some(a)
  }

  /** Some element is classified under a. */
  predicate Occurs<T>(xs: seq<T>, key: T -> Option<string>, a: string)
  {
    exists i :: 0 <= i < |xs| && key(xs[i]) == Some(a)
  }

  /** Folds the elements in encounter order, appending each one to the
      group of its key. */
  function GroupBy<T>(xs: seq<T>, key: T -> Option<string>): (r: Result<map<string, seq<T>>, GroupingError>)
    ensures r.Success? <==> forall i :: 0 <= i < |xs| ==> key(xs[i]).Some?
    decreases |xs|
  {
    if xs == [] then Success(map[])
    else
      match GroupBy(xs[..|xs| - 1], key)
      case Failure(e) => Failure(e)
      case Success(m) =>
        var x := xs[|xs| - 1];
        match key(x)
        case None => Failure(NullKey)
        case Some(a) => Success(m[a := (if a in m then m[a] else []) + [x]])
  }

  /** The groups are exactly the keys that occur, and each group is the
      sub-list of elements with that key, in the order they came. */
  lemma GroupByGroups<T>(xs: seq<T>, key: T -> Option<string>)
    requires GroupBy(xs, key).Success?
    ensures forall a :: a in GroupBy(xs, key).value <==> Occurs(xs, key, a)
    ensures forall a :: a in GroupBy(xs, key).value ==> GroupBy(xs, key).value[a] == Filter(xs, HasKeyFn(key, a))
  {
    GroupByKeys(xs, key);
    GroupByContents(xs, key);
  }

  /** The groups are exactly the keys that occur. */
  lemma {:induction false} GroupByKeys<T>(xs: seq<T>, key: T -> Option<string>)
    requires GroupBy(xs, key).Success?
    ensures forall a :: a in GroupBy(xs, key).value <==> Occurs(xs, key, a)
    decreases |xs|
  {
    if xs != [] {
      var n := |xs| - 1;
      var front := xs[..n];
      GroupByKeys(front, key);
      var m := GroupBy(front, key).value;
      var x := xs[n];
      var a := key(x).value;
      var m' := GroupBy(xs, key).value;
      assert m' == m[a := (if a in m then m[a] else []) + [x]];
      forall b
        ensures b in m' <==> Occurs(xs, key, b)
      {
        if b in m' && b != a {
          var i :| 0 <= i < |front| && key(front[i]) == Some(b);
          assert xs[i] == front[i];
        }
        if Occurs(xs, key, b) && b != a {
          var i :| 0 <= i < |xs| && key(xs[i]) == Some(b);
          assert i < n && front[i] == xs[i];
        }
      }
    }
  }

  /** Each group is the sub-list of elements with its key. */
  lemma {:induction false} GroupByContents<T>(xs: seq<T>, key: T -> Option<string>)
    requires GroupBy(xs, key).Success?
    ensures forall a :: a in GroupBy(xs, key).value ==> GroupBy(xs, key).value[a] == Filter(xs, HasKeyFn(key, a))
    decreases |xs|
  {
    if xs != [] {
      var n := |xs| - 1;
      var front := xs[..n];
      GroupByContents(front, key);
      GroupByKeys(front, key);
      var m := GroupBy(front, key).value;
      var x := xs[n];
      var a := key(x).value;
      var m' := GroupBy(xs, key).value;
      assert m' == m[a := (if a in m then m[a] else []) + [x]];
      forall b | b in m'
        ensures m'[b] == Filter(xs, HasKeyFn(key, b))
      {
        assert xs[..n + 1] == xs;
        FilterSnoc(xs, n, HasKeyFn(key, b));
        if b == a && a !in m {
          forall i | 0 <= i < |front|
            ensures !HasKeyFn(key, b)(front[i])
          {
            if key(front[i]) == Some(b) {
              assert Occurs(front, key, b);
            }
          }
          FilterKeepsNone(front, HasKeyFn(key, b));
        }
      }
    }
  }

  /** Every element sits in the group of its own key and in no other
      group, and no group is empty. */
  lemma GroupByPlacesEachOnce<T>(xs: seq<T>, key: T -> Option<string>)
    requires GroupBy(xs, key).Success?
    ensures forall i :: 0 <= i < |xs| ==>
              key(xs[i]).value in GroupBy(xs, key).value && xs[i] in GroupBy(xs, key).value[key(xs[i]).value]
    ensures forall i, b :: 0 <= i < |xs| && b in GroupBy(xs, key).value && b != key(xs[i]).value ==>
              xs[i] !in GroupBy(xs, key).value[b]
    ensures forall b :: b in GroupBy(xs, key).value ==> |GroupBy(xs, key).value[b]| > 0
  {
    GroupByGroups(xs, key);
    var m := GroupBy(xs, key).value;
    forall i | 0 <= i < |xs|
      ensures key(xs[i]).value in m && xs[i] in m[key(xs[i]).value]
    {
      assert Occurs(xs, key, key(xs[i]).value);
      FilterMembers(xs, HasKeyFn(key, key(xs[i]).value));
    }
    forall i, b | 0 <= i < |xs| && b in m && b != key(xs[i]).value
      ensures xs[i] !in m[b]
    {
      FilterMembers(xs, HasKeyFn(key, b));
    }
    forall b | b in m
      ensures |m[b]| > 0
    {
      var i :| 0 <= i < |xs| && key(xs[i]) == Some(b);
      FilterMembers(xs, HasKeyFn(key, b));
      assert xs[i] in m[b];
    }
  }
}

=== FILE: java_lang.dfy ===
/** The few Java library conversions the stock codecs use, with the
    exceptions they throw. `Instant` values are whole epoch seconds and
    their ISO_INSTANT text is stood in for by the decimal numeral of that
    count: formatting is injective, parsing is partial, and parsing a
    formatted instant gives it back, which is all the codecs rely on.
    `BigDecimal` values are whole numbers (scale 0) in the same way. */
module JavaLang {
  import opened Wrappers
  import opened Numerals

  datatype JavaError =
    | NullPointer       // a null reference was dereferenced
    | IllegalArgument   // `valueOf` of an unknown name, or an unknown attribute
    | NumberFormat      // `Integer.parseInt` or `new BigDecimal` of bad text
    | DateTimeParse     // `Instant.parse` of bad text

  type Instant = int

  /** `DateTimeFormatter.ISO_INSTANT.format(instant)`. */
  function FormatInstant(instant: Instant): (s: string)
    ensures IsCanonical(s)
  {
    RenderIsCanonical(instant);
    Render(instant)
  }

  /** `Instant.parse(text)`; a null text throws NullPointerException. */
  function ParseInstant(text: Option<string>): (r: Result<Instant, JavaError>)
    ensures text.None? ==> r == Failure(NullPointer)
    ensures text.Some? ==> (r.Success? <==> IsNumeral(text.value))
    ensures r.Failure? && text.Some? ==> r.error == DateTimeParse
  {
    match text
    case None => Failure(NullPointer)
    case Some(s) =>
      match ParseInteger(s)
      case None => Failure(DateTimeParse)
      case Some(i) => Success(i)
  }

  /** Parsing the formatted text of an instant gives the instant back,
      and formatting the instant a canonical text parses to gives that
      text back. */
  lemma InstantRoundTrip(instant: Instant, text: string)
    ensures ParseInstant(Some(FormatInstant(instant))) == Success(instant)
    ensures IsCanonical(text) ==> ParseInstant(Some(text)).Success? && FormatInstant(ParseInstant(Some(text)).value) == text
  {
    ParseRender(instant);
  }

  /** `Integer.parseInt(text)`; a null text is a NumberFormatException. */
  function ParseJavaInt(text: Option<string>): (r: Result<Int32, JavaError>)
    ensures r.Success? <==> text.Some? && ParseInt(text.value).Some?
    ensures r.Success? ==> r.value == ParseInteger(text.value).value
    ensures r.Failure? ==> r.error == NumberFormat
  {
    if text.None? then Failure(NumberFormat)
    else match ParseInt(text.value)
      case None => Failure(NumberFormat)
      case Some(i) => Success(i)
  }

  /** `new BigDecimal(text)`; a null text throws NullPointerException. */
  function NewBigDecimal(text: Option<string>): (r: Result<int, JavaError>)
    ensures text.None? ==> r == Failure(NullPointer)
    ensures text.Some? ==> (r.Success? <==> IsNumeral(text.value))
    ensures r.Success? ==> r.value == ParseInteger(text.value).value
  {
    match text
    case None => Failure(NullPointer)
    case Some(s) =>
      match ParseInteger(s)
      case None => Failure(NumberFormat)
      case Some(d) => Success(d)
  }
}

=== FILE: numerals.dfy ===
/** Decimal numerals: how the model renders and parses the numbers that
    travel through DynamoDB `N` and `S` attributes (`Integer.toString` and
    `Integer.parseInt` for `unit`, the scale-0 form of `BigDecimal` for
    `unitPrice`, and the stand-in for the ISO-8601 instant text). */
module Numerals {
  import opened Wrappers

  const MinInt32: int := -0x8000_0000
  const MaxInt32: int := 0x7fff_ffff

  /** A Java `int`. */
  type Int32 = i: int | MinInt32 <= i <= MaxInt32

  predicate IsDigit(c: char)
  {
    '0' <= c <= '9'
  }

  predicate AllDigits(s: string)
  {
    forall i :: 0 <= i < |s| ==> IsDigit(s[i])
  }

  function DigitValue(c: char): (d: nat)
    requires IsDigit(c)
    ensures d < 10
  {
    (c as int) - ('0' as int)
  }

  function DigitChar(d: nat): (c: char)
    requires d < 10
    ensures IsDigit(c) && DigitValue(c) == d
  {
    (('0' as int) + d) as char
  }

  /** The digits of `n` without leading zeros ("0" for zero). */
  function DigitsOf(n: nat): (r: string)
    ensures |r| > 0 && AllDigits(r)
  {
    if n < 10 then [DigitChar(n)] else DigitsOf(n / 10) + [DigitChar(n % 10)]
  }

  /** The value of a string of decimal digits, most significant first. */
  function ValueOfDigits(s: string): nat
    requires AllDigits(s)
  {
    if |s| == 0 then 0 else ValueOfDigits(s[..|s| - 1]) * 10 + DigitValue(s[|s| - 1])
  }

  lemma {:induction false} DigitsRoundTrip(n: nat)
    ensures ValueOfDigits(DigitsOf(n)) == n
  {
    if n >= 10 {
      var s := DigitsOf(n);
      assert s[..|s| - 1] == DigitsOf(n / 10);
      DigitsRoundTrip(n / 10);
    }
  }

  /** `Integer.toString` / `Long.toString`: an optional minus sign, then
      the digits without leading zeros. */
  function Render(i: int): string
  {
    if i < 0 then "-" + DigitsOf(-i) else DigitsOf(i)
  }

  /** The text `Integer.parseInt` and `new BigDecimal` (at scale 0) accept:
      an optional sign followed by at least one decimal digit. */
  predicate IsNumeral(s: string)
  {
    if |s| > 0 && (s[0] == '-' || s[0] == '+') then |s| > 1 && AllDigits(s[1..])
    else |s| > 0 && AllDigits(s)
  }

  /** The integer a numeral denotes, or None for text that is not one
      (the parser would throw `NumberFormatException`). */
  function ParseInteger(s: string): (r: Option<int>)
    ensures r.Some? <==> IsNumeral(s)
    ensures r.Some? && s[0] == '-' ==> r.value <= 0
    ensures r.Some? && s[0] != '-' ==> r.value >= 0
  {
    if !IsNumeral(s) then None
    else if s[0] == '-' then Some(0 - ValueOfDigits(s[1..]) as int)
    else if s[0] == '+' then Some(ValueOfDigits(s[1..]))
    else Some(ValueOfDigits(s))
  }

  lemma RenderIsNumeral(i: int)
    ensures IsNumeral(Render(i))
  {
    if i < 0 {
      assert Render(i)[1..] == DigitsOf(-i);
    }
  }

  lemma ParseRender(i: int)
    ensures ParseInteger(Render(i)) == Some(i)
  {
    RenderIsNumeral(i);
    if i < 0 {
      assert Render(i)[1..] == DigitsOf(-i);
      DigitsRoundTrip(-i);
    } else {
      DigitsRoundTrip(i);
    }
  }

  /** `Integer.parseInt`: a numeral whose value fits in an `int`. */
  function ParseInt(s: string): (r: Option<Int32>)
    ensures r.Some? <==> IsNumeral(s) && MinInt32 <= ParseInteger(s).value <= MaxInt32
    ensures r.Some? ==> r.value == ParseInteger(s).value
  {
    match ParseInteger(s)
    case Some(v) => if MinInt32 <= v <= MaxInt32 then Some(v) else None
    case None => None
  }

  /** Rendering an `int` and parsing it back gives the same `int`. */
  lemma ParseIntRender(i: Int32)
    ensures ParseInt(Render(i)) == Some(i)
  {
    ParseRender(i);
  }

  /** Text such as "+7" or "007" parses, but is not the rendering of what
      it parses to. */
  predicate IsCanonical(s: string)
  {
    ParseInteger(s).Some? && Render(ParseInteger(s).value) == s
  }

  lemma RenderIsCanonical(i: int)
    ensures IsCanonical(Render(i))
  {
    ParseRender(i);
  }
}

=== FILE: seqs.dfy ===
/** Order-preserving filtering and mapping of sequences, the shape of every
    `stream().filter(...)`, `stream().map(...)` and query result in the
    model. */
module Seqs {
  import opened Wrappers

  function Filter<T>(xs: seq<T>, keep: T -> bool): (r: seq<T>)
    ensures |r| <= |xs|
    ensures forall i :: 0 <= i < |r| ==> keep(r[i])
    decreases |xs|
  {
    if xs == [] then [] else (if keep(xs[0]) then [xs[0]] else []) + Filter(xs[1..], keep)
  }

  /** Filtering keeps exactly the elements the predicate holds for. */
  lemma {:induction false} FilterMembers<T>(xs: seq<T>, keep: T -> bool)
    ensures forall x :: x in Filter(xs, keep) <==> x in xs && keep(x)
    decreases |xs|
  {
    if xs != [] {
      FilterMembers(xs[1..], keep);
      assert xs == [xs[0]] + xs[1..];
    }
  }

  function Map<T, U>(xs: seq<T>, f: T -> U): (r: seq<U>)
    ensures |r| == |xs|
    ensures forall i :: 0 <= i < |xs| ==> r[i] == f(xs[i])
  {
    seq(|xs|, i requires 0 <= i < |xs| => f(xs[i]))
  }

  /** Java's `stream().findFirst()`. */
  function First<T>(xs: seq<T>): (r: Option<T>)
    ensures r.None? <==> xs == []
    ensures r.Some? ==> r.value == xs[0]
  {
    if xs == [] then None else Some(xs[0])
  }

  lemma {:induction false} FilterConcat<T>(a: seq<T>, b: seq<T>, keep: T -> bool)
    ensures Filter(a + b, keep) == Filter(a, keep) + Filter(b, keep)
    decreases |a|
  {
    if a != [] {
      assert (a + b)[1..] == a[1..] + b;
      FilterConcat(a[1..], b, keep);
    } else {
      assert a + b == b;
    }
  }

  lemma {:induction false} FilterKeepsAll<T>(xs: seq<T>, keep: T -> bool)
    requires forall i :: 0 <= i < |xs| ==> keep(xs[i])
    ensures Filter(xs, keep) == xs
    decreases |xs|
  {
    if xs != [] {
      FilterKeepsAll(xs[1..], keep);
    }
  }

  lemma {:induction false} FilterKeepsNone<T>(xs: seq<T>, keep: T -> bool)
    requires forall i :: 0 <= i < |xs| ==> !keep(xs[i])
    ensures Filter(xs, keep) == []
    decreases |xs|
  {
    if xs != [] {
      FilterKeepsNone(xs[1..], keep);
    }
  }

  lemma EmptyConcat<T>(xs: seq<T>)
    ensures [] + xs == xs
  {
  }

  lemma ConcatAssociative<T>(a: seq<T>, b: seq<T>, c: seq<T>)
    ensures (a + b) + c == a + (b + c)
  {
  }

  lemma SliceSplit<T>(xs: seq<T>, a: nat, b: nat, c: nat)
    requires a <= b <= c <= |xs|
    ensures xs[a..c] == xs[a..b] + xs[b..c]
  {
  }

  lemma SliceOfSlice<T>(xs: seq<T>, a: nat, b: nat, n: nat)
    requires a <= b <= |xs| && n <= b - a
    ensures xs[a..b][..n] == xs[a..a + n]
  {
  }

  lemma SuffixPrefix<T>(xs: seq<T>, a: nat, n: nat)
    requires a + n <= |xs|
    ensures xs[a..][..n] == xs[a..a + n]
  {
  }

  lemma SuffixIsSlice<T>(xs: seq<T>, a: nat)
    requires a <= |xs|
    ensures xs[a..] == xs[a..|xs|]
  {
  }

  /** Filtering one element more at the end of a prefix. */
  lemma FilterSnoc<T>(xs: seq<T>, n: nat, keep: T -> bool)
    requires n < |xs|
    ensures Filter(xs[..n + 1], keep) == Filter(xs[..n], keep) + (if keep(xs[n]) then [xs[n]] else [])
  {
    assert xs[..n + 1] == xs[..n] + [xs[n]];
    FilterConcat(xs[..n], [xs[n]], keep);
    assert [xs[n]][1..] == [];
  }

  /** The k-th kept element sits at some index q, and the prefix cut just
      after q keeps exactly the first k + 1 kept elements. */
  lemma {:induction false} FilterPrefixAt<T>(ys: seq<T>, k: nat, keep: T -> bool) returns (q: nat)
    requires k < |Filter(ys, keep)|
    ensures q < |ys| && ys[q] == Filter(ys, keep)[k]
    ensures Filter(ys[..q + 1], keep) == Filter(ys, keep)[..k + 1]
    decreases |ys|
  {
    var n := |ys| - 1;
    var whole := Filter(ys, keep);
    var front := Filter(ys[..n], keep);
    assert ys[..n + 1] == ys;
    FilterSnoc(ys, n, keep);
    assert whole == front + (if keep(ys[n]) then [ys[n]] else []);
    if k < |front| {
      q := FilterPrefixAt(ys[..n], k, keep);
      assert ys[..n][..q + 1] == ys[..q + 1];
      assert whole[k] == front[k];
      assert whole[..k + 1] == front[..k + 1];
    } else {
      q := n;
      assert whole[..k + 1] == whole;
    }
  }

  function Not<T>(keep: T -> bool): T -> bool
  {
    x => !keep(x)
  }

  /** Every element is kept by exactly one of a filter and its negation. */
  lemma {:induction false} FilterSplitsCount<T>(xs: seq<T>, keep: T -> bool)
    ensures |Filter(xs, keep)| + |Filter(xs, Not(keep))| == |xs|
    decreases |xs|
  {
    if xs != [] {
      FilterSplitsCount(xs[1..], keep);
    }
  }

  /** Filters that agree on every element select the same elements. */
  lemma {:induction false} FilterCongruent<T>(xs: seq<T>, f: T -> bool, g: T -> bool)
    requires forall i :: 0 <= i < |xs| ==> f(xs[i]) == g(xs[i])
    ensures Filter(xs, f) == Filter(xs, g)
    decreases |xs|
  {
    if xs != [] {
      FilterCongruent(xs[1..], f, g);
    }
  }

  /** When exactly the element at index i is kept, the filter yields it alone. */
  lemma FilterSingle<T>(xs: seq<T>, i: nat, keep: T -> bool)
    requires i < |xs| && keep(xs[i])
    requires forall j :: 0 <= j < |xs| && j != i ==> !keep(xs[j])
    ensures Filter(xs, keep) == [xs[i]]
  {
    var front, back := xs[..i], xs[i + 1..];
    assert xs == front + [xs[i]] + back;
    forall j | 0 <= j < |front| ensures !keep(front[j]) { assert front[j] == xs[j]; }
    forall j | 0 <= j < |back| ensures !keep(back[j]) { assert back[j] == xs[i + 1 + j]; }
    FilterKeepsNone(front, keep);
    FilterKeepsNone(back, keep);
    FilterConcat(front + [xs[i]], back, keep);
    FilterConcat(front, [xs[i]], keep);
    assert [xs[i]][1..] == [];
  }

  /** A kept element past position n is lost by filtering only the first
      n elements. */
  lemma FilterPrefixMisses<T>(xs: seq<T>, n: nat, i: nat, keep: T -> bool)
    requires n <= i < |xs| && keep(xs[i])
    ensures |Filter(xs[..n], keep)| < |Filter(xs, keep)|
  {
    assert xs == xs[..n] + xs[n..];
    FilterConcat(xs[..n], xs[n..], keep);
    FilterMembers(xs[n..], keep);
    assert xs[n..][i - n] == xs[i];
  }
}

=== FILE: show_ticket_service.dfy ===
/** The theatre service: it calls the theatre DAO and maps records to
    DTOs with the theatre mapper. The show DTO's mapper is generated code
    for a class this model does not include, so it is a parameter, and
    the reference a reservation is made under (a random UUID in the
    service) is passed in. */
module ShowTicketService {
  import opened Wrappers
  import opened Seqs
  import opened Store
  import opened Grouping
  import opened TheatreDao
  import opened TicketMapper

  /** The store after a call, and what the call returned or threw. */
  datatype Reply<T> = Reply(after: Table, result: Result<T, DaoError>)

  /** `findTheatreShow`: the show record, mapped. */
  function FindTheatreShow<Show>(t: Table, showId: string, mapShow: Item -> Show): (r: Option<Show>)
    ensures r.None? <==> FindShowById(t, showId).None?
  {
    match FindShowById(t, showId)
    case None => None
    case Some(show) => Some(mapShow(show))
  }

  /** There is a show exactly when a record is stored under "SHOW", and
      the service returns that record mapped. */
  lemma FindTheatreShowIsStoredShow<Show>(t: Table, showId: string, mapShow: Item -> Show)
    requires IsTheatreTable(t)
    ensures FindTheatreShow(t, showId, mapShow).Some? <==> ItemAt(t, showId, ShowSortKey).Some?
    ensures FindTheatreShow(t, showId, mapShow).Some? ==>
              FindTheatreShow(t, showId, mapShow).value == mapShow(ItemAt(t, showId, ShowSortKey).value)
  {
    FindByKeyIsItemAt(t, showId, ShowSortKey);
  }

  /** `findTheatreShowAndTickets`: the split partition with the show and
      every ticket mapped, one DTO per record, in the same order. */
  function FindTheatreShowAndTickets<Show>(t: Table, showId: string, mapShow: Item -> Show): (r: Result<(Show, seq<Ticket>), DaoError>)
    ensures r.Success? <==> FindShowAndTicketsById(t, showId).Success?
    ensures r.Success? ==> var records := FindShowAndTicketsById(t, showId).value.1;
              && |r.value.1| == |records|
              && forall i :: 0 <= i < |records| ==> r.value.1[i] == TheatreMapFromItem(records[i])
  {
    match FindShowAndTicketsById(t, showId)
    case Failure(e) => Failure(e)
    case Success(split) => Success((mapShow(split.0), Map(split.1, TheatreMapFromItem)))
  }

  /** On the theatre table the tickets are the "TICKET#" records in
      sort-key order, each carrying its record's reference, and the show
      is the stored show mapped (or the empty placeholder mapped). */
  lemma FindTheatreShowAndTicketsContents<Show>(t: Table, showId: string, mapShow: Item -> Show)
    requires IsTheatreTable(t)
    ensures FindTheatreShowAndTickets(t, showId, mapShow).Success?
    ensures var records := QueryBeginsWith(t, showId, TicketSortKeyPrefix);
            var tickets := FindTheatreShowAndTickets(t, showId, mapShow).value.1;
            && |tickets| == |records|
            && forall i :: 0 <= i < |records| ==>
                 tickets[i].reference == TicketRefOf(records[i]) && tickets[i].status == StatusOf(records[i])
    ensures FindTheatreShowAndTickets(t, showId, mapShow).value.0 ==
              mapShow(if ItemAt(t, showId, ShowSortKey).Some? then ItemAt(t, showId, ShowSortKey).value else EmptyShowItem)
  {
    FindShowAndTicketsByIdMatchesQueries(t, showId);
    FindByKeyIsItemAt(t, showId, ShowSortKey);
  }

  function AreaOfTicket(): Ticket -> Option<string>
  {
    (ticket: Ticket) => ticket.area
  }

  /** `findTicketsGroupingByArea`: the show's ticket DTOs grouped by area;
      a ticket without an area makes the grouping throw. */
  function FindTicketsGroupingByArea(t: Table, showId: string): (r: Result<map<string, seq<Ticket>>, DaoError>)
    ensures r.Success? <==>
              && FindShowAndTicketsById(t, showId).Success?
              && var records := FindShowAndTicketsById(t, showId).value.1;
                 forall i :: 0 <= i < |records| ==> StringAttribute(records[i], "area").Some?
  {
    match FindShowAndTicketsById(t, showId)
    case Failure(e) => Failure(e)
    case Success(split) =>
      match GroupBy(Map(split.1, TheatreMapFromItem), AreaOfTicket())
      case Failure(_) => Failure(NullPointer)
      case Success(groups) => Success(groups)
  }

  /** The DAO's ticket records of the show, mapped to DTOs. */
  function MappedTickets(t: Table, showId: string): seq<Ticket>
    requires FindShowAndTicketsById(t, showId).Success?
  {
    Map(FindShowAndTicketsById(t, showId).value.1, TheatreMapFromItem)
  }

  /** Every ticket is in the group of its own area and in no other, the
      groups are exactly the areas that occur (so none is empty), and each
      group keeps the order of the DAO's ticket list. */
  lemma FindTicketsGroupingByAreaGroups(t: Table, showId: string)
    requires FindTicketsGroupingByArea(t, showId).Success?
    ensures forall a :: a in FindTicketsGroupingByArea(t, showId).value <==> Occurs(MappedTickets(t, showId), AreaOfTicket(), a)
    ensures forall a :: a in FindTicketsGroupingByArea(t, showId).value ==>
              FindTicketsGroupingByArea(t, showId).value[a] == Filter(MappedTickets(t, showId), HasKeyFn(AreaOfTicket(), a))
    ensures forall a :: a in FindTicketsGroupingByArea(t, showId).value ==> |FindTicketsGroupingByArea(t, showId).value[a]| > 0
    ensures forall i :: 0 <= i < |MappedTickets(t, showId)| ==>
              var ticket := MappedTickets(t, showId)[i];
              ticket.area.value in FindTicketsGroupingByArea(t, showId).value
              && ticket in FindTicketsGroupingByArea(t, showId).value[ticket.area.value]
    ensures forall i, a ::
              (&& 0 <= i < |MappedTickets(t, showId)|
               && a in FindTicketsGroupingByArea(t, showId).value
               && a != MappedTickets(t, showId)[i].area.value)
              ==> MappedTickets(t, showId)[i] !in FindTicketsGroupingByArea(t, showId).value[a]
  {
    var tickets := MappedTickets(t, showId);
    assert GroupBy(tickets, AreaOfTicket()).Success?;
    assert FindTicketsGroupingByArea(t, showId).value == GroupBy(tickets, AreaOfTicket()).value;
    GroupByGroups(tickets, AreaOfTicket());
    GroupByPlacesEachOnce(tickets, AreaOfTicket());
  }

  /** `reserveTicket`: reserves under the given reference and returns it;
      when the DAO throws, the exception propagates instead. */
  function ReserveTicket(t: Table, showId: string, ticketId: string, ticketRef: string): (r: Reply<string>)
    requires t.schema == Schema
    ensures r.result == Success(ticketRef) <==> TheatreDao.ReserveTicket(t, showId, ticketId, ticketRef).failure.None?
    ensures r.result.Failure? ==> r.after == t && r.result.error == TicketReservation
    ensures r.after == TheatreDao.ReserveTicket(t, showId, ticketId, ticketRef).after
  {
    var w := TheatreDao.ReserveTicket(t, showId, ticketId, ticketRef);
    match w.failure
    case None => Reply(w.after, Success(ticketRef))
    case Some(e) => Reply(w.after, Failure(e))
  }

  /** `findTicketByReference`: the record found through the reference
      index, mapped. */
  function FindTicketByReference(t: Table, showId: string, reference: string): (r: Option<Ticket>)
    ensures r.None? <==> TheatreDao.FindTicketByReference(t, showId, reference).None?
    ensures r.Some? ==> r.value.reference == Some(reference)
  {
    match TheatreDao.FindTicketByReference(t, showId, reference)
    case None => None
    case Some(item) => Some(TheatreMapFromItem(item))
  }

  /** Reserving a ticket and then looking up the reference the service
      returned finds a RESERVED ticket under that reference. */
  lemma ReserveThenFindTicket(t: Table, showId: string, ticketId: string, ticketRef: string)
    requires IsTheatreTable(t)
    requires IsFreshReference(t, showId, ticketRef)
    requires IsAvailable(t, showId, ticketId)
    ensures var r := ReserveTicket(t, showId, ticketId, ticketRef);
            && r.result == Success(ticketRef)
            && FindTicketByReference(r.after, showId, r.result.value).Some?
            && FindTicketByReference(r.after, showId, r.result.value).value.status == Some(Reserved)
  {
    ReserveThenFindByReference(t, showId, ticketId, ticketRef);
  }
}

=== FILE: stock_dao_as_written.dfy ===
/** What the stock transaction readers do as written, on a table written
    by `saveStockTransaction`. `toStockTransaction` reads `unitPrice` with
    `s()`, but the record stores it as a number, so every reader throws
    NullPointerException (Undecodable here) as soon as its response holds
    one record. It succeeds only when it has nothing to return. */
module StockDaoAsWritten {
  import opened Wrappers
  import opened Strings
  import opened Seqs
  import opened Store
  import opened JavaLang
  import opened StockTransactions
  import opened StockTransactionKeys
  import opened StockTransactionDao
  import opened StockDaoProperties

  // ---------------------------------------------------------------------
  // Items of a stock table, read as written

  /** Items drawn from a stock table's partition all decode as written
      exactly when there are none. */
  lemma NoneDecodeAsWritten(t: Table, account: string, items: seq<Item>)
    requires IsStockTable(t)
    requires forall x :: x in items ==> x in Partition(t, account)
    ensures AllDecode(items, ReadUnitPriceAsWritten()) <==> items == []
  {
    if items != [] {
      var part := Partition(t, account);
      assert items[0] in items;
      var j :| 0 <= j < |part| && part[j] == items[0];
      assert IsStockRecord(t.partitions[account][j]);
      StoredRecordRejectedAsWritten(items[0]);
    }
  }

  /** The items a filter keeps from a stretch of a sequence lie in the
      suffix the stretch starts in. */
  lemma StretchWithin(part: seq<Item>, s: nat, a: nat, b: nat, filter: Option<Condition>)
    requires s <= a <= b <= |part|
    ensures forall x :: x in Apply(part[a..b], filter) ==> x in part[s..]
  {
    if filter.Some? {
      FilterMembers(part[a..b], HoldsFn(filter.value));
    }
    forall x | x in Apply(part[a..b], filter) ensures x in part[s..] {
      var j :| 0 <= j < b - a && part[a..b][j] == x;
      assert part[s..][a - s + j] == x;
    }
  }

  /** No item of the sequence from index s on is kept by the filter. */
  predicate NoMatchFrom(part: seq<Item>, s: nat, keep: Item -> bool)
  {
    forall i :: s <= i < |part| ==> !keep(part[i])
  }

  /** NoMatchFrom says what an empty filter of the suffix says. */
  lemma NoMatchFromFilter(part: seq<Item>, s: nat, keep: Item -> bool)
    requires s <= |part|
    ensures NoMatchFrom(part, s, keep) <==> Filter(part[s..], keep) == []
  {
    FilterMembers(part[s..], keep);
    if Filter(part[s..], keep) != [] {
      var x := Filter(part[s..], keep)[0];
      assert x in Filter(part[s..], keep);
      var j :| 0 <= j < |part| - s && part[s..][j] == x;
      assert part[s + j] == x && keep(x);
    } else {
      forall i | s <= i < |part| ensures !keep(part[i]) {
        assert part[s..][i - s] == part[i];
      }
    }
  }

  /** A stretch beyond which nothing matches filters to nothing. */
  lemma NoMatchStretch(part: seq<Item>, s: nat, e: nat, keep: Item -> bool)
    requires s <= e <= |part|
    requires NoMatchFrom(part, s, keep)
    ensures Filter(part[s..e], keep) == []
  {
    forall i | 0 <= i < e - s ensures !keep(part[s..e][i]) {
      assert part[s..e][i] == part[s + i];
    }
    NoneKept(part[s..e], keep);
  }

  /** A filter that holds for no element keeps nothing. */
  lemma {:induction false} NoneKept(xs: seq<Item>, keep: Item -> bool)
    requires forall i :: 0 <= i < |xs| ==> !keep(xs[i])
    ensures Filter(xs, keep) == []
    decreases |xs|
  {
    if xs != [] {
      forall i | 0 <= i < |xs| - 1 ensures !keep(xs[1..][i]) {
        assert xs[1..][i] == xs[i + 1];
      }
      NoneKept(xs[1..], keep);
    }
  }


  // ---------------------------------------------------------------------
  // One request

  /** Given a cursor the readers accept and a positive limit, a request
      succeeds on a stock table exactly when the stretch it reads decodes,
      whichever `unitPrice` reader decodes it. */
  lemma RequestReadsStretch(t: Table, account: string, limit: int, key: Option<StockTransactionKey>,
                            filter: Option<Condition>, readPrice: PriceReader) returns (s: nat, e: nat)
    requires IsStockTable(t)
    requires ValidCursor(account, key)
    requires limit >= 1
    ensures s == Start(t, account, key)
    ensures e == if |Partition(t, account)| - s < limit then |Partition(t, account)| else s + limit
    ensures s <= e <= |Partition(t, account)|
    ensures QueryTransactions(t, account, limit, key, filter, readPrice).Success? <==>
              AllDecode(Apply(Partition(t, account)[s..e], filter), readPrice)
    ensures QueryTransactions(t, account, limit, key, filter, readPrice).Success? ==>
              QueryTransactions(t, account, limit, key, filter, readPrice).value.results
              == DecodedRecords(Apply(Partition(t, account)[s..e], filter), readPrice)
  {
    RequestAccepted(t, account, limit, key, filter);
    ResponseDecodes(t, account, limit, key, filter);
    StockTableIsCursorSafe(t);
    s, e := PageItems(t, account, limit, key, filter);
  }

  /** One request as written, given a cursor the readers accept: it reads
      the stretch [s, e) from the cursor's index, and it succeeds exactly
      when the limit is positive and the stretch holds nothing the filter
      keeps; it then returns no records. */
  lemma QueryTransactionsAsWritten(t: Table, account: string, limit: int, key: Option<StockTransactionKey>,
                                   filter: Option<Condition>) returns (s: nat, e: nat)
    requires IsStockTable(t)
    requires ValidCursor(account, key)
    ensures s == Start(t, account, key)
    ensures limit >= 1 ==> e == if |Partition(t, account)| - s < limit then |Partition(t, account)| else s + limit
    ensures s <= e <= |Partition(t, account)|
    ensures QueryTransactions(t, account, limit, key, filter, ReadUnitPriceAsWritten()).Success? <==>
              limit >= 1 && Apply(Partition(t, account)[s..e], filter) == []
    ensures QueryTransactions(t, account, limit, key, filter, ReadUnitPriceAsWritten()).Success? ==>
              && QueryTransactions(t, account, limit, key, filter, ReadUnitPriceAsWritten()).value.results == []
              && (QueryTransactions(t, account, limit, key, filter, ReadUnitPriceAsWritten()).value.nextQueryKey.None?
                  <==> |Partition(t, account)| - s < limit)
  {
    s := Start(t, account, key);
    e := s;
    if limit >= 1 {
      var part := Partition(t, account);
      s, e := RequestReadsStretch(t, account, limit, key, filter, ReadUnitPriceAsWritten());
      StretchWithin(part, 0, s, e, filter);
      assert part[0..] == part;
      NoneDecodeAsWritten(t, account, Apply(part[s..e], filter));
      var r := QueryTransactions(t, account, limit, key, filter, ReadUnitPriceAsWritten());
      if r.Success? {
        StockTableIsCursorSafe(t);
        StepCursor(t, account, limit, key, filter, ReadUnitPriceAsWritten());
        assert |r.value.results| == 0;
      }
    }
  }

  // ---------------------------------------------------------------------
  // The readers

  /** `findStockTransactionByAccountNumber` as written throws on every
      account that holds a record, and returns the empty list otherwise. */
  lemma FindByAccountAsWritten(t: Table, account: string)
    requires IsStockTable(t)
    ensures FindByAccount(t, account, ReadUnitPriceAsWritten())
            == if Partition(t, account) == [] then Success([]) else Failure(Undecodable)
  {
    NoneDecodeAsWritten(t, account, Partition(t, account));
  }

  /** The paged `findStockTransactionByAccountNumber` as written succeeds
      only from a cursor with nothing after it, returning an empty last
      page. */
  lemma FindByAccountPageAsWritten(t: Table, account: string, pageSize: int, exclusiveStartKey: Option<StockTransactionKey>)
    requires IsStockTable(t)
    requires ValidCursor(account, exclusiveStartKey)
    ensures FindByAccountPage(t, account, pageSize, exclusiveStartKey, ReadUnitPriceAsWritten()).Success? <==>
              pageSize >= 1 && Start(t, account, exclusiveStartKey) == |Partition(t, account)|
    ensures FindByAccountPage(t, account, pageSize, exclusiveStartKey, ReadUnitPriceAsWritten()).Success? ==>
              FindByAccountPage(t, account, pageSize, exclusiveStartKey, ReadUnitPriceAsWritten()).value == QueryResultPage([], None)
  {
    var s, e := QueryTransactionsAsWritten(t, account, pageSize, exclusiveStartKey, None);
  }

  /** The two-argument `findStockTransactionByAccountNumberAndTradeAction`
      as written succeeds exactly when none of the first ten items of the
      partition carries the trade action, and then returns no records. */
  lemma FindByAccountAndActionAsWritten(t: Table, account: string, action: TradeAction)
    requires IsStockTable(t)
    ensures var part := Partition(t, account);
            var n := if |part| < FixedLimit then |part| else FixedLimit;
            FindByAccountAndAction(t, account, action, ReadUnitPriceAsWritten()).Success? <==>
              Filter(part[..n], Matches(action)) == []
    ensures FindByAccountAndAction(t, account, action, ReadUnitPriceAsWritten()).Success? ==>
              FindByAccountAndAction(t, account, action, ReadUnitPriceAsWritten()).value.results == []
  {
    var part := Partition(t, account);
    var n := if |part| < FixedLimit then |part| else FixedLimit;
    var s, e := QueryTransactionsAsWritten(t, account, FixedLimit, None, Some(ActionIs(action)));
    assert part[s..e] == part[..n];
  }

  /** `findStockTransactionByAccountNumberWithTimeRange` as written
      succeeds exactly when the bounds are in order and no record of the
      account lies between them, and then returns the empty list. */
  lemma TimeRangeAsWritten(t: Table, account: string, startTime: Instant, endTime: Instant)
    requires IsStockTable(t)
    ensures var lo, hi := FormatInstant(startTime), FormatInstant(endTime);
            FindByAccountWithTimeRange(t, account, startTime, endTime, ReadUnitPriceAsWritten()).Success? <==>
              !LexLess(hi, lo) && Filter(Partition(t, account), BetweenFn(Schema, lo, hi)) == []
    ensures FindByAccountWithTimeRange(t, account, startTime, endTime, ReadUnitPriceAsWritten()).Success? ==>
              FindByAccountWithTimeRange(t, account, startTime, endTime, ReadUnitPriceAsWritten()).value == []
  {
    var lo, hi := FormatInstant(startTime), FormatInstant(endTime);
    var part := Partition(t, account);
    FilterMembers(part, BetweenFn(Schema, lo, hi));
    NoneDecodeAsWritten(t, account, Filter(part, BetweenFn(Schema, lo, hi)));
  }

  /** One fetch of the loop as written, from a cursor with no item after
      it carrying the trade action: it succeeds with no records. */
  lemma DoFindAsWritten(t: Table, account: string, action: TradeAction, pageSize: int, key: Option<StockTransactionKey>)
    requires IsStockTable(t)
    requires ValidCursor(account, key)
    requires pageSize >= 1
    requires NoMatchFrom(Partition(t, account), Start(t, account, key), Matches(action))
    ensures CursorSafe(t)
    ensures DoFind(t, account, action, pageSize, key, ReadUnitPriceAsWritten()).Success?
    ensures DoFind(t, account, action, pageSize, key, ReadUnitPriceAsWritten()).value.results == []
  {
    StockTableIsCursorSafe(t);
    var part := Partition(t, account);
    var s := Start(t, account, key);
    var e := if |part| - s < pageSize then |part| else s + pageSize;
    NoMatchStretch(part, s, e, Matches(action));
    var s', e' := QueryTransactionsAsWritten(t, account, pageSize, key, Some(ActionIs(action)));
    assert s' == s && e' == e;
    assert Apply(part[s'..e'], Some(ActionIs(action))) == [];
  }

  /** A cursor that fetch returns has moved forward and still has no item
      carrying the trade action after it. */
  lemma DoFindAsWrittenNext(t: Table, account: string, action: TradeAction, pageSize: int, key: Option<StockTransactionKey>)
    requires CursorSafe(t)
    requires pageSize >= 1
    requires NoMatchFrom(Partition(t, account), Start(t, account, key), Matches(action))
    requires DoFind(t, account, action, pageSize, key, ReadUnitPriceAsWritten()).Success?
    requires DoFind(t, account, action, pageSize, key, ReadUnitPriceAsWritten()).value.nextQueryKey.Some?
    ensures ValidCursor(account, DoFind(t, account, action, pageSize, key, ReadUnitPriceAsWritten()).value.nextQueryKey)
    ensures Unread(t, account, DoFind(t, account, action, pageSize, key, ReadUnitPriceAsWritten()).value.nextQueryKey)
            < Unread(t, account, key)
    ensures NoMatchFrom(Partition(t, account), Start(t, account, DoFind(t, account, action, pageSize, key, ReadUnitPriceAsWritten()).value.nextQueryKey),
                        Matches(action))
  {
    DoFindNext(t, account, action, pageSize, key, ReadUnitPriceAsWritten());
    DoFindNextEmpty(t, account, action, pageSize, key, ReadUnitPriceAsWritten());
  }

  /** No item after a fetch's cursor carries the trade action when none
      did after the cursor it started from, whichever reader decoded it. */
  lemma DoFindNextEmpty(t: Table, account: string, action: TradeAction, pageSize: int, key: Option<StockTransactionKey>,
                        readPrice: PriceReader)
    requires CursorSafe(t)
    requires NoMatchFrom(Partition(t, account), Start(t, account, key), Matches(action))
    requires DoFind(t, account, action, pageSize, key, readPrice).Success?
    requires DoFind(t, account, action, pageSize, key, readPrice).value.nextQueryKey.Some?
    ensures NoMatchFrom(Partition(t, account), Start(t, account, DoFind(t, account, action, pageSize, key, readPrice).value.nextQueryKey),
                        Matches(action))
  {
    var next := DoFind(t, account, action, pageSize, key, readPrice).value.nextQueryKey;
    var s := Start(t, account, key);
    DoFindNext(t, account, action, pageSize, key, readPrice);
    assert Start(t, account, next) >= s;
  }

  /** A cursor a fetch returns is accepted again and resumes a full limit
      further on, whichever `unitPrice` reader decoded the page. */
  lemma DoFindNext(t: Table, account: string, action: TradeAction, pageSize: int, key: Option<StockTransactionKey>,
                   readPrice: PriceReader)
    requires CursorSafe(t)
    requires DoFind(t, account, action, pageSize, key, readPrice).Success?
    requires DoFind(t, account, action, pageSize, key, readPrice).value.nextQueryKey.Some?
    ensures ValidCursor(account, DoFind(t, account, action, pageSize, key, readPrice).value.nextQueryKey)
    ensures Unread(t, account, DoFind(t, account, action, pageSize, key, readPrice).value.nextQueryKey) < Unread(t, account, key)
    ensures Start(t, account, DoFind(t, account, action, pageSize, key, readPrice).value.nextQueryKey)
            == Start(t, account, key) + pageSize <= |Partition(t, account)|
  {
    DoFindCursor(t, account, action, pageSize, key, readPrice);
    DoFindAdvances(t, account, action, pageSize, key, readPrice);
    StepCursor(t, account, pageSize, key, Some(ActionIs(action)), readPrice);
  }

  /** The loop of the four-argument reader as written succeeds when no
      item from the cursor on carries the trade action. */
  lemma {:induction false} AccumulateAsWrittenSucceeds(t: Table, account: string, action: TradeAction, pageSize: int,
                                                       key: Option<StockTransactionKey>, results: seq<StockTransaction>)
    requires IsStockTable(t)
    requires ValidCursor(account, key)
    requires pageSize >= 1
    requires NoMatchFrom(Partition(t, account), Start(t, account, key), Matches(action))
    ensures CursorSafe(t)
    ensures Accumulate(t, account, action, pageSize, key, results, ReadUnitPriceAsWritten()).Success?
    decreases Unread(t, account, key)
  {
    DoFindAsWritten(t, account, action, pageSize, key);
    var page := DoFind(t, account, action, pageSize, key, ReadUnitPriceAsWritten()).value;
    if |results + page.results| < pageSize && page.nextQueryKey.Some? {
      DoFindAsWrittenNext(t, account, action, pageSize, key);
      AccumulateAsWrittenSucceeds(t, account, action, pageSize, page.nextQueryKey, results + page.results);
      assert Accumulate(t, account, action, pageSize, key, results, ReadUnitPriceAsWritten())
          == Accumulate(t, account, action, pageSize, page.nextQueryKey, results + page.results, ReadUnitPriceAsWritten());
    }
  }

  /** The four-argument `findStockTransactionByAccountNumberAndTradeAction`
      as written succeeds exactly when the page size is positive and no
      item from the cursor on carries the trade action; it then returns an
      empty page with a null cursor. */
  lemma PageAsWritten(t: Table, account: string, action: TradeAction, pageSize: int,
                      exclusiveStartKey: Option<StockTransactionKey>)
    requires IsStockTable(t)
    requires ValidCursor(account, exclusiveStartKey)
    ensures CursorSafe(t)
    ensures FindByAccountAndActionPage(t, account, action, pageSize, exclusiveStartKey, ReadUnitPriceAsWritten()).Success? <==>
              pageSize >= 1 && Filter(Partition(t, account)[Start(t, account, exclusiveStartKey)..], Matches(action)) == []
    ensures FindByAccountAndActionPage(t, account, action, pageSize, exclusiveStartKey, ReadUnitPriceAsWritten()).Success? ==>
              FindByAccountAndActionPage(t, account, action, pageSize, exclusiveStartKey, ReadUnitPriceAsWritten()).value
              == QueryResultPage([], None)
  {
    StockTableIsCursorSafe(t);
    var part := Partition(t, account);
    var s := Start(t, account, exclusiveStartKey);
    var r := FindByAccountAndActionPage(t, account, action, pageSize, exclusiveStartKey, ReadUnitPriceAsWritten());
    if r.Success? {
      assert Accumulate(t, account, action, pageSize, exclusiveStartKey, [], ReadUnitPriceAsWritten()).Success?;
      PageSpec(t, account, action, pageSize, exclusiveStartKey, ReadUnitPriceAsWritten());
      var e := Stop(t, account, r.value.nextQueryKey);
      StretchWithin(part, 0, s, e, Some(ActionIs(action)));
      assert part[0..] == part;
      NoneDecodeAsWritten(t, account, Filter(part[s..e], Matches(action)));
      SuffixIsSlice(part, s);
    } else if pageSize >= 1 && Filter(part[s..], Matches(action)) == [] {
      NoMatchFromFilter(part, s, Matches(action));
      AccumulateAsWrittenSucceeds(t, account, action, pageSize, exclusiveStartKey, []);
    }
  }

  /** A client following the cursors as written from a null cursor
      succeeds exactly when the page size is positive and the account holds
      no record with the trade action, and then receives nothing. */
  lemma FollowCursorsAsWritten(t: Table, account: string, action: TradeAction, pageSize: int)
    requires IsStockTable(t)
    ensures CursorSafe(t)
    ensures FollowCursors(t, account, action, pageSize, None, ReadUnitPriceAsWritten()).Success? <==>
              pageSize >= 1 && Filter(Partition(t, account), Matches(action)) == []
    ensures FollowCursors(t, account, action, pageSize, None, ReadUnitPriceAsWritten()).Success? ==>
              FollowCursors(t, account, action, pageSize, None, ReadUnitPriceAsWritten()).value == []
  {
    PageAsWritten(t, account, action, pageSize, None);
    var part := Partition(t, account);
    assert part[0..] == part;
  }
}

=== FILE: stock_dao_properties.dfy ===
/** What the stock transaction readers guarantee on a table written by
    `saveStockTransaction`: every request succeeds for a positive page
    size and a cursor the readers produced, every returned record belongs
    to the account (and carries the requested trade action), records come
    in timestamp order, and a client following the cursors of the
    four-argument reader sees every matching record exactly once. */
module StockDaoProperties {
  import opened Wrappers
  import opened Strings
  import opened Seqs
  import opened Numerals
  import opened Store
  import opened JavaLang
  import opened StockTransactions
  import opened StockTransactionKeys
  import opened StockTransactionDao

  // ---------------------------------------------------------------------
  // Items of a stock table

  /** Every item of a stretch of the partition (filtered or not) decodes. */
  lemma StretchDecodes(t: Table, account: string, s: nat, e: nat, filter: Option<Condition>)
    requires IsStockTable(t)
    requires s <= e <= |Partition(t, account)|
    ensures AllDecode(Apply(Partition(t, account)[s..e], filter), ReadUnitPrice())
  {
    var part := Partition(t, account);
    var items := Apply(part[s..e], filter);
    if filter.Some? {
      FilterMembers(part[s..e], HoldsFn(filter.value));
    }
    forall i | 0 <= i < |items| ensures DecodeItem(items[i], ReadUnitPrice()).Some? {
      assert items[i] in part[s..e];
      var j :| 0 <= j < e - s && part[s..e][j] == items[i];
      assert part[s + j] == items[i];
    }
  }

  /** The key of a stored record decodes, so the cursor built from a
      last-evaluated key never fails. */
  lemma StoredKeyDecodes(t: Table, account: string, i: nat)
    requires IsStockTable(t)
    requires i < |Partition(t, account)|
    ensures KeyDecodes(KeyMap(Schema, account, SortKeyOf(Schema, Partition(t, account)[i])))
  {
    var sk := SortKeyOf(Schema, Partition(t, account)[i]);
    var m := KeyMap(Schema, account, sk);
    assert IsCanonical(sk);
    forall k | k in m ensures DecodeKeyField(k, m[k]).Success? {
      if k == "timestamp" {
        assert StringMember(m[k]) == Some(sk);
      }
    }
  }

  // ---------------------------------------------------------------------
  // Success

  /** On a stock table one request succeeds exactly when the limit is
      positive, given a cursor the readers accept. */
  lemma QueryTransactionsSucceeds(t: Table, account: string, limit: int, key: Option<StockTransactionKey>,
                                  filter: Option<Condition>)
    requires IsStockTable(t)
    requires ValidCursor(account, key)
    ensures QueryTransactions(t, account, limit, key, filter, ReadUnitPrice()).Success? <==> limit >= 1
  {
    if limit >= 1 {
      RequestAccepted(t, account, limit, key, filter);
      ResponseDecodes(t, account, limit, key, filter);
    }
  }

  /** The start key built from an accepted cursor is one the store takes. */
  lemma RequestAccepted(t: Table, account: string, limit: int, key: Option<StockTransactionKey>, filter: Option<Condition>)
    requires IsStockTable(t)
    requires ValidCursor(account, key) && limit >= 1
    ensures StartKeyItem(key).Success?
    ensures QueryPage(t, account, StartKeyItem(key).value, limit, filter).Success?
  {
    var esk := StartKeyItem(key).value;
    if key.Some? {
      assert StringValue(Some(account)) == S(account);
      assert IsStartKeyFor(Schema, account, esk.value);
    }
  }

  /** Every item of the response and its last-evaluated key decode. */
  lemma ResponseDecodes(t: Table, account: string, limit: int, key: Option<StockTransactionKey>, filter: Option<Condition>)
    requires IsStockTable(t)
    requires StartKeyItem(key).Success?
    requires QueryPage(t, account, StartKeyItem(key).value, limit, filter).Success?
    ensures AllDecode(QueryPage(t, account, StartKeyItem(key).value, limit, filter).value.items, ReadUnitPrice())
    ensures NextQueryKey(QueryPage(t, account, StartKeyItem(key).value, limit, filter).value.lastEvaluatedKey).Success?
  {
    var part := Partition(t, account);
    var esk := StartKeyItem(key).value;
    var page := QueryPage(t, account, esk, limit, filter).value;
    var s := Start(t, account, key);
    StartKeyRemaining(t, account, key);
    PageOfRemaining(t, account, esk, limit, filter, s);
    var e := if |part| - s >= limit then s + limit else |part|;
    assert page.items == Apply(part[s..e], filter) by {
      if |part| - s < limit {
        SuffixIsSlice(part, s);
      }
    }
    StretchDecodes(t, account, s, e, filter);
    if |part| - s >= limit {
      StoredKeyDecodes(t, account, s + limit - 1);
    }
  }

  /** The loop of the four-argument reader succeeds on a stock table
      exactly when the page size is positive. */
  lemma {:induction false} AccumulateSucceeds(t: Table, account: string, action: TradeAction, pageSize: int,
                                              key: Option<StockTransactionKey>, results: seq<StockTransaction>)
    requires IsStockTable(t)
    requires ValidCursor(account, key)
    ensures CursorSafe(t)
    ensures Accumulate(t, account, action, pageSize, key, results, ReadUnitPrice()).Success? <==> pageSize >= 1
    decreases Unread(t, account, key)
  {
    StockTableIsCursorSafe(t);
    QueryTransactionsSucceeds(t, account, pageSize, key, Some(ActionIs(action)));
    if pageSize >= 1 {
      var page := DoFind(t, account, action, pageSize, key, ReadUnitPrice()).value;
      var all := results + page.results;
      if |all| < pageSize && page.nextQueryKey.Some? {
        DoFindCursor(t, account, action, pageSize, key, ReadUnitPrice());
        DoFindAdvances(t, account, action, pageSize, key, ReadUnitPrice());
        AccumulateSucceeds(t, account, action, pageSize, page.nextQueryKey, all);
      }
    }
  }

  /** A page of the four-argument reader succeeds on a stock table exactly
      when the page size is positive. */
  lemma PageSucceeds(t: Table, account: string, action: TradeAction, pageSize: int,
                     exclusiveStartKey: Option<StockTransactionKey>)
    requires IsStockTable(t)
    requires ValidCursor(account, exclusiveStartKey)
    ensures CursorSafe(t)
    ensures FindByAccountAndActionPage(t, account, action, pageSize, exclusiveStartKey, ReadUnitPrice()).Success? <==> pageSize >= 1
  {
    AccumulateSucceeds(t, account, action, pageSize, exclusiveStartKey, []);
  }

  /** Following the cursors from any accepted cursor succeeds on a stock
      table for a positive page size. */
  lemma {:induction false} FollowCursorsSucceeds(t: Table, account: string, action: TradeAction, pageSize: int,
                                                 cursor: Option<StockTransactionKey>)
    requires IsStockTable(t)
    requires ValidCursor(account, cursor)
    ensures CursorSafe(t)
    ensures FollowCursors(t, account, action, pageSize, cursor, ReadUnitPrice()).Success? <==> pageSize >= 1
    decreases Unread(t, account, cursor)
  {
    PageSucceeds(t, account, action, pageSize, cursor);
    if pageSize >= 1 {
      var page := FindByAccountAndActionPage(t, account, action, pageSize, cursor, ReadUnitPrice()).value;
      if page.nextQueryKey.Some? {
        PageSpec(t, account, action, pageSize, cursor, ReadUnitPrice());
        FollowCursorsSucceeds(t, account, action, pageSize, page.nextQueryKey);
      }
    }
  }

  // ---------------------------------------------------------------------
  // Following the cursors

  /** Two adjacent stretches read one after the other read the stretch
      they make up together. */
  lemma JoinReads(t: Table, account: string, action: TradeAction, a: int, b: int, c: int,
                  front: seq<StockTransaction>, back: seq<StockTransaction>)
    requires ReadsStretch(t, account, action, a, b, front, ReadUnitPrice())
    requires ReadsStretch(t, account, action, b, c, back, ReadUnitPrice())
    ensures ReadsStretch(t, account, action, a, c, front + back, ReadUnitPrice())
  {
    var part := Partition(t, account);
    EmptyConcat(front);
    JoinStretches(part, Matches(action), a, b, c, [], front, front + back, ReadUnitPrice());
    EmptyConcat(DecodedRecords(Filter(part[a..c], Matches(action)), ReadUnitPrice()));
  }

  /** Following the cursors from a cursor reads the matches of the whole
      rest of the partition from the cursor's index, each exactly once and
      in order. */
  lemma {:induction false} FollowCursorsSpec(t: Table, account: string, action: TradeAction, pageSize: int,
                                             cursor: Option<StockTransactionKey>)
    requires CursorSafe(t)
    requires FollowCursors(t, account, action, pageSize, cursor, ReadUnitPrice()).Success?
    ensures ReadsStretch(t, account, action, Start(t, account, cursor), |Partition(t, account)|,
                         FollowCursors(t, account, action, pageSize, cursor, ReadUnitPrice()).value, ReadUnitPrice())
    decreases Unread(t, account, cursor)
  {
    var page := FindByAccountAndActionPage(t, account, action, pageSize, cursor, ReadUnitPrice()).value;
    PageSpec(t, account, action, pageSize, cursor, ReadUnitPrice());
    if page.nextQueryKey.Some? {
      var rest := FollowCursors(t, account, action, pageSize, page.nextQueryKey, ReadUnitPrice()).value;
      FollowCursorsSpec(t, account, action, pageSize, page.nextQueryKey);
      assert FollowCursors(t, account, action, pageSize, cursor, ReadUnitPrice()).value == page.results + rest;
      JoinReads(t, account, action, Start(t, account, cursor), Start(t, account, page.nextQueryKey),
                |Partition(t, account)|, page.results, rest);
    }
  }

  /** A client paging with the four-argument reader from a null cursor
      until the cursor comes back null receives every record of the
      account with the trade action, each exactly once, in timestamp
      order. */
  lemma FollowCursorsVisitsEachMatchOnce(t: Table, account: string, action: TradeAction, pageSize: int)
    requires IsStockTable(t)
    requires pageSize >= 1
    ensures AllDecode(Filter(Partition(t, account), Matches(action)), ReadUnitPrice())
    ensures FollowCursors(t, account, action, pageSize, None, ReadUnitPrice())
            == Success(DecodedRecords(Filter(Partition(t, account), Matches(action)), ReadUnitPrice()))
  {
    var part := Partition(t, account);
    FollowCursorsSucceeds(t, account, action, pageSize, None);
    FollowCursorsSpec(t, account, action, pageSize, None);
    assert part[0..|part|] == part;
  }

  // ---------------------------------------------------------------------
  // What the returned records are

  /** A record stored in the account's partition of a stock table decodes
      to a transaction of that account whose timestamp renders as the
      record's sort key. */
  lemma RecordOfStored(t: Table, account: string, item: Item)
    requires IsStockTable(t)
    requires item in Partition(t, account)
    ensures DecodeItem(item, ReadUnitPrice()).Some?
    ensures DecodeItem(item, ReadUnitPrice()).value.accountNumber == Some(account)
    ensures DecodeItem(item, ReadUnitPrice()).value.timestamp.Some?
    ensures FormatInstant(DecodeItem(item, ReadUnitPrice()).value.timestamp.value) == SortKeyOf(Schema, item)
  {
    var part := Partition(t, account);
    var j :| 0 <= j < |part| && part[j] == item;
    assert IsStockRecord(item) && KeyedIn(Schema, account, item) by {
      assert PartitionWellFormed(Schema, account, part);
    }
    RecordOfItem(item, account, ReadUnitPrice());
    TimestampOfItem(item, ReadUnitPrice());
  }

  /** An item of a stretch is an item of the partition. */
  lemma InStretch(part: seq<Item>, s: int, e: int, item: Item)
    requires 0 <= s <= e <= |part|
    requires item in part[s..e]
    ensures item in part
  {
    var j :| 0 <= j < e - s && part[s..e][j] == item;
    assert part[s + j] == item;
  }

  /** Every record belongs to the account. */
  predicate OfAccount(records: seq<StockTransaction>, account: string)
  {
    forall i :: 0 <= i < |records| ==> records[i].accountNumber == Some(account)
  }

  /** Every record carries the trade action. */
  predicate OfAction(records: seq<StockTransaction>, action: TradeAction)
  {
    forall i :: 0 <= i < |records| ==> records[i].tradeAction == Some(action)
  }

  /** Every record has a timestamp, and the timestamps' texts strictly
      ascend: the sort order of the table. */
  predicate InTimestampOrder(records: seq<StockTransaction>)
  {
    forall i, j :: 0 <= i < j < |records| ==>
      && records[i].timestamp.Some? && records[j].timestamp.Some?
      && LexLess(FormatInstant(records[i].timestamp.value), FormatInstant(records[j].timestamp.value))
  }

  /** Records decoded from ascending items of the account's partition
      belong to the account and come in timestamp order, each timestamp
      rendering as the sort key of its item. */
  lemma DecodedInOrder(t: Table, account: string, items: seq<Item>, records: seq<StockTransaction>)
    requires IsStockTable(t)
    requires forall x :: x in items ==> x in Partition(t, account)
    requires Ascending(Schema, items)
    requires DecodesTo(items, records, ReadUnitPrice())
    ensures OfAccount(records, account)
    ensures InTimestampOrder(records)
    ensures forall i :: 0 <= i < |records| ==>
              records[i].timestamp.Some? && FormatInstant(records[i].timestamp.value) == SortKeyOf(Schema, items[i])
  {
    forall i | 0 <= i < |records|
      ensures records[i].accountNumber == Some(account)
      ensures records[i].timestamp.Some? && FormatInstant(records[i].timestamp.value) == SortKeyOf(Schema, items[i])
    {
      assert items[i] in items;
      RecordOfStored(t, account, items[i]);
    }
  }

  /** The records of a stretch belong to the account, carry the trade
      action and come in timestamp order. */
  lemma StretchRecords(t: Table, account: string, action: TradeAction, s: int, e: int, records: seq<StockTransaction>)
    requires IsStockTable(t)
    requires ReadsStretch(t, account, action, s, e, records, ReadUnitPrice())
    ensures OfAccount(records, account)
    ensures OfAction(records, action)
    ensures InTimestampOrder(records)
  {
    var part := Partition(t, account);
    var items := Filter(part[s..e], Matches(action));
    FilterMembers(part[s..e], Matches(action));
    forall x | x in items ensures x in part {
      InStretch(part, s, e, x);
    }
    assert PartitionWellFormed(Schema, account, part);
    AscendingSlice(Schema, part, s, e);
    FilterAscending(Schema, part[s..e], Matches(action));
    DecodedInOrder(t, account, items, records);
    ActionRecords(items, action, ReadUnitPrice());
  }

  // ---------------------------------------------------------------------
  // The readers on a stock table

  /** `findStockTransactionByAccountNumber` on a stock table: every
      record of the account, in timestamp order. */
  lemma FindByAccountOnStockTable(t: Table, account: string)
    requires IsStockTable(t)
    ensures FindByAccount(t, account, ReadUnitPrice()).Success?
    ensures DecodesTo(Partition(t, account), FindByAccount(t, account, ReadUnitPrice()).value, ReadUnitPrice())
    ensures OfAccount(FindByAccount(t, account, ReadUnitPrice()).value, account)
    ensures InTimestampOrder(FindByAccount(t, account, ReadUnitPrice()).value)
  {
    var part := Partition(t, account);
    StretchDecodes(t, account, 0, |part|, None);
    assert part[0..|part|] == part;
    assert PartitionWellFormed(Schema, account, part);
    DecodedInOrder(t, account, part, FindByAccount(t, account, ReadUnitPrice()).value);
  }

  /** The paged `findStockTransactionByAccountNumber` on a stock table: it
      fails only for a page size below one; otherwise the page is the next
      `pageSize` records after the cursor (fewer at the end of the
      partition), and the cursor is null exactly when the partition ran
      out and otherwise resumes right after the page. */
  lemma FindByAccountPageSpec(t: Table, account: string, pageSize: int, exclusiveStartKey: Option<StockTransactionKey>)
    requires IsStockTable(t)
    requires ValidCursor(account, exclusiveStartKey)
    ensures FindByAccountPage(t, account, pageSize, exclusiveStartKey, ReadUnitPrice()).Success? <==> pageSize >= 1
    ensures FindByAccountPage(t, account, pageSize, exclusiveStartKey, ReadUnitPrice()).Success? ==>
              var r := FindByAccountPage(t, account, pageSize, exclusiveStartKey, ReadUnitPrice()).value;
              var part := Partition(t, account);
              var s := Start(t, account, exclusiveStartKey);
              var e := if |part| - s < pageSize then |part| else s + pageSize;
              && DecodesTo(part[s..e], r.results, ReadUnitPrice())
              && (r.nextQueryKey.None? <==> |part| - s < pageSize)
              && Stop(t, account, r.nextQueryKey) == e
              && ValidCursor(account, r.nextQueryKey)
              && OfAccount(r.results, account)
              && InTimestampOrder(r.results)
  {
    QueryTransactionsSucceeds(t, account, pageSize, exclusiveStartKey, None);
    if pageSize >= 1 {
      QueryTransactionsStep(t, account, pageSize, exclusiveStartKey, None, ReadUnitPrice());
      var r := FindByAccountPage(t, account, pageSize, exclusiveStartKey, ReadUnitPrice()).value;
      var part := Partition(t, account);
      var s := Start(t, account, exclusiveStartKey);
      var e := Stop(t, account, r.nextQueryKey);
      forall x | x in part[s..e] ensures x in part {
        InStretch(part, s, e, x);
      }
      assert PartitionWellFormed(Schema, account, part);
      AscendingSlice(Schema, part, s, e);
      DecodedInOrder(t, account, part[s..e], r.results);
    }
  }

  /** The two-argument `findStockTransactionByAccountNumberAndTradeAction`
      on a stock table reads the first ten items of the partition and
      returns the matches among them; its cursor is null exactly when the
      partition holds fewer than ten items. */
  lemma FindByAccountAndActionReadsTen(t: Table, account: string, action: TradeAction)
    requires IsStockTable(t)
    ensures FindByAccountAndAction(t, account, action, ReadUnitPrice()).Success?
    ensures var r := FindByAccountAndAction(t, account, action, ReadUnitPrice()).value;
            var part := Partition(t, account);
            var n := if |part| < FixedLimit then |part| else FixedLimit;
            && DecodesTo(Filter(part[..n], Matches(action)), r.results, ReadUnitPrice())
            && (r.nextQueryKey.None? <==> |part| < FixedLimit)
  {
    QueryTransactionsSucceeds(t, account, FixedLimit, None, Some(ActionIs(action)));
    QueryTransactionsStep(t, account, FixedLimit, None, Some(ActionIs(action)), ReadUnitPrice());
    var part := Partition(t, account);
    var n := if |part| < FixedLimit then |part| else FixedLimit;
    assert part[0..n] == part[..n];
  }

  /** Because the limit applies before the filter, a match stored after
      the tenth item is never returned by the two-argument reader, even
      when fewer than ten matches exist. */
  lemma FindByAccountAndActionMissesLaterMatches(t: Table, account: string, action: TradeAction, i: int)
    requires IsStockTable(t)
    requires FixedLimit <= i < |Partition(t, account)|
    requires Holds(ActionIs(action), Partition(t, account)[i])
    ensures FindByAccountAndAction(t, account, action, ReadUnitPrice()).Success?
    ensures |FindByAccountAndAction(t, account, action, ReadUnitPrice()).value.results| < |Filter(Partition(t, account), Matches(action))|
  {
    FindByAccountAndActionReadsTen(t, account, action);
    FilterPrefixMisses(Partition(t, account), FixedLimit, i, Matches(action));
  }

  /** `findStockTransactionByAccountNumberWithTimeRange` on a stock table:
      it fails exactly when the end instant's text sorts before the start
      instant's; otherwise it returns, in timestamp order, the records
      whose timestamp text lies between the two. */
  lemma TimeRangeSpec(t: Table, account: string, startTime: Instant, endTime: Instant)
    requires IsStockTable(t)
    ensures FindByAccountWithTimeRange(t, account, startTime, endTime, ReadUnitPrice()).Success? <==>
              !LexLess(FormatInstant(endTime), FormatInstant(startTime))
    ensures FindByAccountWithTimeRange(t, account, startTime, endTime, ReadUnitPrice()).Success? ==>
              var r := FindByAccountWithTimeRange(t, account, startTime, endTime, ReadUnitPrice()).value;
              && DecodesTo(Filter(Partition(t, account), BetweenFn(Schema, FormatInstant(startTime), FormatInstant(endTime))), r, ReadUnitPrice())
              && OfAccount(r, account)
              && InTimestampOrder(r)
              && forall i :: 0 <= i < |r| ==>
                   && r[i].timestamp.Some?
                   && LexLessOrEqual(FormatInstant(startTime), FormatInstant(r[i].timestamp.value))
                   && LexLessOrEqual(FormatInstant(r[i].timestamp.value), FormatInstant(endTime))
  {
    var lo, hi := FormatInstant(startTime), FormatInstant(endTime);
    if !LexLess(hi, lo) {
      var part := Partition(t, account);
      var items := Filter(part, BetweenFn(Schema, lo, hi));
      FilterMembers(part, BetweenFn(Schema, lo, hi));
      forall i | 0 <= i < |items| ensures DecodeItem(items[i], ReadUnitPrice()).Some? {
        assert items[i] in items;
        RecordOfStored(t, account, items[i]);
      }
      var r := FindByAccountWithTimeRange(t, account, startTime, endTime, ReadUnitPrice()).value;
      assert PartitionWellFormed(Schema, account, part);
      FilterAscending(Schema, part, BetweenFn(Schema, lo, hi));
      DecodedInOrder(t, account, items, r);
    }
  }

  /** One page of the four-argument reader on a stock table, for a
      positive page size and a cursor the readers produced: it succeeds;
      its records belong to the account, carry the trade action and come
      in timestamp order; a full page may carry a cursor, and a null
      cursor means the page holds every remaining match. */
  lemma PageRecords(t: Table, account: string, action: TradeAction, pageSize: int,
                    exclusiveStartKey: Option<StockTransactionKey>)
    requires IsStockTable(t)
    requires ValidCursor(account, exclusiveStartKey)
    requires pageSize >= 1
    ensures FindByAccountAndActionPage(t, account, action, pageSize, exclusiveStartKey, ReadUnitPrice()).Success?
    ensures var r := FindByAccountAndActionPage(t, account, action, pageSize, exclusiveStartKey, ReadUnitPrice()).value;
            && |r.results| <= pageSize
            && OfAccount(r.results, account)
            && OfAction(r.results, action)
            && InTimestampOrder(r.results)
            && (r.nextQueryKey.None? ==>
                  DecodesTo(Filter(Partition(t, account)[Start(t, account, exclusiveStartKey)..], Matches(action)), r.results, ReadUnitPrice()))
  {
    PageSucceeds(t, account, action, pageSize, exclusiveStartKey);
    PageSpec(t, account, action, pageSize, exclusiveStartKey, ReadUnitPrice());
    var r := FindByAccountAndActionPage(t, account, action, pageSize, exclusiveStartKey, ReadUnitPrice()).value;
    var s := Start(t, account, exclusiveStartKey);
    StretchRecords(t, account, action, s, Stop(t, account, r.nextQueryKey), r.results);
    SuffixIsSlice(Partition(t, account), s);
  }
}

=== FILE: stock_transaction.dfy ===
/** A stock transaction record and its attribute-map codec. Encoding
    writes seven attributes, `unit` and `unitPrice` as numbers and the
    rest as strings. Decoding walks the map's entries in iteration order
    and feeds each one to the record builder through a switch on the
    attribute name; an unknown name, or a value the field's parser
    refuses, throws. As written, the decoder reads `unitPrice` through
    the string accessor although it was written as a number. */
module StockTransactions {
  import opened Wrappers
  import opened Numerals
  import opened Store
  import opened JavaLang

  /** The trade-action enum. Its source file is not part of this model;
      the repository's tests use `SELL`, and `BUY` is assumed as the
      other constant. */
  datatype TradeAction = BUY | SELL

  /** `TradeAction.name()`. */
  function TradeActionName(a: TradeAction): string
  {
    match a
    case BUY => "BUY"
    case SELL => "SELL"
  }

  /** `TradeAction.valueOf(name)`: the constant with that name; a null
      name is a NullPointerException and any other name an
      IllegalArgumentException. */
  function TradeActionValueOf(name: Option<string>): (r: Result<TradeAction, JavaError>)
    ensures forall a :: r == Success(a) <==> name == Some(TradeActionName(a))
    ensures r.Failure? ==> r.error == (if name.None? then NullPointer else IllegalArgument)
  {
    match name
    case None => Failure(NullPointer)
    case Some(n) =>
      if n == "BUY" then Success(BUY)
      else if n == "SELL" then Success(SELL)
      else Failure(IllegalArgument)
  }

  datatype StockTransaction = StockTransaction(
    accountNumber: Option<string>,
    timestamp: Option<Instant>,
    ticker: Option<string>,
    tradeAction: Option<TradeAction>,
    unit: Int32,
    unitPrice: Option<int>,
    reference: Option<string>)

  /** `StockTransaction.builder().build()`: every reference field null and
      the primitive `unit` zero. */
  const EmptyTransaction: StockTransaction := StockTransaction(None, None, None, None, 0, None, None)

  const AttributeNames: set<string> :=
    {"accountNumber", "timestamp", "ticker", "tradeAction", "unit", "unitPrice", "reference"}

  /** `toAttributeValues`: formatting a null timestamp, naming a null
      trade action and rendering a null price all throw. */
  function Encode(x: StockTransaction): (r: Result<Item, JavaError>)
    ensures r.Success? <==> x.timestamp.Some? && x.tradeAction.Some? && x.unitPrice.Some?
    ensures r.Failure? ==> r.error == NullPointer
    ensures r.Success? ==> r.value.Keys == AttributeNames
    ensures r.Success? ==> forall k :: k in r.value ==> (r.value[k].N? <==> k == "unit" || k == "unitPrice")
    ensures r.Success? ==> r.value["timestamp"].S? && r.value["tradeAction"].S?
  {
    if x.timestamp.None? || x.tradeAction.None? || x.unitPrice.None? then Failure(NullPointer)
    else
      Success(map[
        "accountNumber" := StringValue(x.accountNumber),
        "timestamp" := S(FormatInstant(x.timestamp.value)),
        "ticker" := StringValue(x.ticker),
        "tradeAction" := S(TradeActionName(x.tradeAction.value)),
        "unit" := N(Render(x.unit)),
        "unitPrice" := N(Render(x.unitPrice.value)),
        "reference" := StringValue(x.reference)])
  }

  // ---------------------------------------------------------------------
  // Decoding

  /** One builder call of the switch, with its already-parsed argument. */
  datatype Field =
    | AccountNumberField(account: Option<string>)
    | TimestampField(instant: Instant)
    | TickerField(tickerSymbol: Option<string>)
    | TradeActionField(action: TradeAction)
    | UnitField(count: Int32)
    | UnitPriceField(price: int)
    | ReferenceField(ref: Option<string>)

  /** How the `unitPrice` case reads its value's text. */
  type PriceReader = AttributeValue -> Option<string>

  /** As written: `entry.getValue().s()`. */
  function ReadUnitPriceAsWritten(): PriceReader
  {
    StringMember
  }

  /** As intended: `entry.getValue().n()`, the member the encoder set. */
  function ReadUnitPrice(): PriceReader
  {
    NumberMember
  }

  /** The switch of `mapItem`: parses one entry's value for the field
      named by its key, or throws. */
  function DecodeField(name: string, v: AttributeValue, readPrice: PriceReader): (r: Result<Field, JavaError>)
    ensures name !in AttributeNames ==> r == Failure(IllegalArgument)
    ensures name in {"accountNumber", "ticker", "reference"} ==> r.Success?
  {
    if name == "accountNumber" then Success(AccountNumberField(StringMember(v)))
    else if name == "timestamp" then
      match ParseInstant(StringMember(v))
      case Failure(e) => Failure(e)
      case Success(i) => Success(TimestampField(i))
    else if name == "tradeAction" then
      match TradeActionValueOf(StringMember(v))
      case Failure(e) => Failure(e)
      case Success(a) => Success(TradeActionField(a))
    else if name == "ticker" then Success(TickerField(StringMember(v)))
    else if name == "unit" then
      match ParseJavaInt(NumberMember(v))
      case Failure(e) => Failure(e)
      case Success(n) => Success(UnitField(n))
    else if name == "unitPrice" then
      match NewBigDecimal(readPrice(v))
      case Failure(e) => Failure(e)
      case Success(d) => Success(UnitPriceField(d))
    else if name == "reference" then Success(ReferenceField(StringMember(v)))
    else Failure(IllegalArgument)
  }

  /** The builder setter a field calls. */
  function SetField(b: StockTransaction, f: Field): StockTransaction
  {
    match f
    case AccountNumberField(a) => b.(accountNumber := a)
    case TimestampField(i) => b.(timestamp := Some(i))
    case TickerField(s) => b.(ticker := s)
    case TradeActionField(a) => b.(tradeAction := Some(a))
    case UnitField(n) => b.(unit := n)
    case UnitPriceField(d) => b.(unitPrice := Some(d))
    case ReferenceField(s) => b.(reference := s)
  }

  /** `entries.forEach(entry -> mapItem(builder, entry))`: the entries in
      iteration order; the first one that throws ends the walk. */
  function DecodeEntries(b: StockTransaction, es: seq<Entry>, readPrice: PriceReader): (r: Result<StockTransaction, JavaError>)
    ensures r.Success? <==> forall i :: 0 <= i < |es| ==> DecodeField(es[i].0, es[i].1, readPrice).Success?
    decreases |es|
  {
    if es == [] then Success(b)
    else
      match DecodeField(es[0].0, es[0].1, readPrice)
      case Failure(e) => Failure(e)
      case Success(f) =>
        assert forall i :: 1 <= i < |es| ==> es[i] == es[1..][i - 1];
        DecodeEntries(SetField(b, f), es[1..], readPrice)
  }

  /** `toStockTransaction` on the entries of an item, in the order the
      map yields them, with the `unitPrice` reader as given. */
  function ToStockTransaction(es: seq<Entry>, readPrice: PriceReader): Result<StockTransaction, JavaError>
  {
    DecodeEntries(EmptyTransaction, es, readPrice)
  }

  /** Every entry of the map decodes. */
  predicate Decodes(m: Item, readPrice: PriceReader)
  {
    forall k :: k in m ==> DecodeField(k, m[k], readPrice).Success?
  }

  /** The record a decodable map stands for, independently of any entry
      order: each field comes from its attribute when present and keeps
      the builder's value otherwise. */
  function Decoded(b: StockTransaction, m: Item, readPrice: PriceReader): StockTransaction
    requires Decodes(m, readPrice)
  {
    StockTransaction(
      accountNumber := if "accountNumber" in m then DecodeField("accountNumber", m["accountNumber"], readPrice).value.account else b.accountNumber,
      timestamp := if "timestamp" in m then Some(DecodeField("timestamp", m["timestamp"], readPrice).value.instant) else b.timestamp,
      ticker := if "ticker" in m then DecodeField("ticker", m["ticker"], readPrice).value.tickerSymbol else b.ticker,
      tradeAction := if "tradeAction" in m then Some(DecodeField("tradeAction", m["tradeAction"], readPrice).value.action) else b.tradeAction,
      unit := if "unit" in m then DecodeField("unit", m["unit"], readPrice).value.count else b.unit,
      unitPrice := if "unitPrice" in m then Some(DecodeField("unitPrice", m["unitPrice"], readPrice).value.price) else b.unitPrice,
      reference := if "reference" in m then DecodeField("reference", m["reference"], readPrice).value.ref else b.reference)
  }

  lemma DecodesStep(m: Item, name: string, readPrice: PriceReader)
    requires name in m
    ensures Decodes(m, readPrice) <==> DecodeField(name, m[name], readPrice).Success? && Decodes(m - {name}, readPrice)
  {
    if DecodeField(name, m[name], readPrice).Success? && Decodes(m - {name}, readPrice) {
      forall k | k in m ensures DecodeField(k, m[k], readPrice).Success? {
        if k != name {
          assert k in m - {name};
        }
      }
    }
  }

  /** Applying one decoded entry and then the rest of the map is the same
      as decoding the whole map. */
  lemma DecodedStep(b: StockTransaction, m: Item, name: string, f: Field, readPrice: PriceReader)
    requires name in m && DecodeField(name, m[name], readPrice) == Success(f)
    requires Decodes(m, readPrice)
    ensures Decodes(m - {name}, readPrice)
    ensures Decoded(SetField(b, f), m - {name}, readPrice) == Decoded(b, m, readPrice)
  {
    DecodesStep(m, name, readPrice);
  }

  /** Walking any listing of a map decodes it exactly when every entry
      decodes, and then yields the order-independent record. */
  lemma {:induction false} DecodeEntriesIsDecoded(b: StockTransaction, es: seq<Entry>, m: Item, readPrice: PriceReader)
    requires Lists(es, m)
    ensures DecodeEntries(b, es, readPrice).Success? <==> Decodes(m, readPrice)
    ensures DecodeEntries(b, es, readPrice).Success? ==> DecodeEntries(b, es, readPrice).value == Decoded(b, m, readPrice)
    decreases |es|
  {
    if es != [] {
      var name := es[0].0;
      ListsTail(es, m);
      DecodesStep(m, name, readPrice);
      match DecodeField(name, es[0].1, readPrice)
      case Failure(_) =>
      case Success(f) =>
        DecodeEntriesIsDecoded(SetField(b, f), es[1..], m - {name}, readPrice);
        if Decodes(m, readPrice) {
          DecodedStep(b, m, name, f, readPrice);
        }
    }
  }

  /** Whether an item decodes, and to what, does not depend on the order
      in which its entries are visited. */
  lemma DecodeOrderIndependent(es1: seq<Entry>, es2: seq<Entry>, m: Item, readPrice: PriceReader)
    requires Lists(es1, m) && Lists(es2, m)
    ensures ToStockTransaction(es1, readPrice).Success? == ToStockTransaction(es2, readPrice).Success?
    ensures ToStockTransaction(es1, readPrice).Success? ==> ToStockTransaction(es1, readPrice) == ToStockTransaction(es2, readPrice)
  {
    DecodeEntriesIsDecoded(EmptyTransaction, es1, m, readPrice);
    DecodeEntriesIsDecoded(EmptyTransaction, es2, m, readPrice);
  }

  /** When the only entries that fail all fail with the same exception,
      the walk throws that exception, whatever the order. */
  lemma {:induction false} DecodeEntriesSoleFailure(b: StockTransaction, es: seq<Entry>, readPrice: PriceReader, e: JavaError)
    requires forall i :: 0 <= i < |es| ==> DecodeField(es[i].0, es[i].1, readPrice) in {Failure(e)} || DecodeField(es[i].0, es[i].1, readPrice).Success?
    requires exists i :: 0 <= i < |es| && DecodeField(es[i].0, es[i].1, readPrice).Failure?
    ensures DecodeEntries(b, es, readPrice) == Failure(e)
    decreases |es|
  {
    match DecodeField(es[0].0, es[0].1, readPrice)
    case Failure(_) =>
    case Success(f) =>
      var rest := es[1..];
      forall i | 0 <= i < |rest|
        ensures DecodeField(rest[i].0, rest[i].1, readPrice) in {Failure(e)} || DecodeField(rest[i].0, rest[i].1, readPrice).Success?
      {
        assert rest[i] == es[i + 1];
      }
      var j :| 0 <= j < |es| && DecodeField(es[j].0, es[j].1, readPrice).Failure?;
      assert j > 0 && rest[j - 1] == es[j];
      DecodeEntriesSoleFailure(SetField(b, f), rest, readPrice, e);
  }

  /** An attribute outside the seven makes decoding throw
      IllegalArgumentException when every known attribute is well
      formed. */
  lemma UnknownAttributeRejected(es: seq<Entry>, readPrice: PriceReader)
    requires exists i :: 0 <= i < |es| && es[i].0 !in AttributeNames
    requires forall i :: 0 <= i < |es| && es[i].0 in AttributeNames ==> DecodeField(es[i].0, es[i].1, readPrice).Success?
    ensures ToStockTransaction(es, readPrice) == Failure(IllegalArgument)
  {
    DecodeEntriesSoleFailure(EmptyTransaction, es, readPrice, IllegalArgument);
  }

  /** A decodable item missing some attributes leaves those fields at the
      builder's defaults: null, and 0 for `unit`. */
  lemma MissingAttributesKeepDefaults(es: seq<Entry>, m: Item, readPrice: PriceReader)
    requires Lists(es, m) && Decodes(m, readPrice)
    ensures var x := ToStockTransaction(es, readPrice).value;
            && ("accountNumber" !in m ==> x.accountNumber.None?)
            && ("timestamp" !in m ==> x.timestamp.None?)
            && ("ticker" !in m ==> x.ticker.None?)
            && ("tradeAction" !in m ==> x.tradeAction.None?)
            && ("unit" !in m ==> x.unit == 0)
            && ("unitPrice" !in m ==> x.unitPrice.None?)
            && ("reference" !in m ==> x.reference.None?)
  {
    DecodeEntriesIsDecoded(EmptyTransaction, es, m, readPrice);
  }

  /** With the `unitPrice` reader corrected, decoding an encoded record in
      any entry order gives the record back. */
  lemma RoundTrip(x: StockTransaction, es: seq<Entry>)
    requires Encode(x).Success?
    requires Lists(es, Encode(x).value)
    ensures ToStockTransaction(es, ReadUnitPrice()) == Success(x)
  {
    EncodedDecoded(x);
    DecodeEntriesIsDecoded(EmptyTransaction, es, Encode(x).value, ReadUnitPrice());
  }

  /** Every entry of an encoded record decodes under the corrected reader,
      and the map stands for the record. */
  lemma EncodedDecoded(x: StockTransaction)
    requires Encode(x).Success?
    ensures Decodes(Encode(x).value, ReadUnitPrice())
    ensures Decoded(EmptyTransaction, Encode(x).value, ReadUnitPrice()) == x
  {
    var m := Encode(x).value;
    InstantRoundTrip(x.timestamp.value, "");
    ParseIntRender(x.unit);
    ParseRender(x.unitPrice.value);
    assert DecodeField("timestamp", m["timestamp"], ReadUnitPrice()) == Success(TimestampField(x.timestamp.value));
    assert DecodeField("tradeAction", m["tradeAction"], ReadUnitPrice()) == Success(TradeActionField(x.tradeAction.value));
    assert DecodeField("unit", m["unit"], ReadUnitPrice()) == Success(UnitField(x.unit));
    assert DecodeField("unitPrice", m["unitPrice"], ReadUnitPrice()) == Success(UnitPriceField(x.unitPrice.value));
  }

  /** Read as written, every entry of an encoded record decodes except
      `unitPrice`, which throws NullPointerException. */
  lemma EncodedEntryAsWritten(x: StockTransaction, name: string)
    requires Encode(x).Success? && name in Encode(x).value
    ensures name != "unitPrice" ==> DecodeField(name, Encode(x).value[name], ReadUnitPriceAsWritten()).Success?
    ensures name == "unitPrice" ==> DecodeField(name, Encode(x).value[name], ReadUnitPriceAsWritten()) == Failure(NullPointer)
  {
    var m := Encode(x).value;
    if name != "unitPrice" {
      EncodedDecoded(x);
      assert DecodeField(name, m[name], ReadUnitPrice()).Success?;
      ReaderOnlyForPrice(name, m[name], ReadUnitPrice(), ReadUnitPriceAsWritten());
    }
  }

  /** The price reader is consulted for `unitPrice` only. */
  lemma ReaderOnlyForPrice(name: string, v: AttributeValue, r1: PriceReader, r2: PriceReader)
    requires name != "unitPrice"
    ensures DecodeField(name, v, r1) == DecodeField(name, v, r2)
  {
  }

  /** As written, the `unitPrice` entry of every encoded record is read
      through the string accessor, which is null for a number, and
      `new BigDecimal(null)` throws: no encoded record decodes. */
  lemma AsWrittenRejectsEveryRecord(x: StockTransaction, es: seq<Entry>)
    requires Encode(x).Success?
    requires Lists(es, Encode(x).value)
    ensures ToStockTransaction(es, ReadUnitPriceAsWritten()) == Failure(NullPointer)
  {
    var m := Encode(x).value;
    forall i | 0 <= i < |es|
      ensures DecodeField(es[i].0, es[i].1, ReadUnitPriceAsWritten()) in {Failure(NullPointer)}
           || DecodeField(es[i].0, es[i].1, ReadUnitPriceAsWritten()).Success?
    {
      EncodedEntryAsWritten(x, es[i].0);
    }
    var i :| 0 <= i < |es| && es[i].0 == "unitPrice";
    assert DecodeField(es[i].0, es[i].1, ReadUnitPriceAsWritten()).Failure?;
    DecodeEntriesSoleFailure(EmptyTransaction, es, ReadUnitPriceAsWritten(), NullPointer);
  }

  /** The decoder the readers use, given the `unitPrice` reader: the item
      decoded, or None when it throws (which exception depends on the
      unspecified entry order when several entries are bad). The readers
      as written pass `ReadUnitPriceAsWritten()`. */
  function DecodeItem(m: Item, readPrice: PriceReader): (r: Option<StockTransaction>)
    ensures r.Some? <==> Decodes(m, readPrice)
  {
    if Decodes(m, readPrice) then Some(Decoded(EmptyTransaction, m, readPrice)) else None
  }

  /** The whole-map decoder agrees with the entry walk in every order. */
  lemma DecodeItemAgrees(m: Item, es: seq<Entry>, readPrice: PriceReader)
    requires Lists(es, m)
    ensures DecodeItem(m, readPrice).Some? <==> ToStockTransaction(es, readPrice).Success?
    ensures DecodeItem(m, readPrice).Some? ==> ToStockTransaction(es, readPrice) == Success(DecodeItem(m, readPrice).value)
  {
    DecodeEntriesIsDecoded(EmptyTransaction, es, m, readPrice);
  }

  /** As written, the readers' decoder rejects every encoded record. */
  lemma DecodeItemEncodeAsWritten(x: StockTransaction)
    requires Encode(x).Success?
    ensures DecodeItem(Encode(x).value, ReadUnitPriceAsWritten()).None?
  {
    var m := Encode(x).value;
    assert DecodeField("unitPrice", m["unitPrice"], ReadUnitPriceAsWritten()).Failure?;
  }

  /** Decoding an encoded record with the corrected `unitPrice` reader
      gives it back. */
  lemma DecodeItemEncode(x: StockTransaction)
    requires Encode(x).Success?
    ensures DecodeItem(Encode(x).value, ReadUnitPrice()) == Some(x)
  {
    InstantRoundTrip(x.timestamp.value, "");
    ParseIntRender(x.unit);
    ParseRender(x.unitPrice.value);
  }
}

=== FILE: stock_transaction_dao.dfy ===
/** The readers of the stock transaction table. Every reader queries one
    account's partition; the paged ones send a cursor as the exclusive
    start key and turn the store's last-evaluated key back into a cursor.
    The four-argument trade-action reader loops over filtered pages until
    it holds a full page, then cuts the surplus off and resumes after the
    last record it returns. */
module StockTransactionDao {
  import opened Wrappers
  import opened Strings
  import opened Seqs
  import opened Numerals
  import opened Store
  import opened JavaLang
  import opened StockTransactions
  import opened StockTransactionKeys

  /** The table's primary key: partition key `accountNumber`, sort key
      `timestamp` holding the ISO_INSTANT text. */
  const Schema: KeySchema := KeySchema("accountNumber", "timestamp")

  /** The limit of the two-argument trade-action reader. */
  const FixedLimit: int := 10

  /** `QueryResultPage<StockTransaction, StockTransactionKey>`: a null
      `nextQueryKey` is None. */
  datatype QueryResultPage = QueryResultPage(results: seq<StockTransaction>, nextQueryKey: Option<StockTransactionKey>)

  datatype StockDaoError =
    | StoreFailure(cause: StoreError)   // the query request was refused
    | JavaFailure(exception: JavaError) // building the request threw
    | Undecodable                       // a returned item or key did not decode

  // ---------------------------------------------------------------------
  // Tables the readers are used on

  /** A record as `saveStockTransaction` writes it: all seven attributes
      are present, it decodes once `unitPrice` is read as the number it is
      stored as, and its timestamp text is the canonical rendering of the
      instant it parses to. (SavedRecordIsStockRecord: every record
      `saveStockTransaction` writes is one; StoredRecordRejectedAsWritten:
      the readers as written reject every one.) */
  predicate IsStockRecord(item: Item)
  {
    && item.Keys == AttributeNames
    && DecodeItem(item, ReadUnitPrice()).Some?
    && IsCanonical(SortKeyOf(Schema, item))
  }

  /** Every record `saveStockTransaction` writes is a stock record. */
  lemma SavedRecordIsStockRecord(x: StockTransaction)
    requires Encode(x).Success?
    ensures IsStockRecord(Encode(x).value)
  {
    DecodeItemEncode(x);
    assert SortKeyOf(Schema, Encode(x).value) == FormatInstant(x.timestamp.value);
  }

  /** The readers as written throw on every stock record: its `unitPrice`
      is a number, and the reader asks for a string. */
  lemma StoredRecordRejectedAsWritten(item: Item)
    requires IsStockRecord(item)
    ensures DecodeItem(item, ReadUnitPriceAsWritten()).None?
  {
    var v := item["unitPrice"];
    assert DecodeField("unitPrice", v, ReadUnitPrice()).Success?;
    assert DecodeField("unitPrice", v, ReadUnitPriceAsWritten()).Failure?;
  }

  predicate IsStockTable(t: Table)
  {
    && t.schema == Schema && WellFormed(t)
    && forall p, i :: p in t.partitions && 0 <= i < |t.partitions[p]| ==> IsStockRecord(t.partitions[p][i])
  }

  /** What the cursor loop needs to make progress: every stored timestamp
      that parses at all is canonical, so the cursor decoded from a
      last-evaluated key encodes back to that very key. */
  predicate CursorSafe(t: Table)
  {
    && t.schema == Schema && WellFormed(t)
    && forall p, i :: p in t.partitions && 0 <= i < |t.partitions[p]| && IsNumeral(SortKeyOf(Schema, t.partitions[p][i]))
         ==> IsCanonical(SortKeyOf(Schema, t.partitions[p][i]))
  }

  lemma StockTableIsCursorSafe(t: Table)
    requires IsStockTable(t)
    ensures CursorSafe(t)
  {
  }

  /** A cursor the readers accept for the account: null, or a key of that
      account with a timestamp. */
  predicate ValidCursor(account: string, key: Option<StockTransactionKey>)
  {
    key.None? || (key.value.accountNumber == Some(account) && key.value.timestamp.Some?)
  }

  // ---------------------------------------------------------------------
  // Decoding responses

  predicate AllDecode(items: seq<Item>, readPrice: PriceReader)
  {
    forall i :: 0 <= i < |items| ==> DecodeItem(items[i], readPrice).Some?
  }

  /** The records a sequence of decodable items stands for, item by item. */
  function DecodedRecords(items: seq<Item>, readPrice: PriceReader): (r: seq<StockTransaction>)
    requires AllDecode(items, readPrice)
    ensures |r| == |items|
    ensures forall i :: 0 <= i < |items| ==> DecodeItem(items[i], readPrice) == Some(r[i])
  {
    seq(|items|, i requires 0 <= i < |items| => DecodeItem(items[i], readPrice).value)
  }

  /** The items all decode, and to exactly these records. */
  predicate DecodesTo(items: seq<Item>, records: seq<StockTransaction>, readPrice: PriceReader)
  {
    AllDecode(items, readPrice) && records == DecodedRecords(items, readPrice)
  }

  lemma DecodedConcat(a: seq<Item>, b: seq<Item>, readPrice: PriceReader)
    requires AllDecode(a, readPrice) && AllDecode(b, readPrice)
    ensures AllDecode(a + b, readPrice)
    ensures DecodedRecords(a + b, readPrice) == DecodedRecords(a, readPrice) + DecodedRecords(b, readPrice)
  {
    assert forall i :: 0 <= i < |a + b| ==> (a + b)[i] == (if i < |a| then a[i] else b[i - |a|]);
  }

  lemma DecodedPrefix(xs: seq<Item>, k: nat, readPrice: PriceReader)
    requires AllDecode(xs, readPrice) && k <= |xs|
    ensures AllDecode(xs[..k], readPrice)
    ensures DecodedRecords(xs[..k], readPrice) == DecodedRecords(xs, readPrice)[..k]
  {
  }

  /** `items.stream().map(StockTransaction::toStockTransaction).toList()`:
      the items in order; the first one that throws ends the stream. */
  function DecodeAll(items: seq<Item>, readPrice: PriceReader): (r: Result<seq<StockTransaction>, StockDaoError>)
    ensures r.Success? <==> AllDecode(items, readPrice)
    ensures r.Success? ==> r.value == DecodedRecords(items, readPrice)
    ensures r.Failure? ==> r.error == Undecodable
    decreases |items|
  {
    if items == [] then Success([])
    else
      match DecodeItem(items[0], readPrice)
      case None => Failure(Undecodable)
      case Some(x) =>
        DecodedCons(items, readPrice);
        match DecodeAll(items[1..], readPrice)
        case Failure(e) => Failure(e)
        case Success(rest) => Success([x] + rest)
  }

  /** The items decode exactly when the first does and the rest do, and
      the records are the first one's followed by the rest's. */
  lemma DecodedCons(items: seq<Item>, readPrice: PriceReader)
    requires items != [] && DecodeItem(items[0], readPrice).Some?
    ensures AllDecode(items, readPrice) <==> AllDecode(items[1..], readPrice)
    ensures AllDecode(items, readPrice) ==> DecodedRecords(items, readPrice) == [DecodeItem(items[0], readPrice).value] + DecodedRecords(items[1..], readPrice)
  {
    var rest := items[1..];
    if !AllDecode(rest, readPrice) {
      var i :| 0 <= i < |rest| && DecodeItem(rest[i], readPrice).None?;
      assert rest[i] == items[i + 1];
    } else {
      assert forall i :: 0 <= i < |items| ==> DecodeItem(items[i], readPrice).Some? by {
        forall i | 0 < i < |items| ensures DecodeItem(items[i], readPrice).Some? {
          assert items[i] == rest[i - 1];
        }
      }
      var r := [DecodeItem(items[0], readPrice).value] + DecodedRecords(rest, readPrice);
      forall i | 0 <= i < |items| ensures DecodedRecords(items, readPrice)[i] == r[i] {
        if i > 0 {
          assert items[i] == rest[i - 1];
        }
      }
    }
  }

  /** `mapToStockTransactionKey`: no last-evaluated key gives a null
      cursor, otherwise the key map decoded by `toStockTransactionKey`. */
  function NextQueryKey(lastEvaluatedKey: Option<Item>): (r: Result<Option<StockTransactionKey>, StockDaoError>)
    ensures (r.Success? && r.value.None?) <==> lastEvaluatedKey.None?
    ensures lastEvaluatedKey.Some? ==> (r.Success? <==> KeyDecodes(lastEvaluatedKey.value))
  {
    match lastEvaluatedKey
    case None => Success(None)
    case Some(m) =>
      match DecodeKeyItem(m)
      case None => Failure(Undecodable)
      case Some(k) => Success(Some(k))
  }

  /** The exclusive start key of a request: none for a null cursor, else
      {accountNumber: S, timestamp: S(ISO_INSTANT)}; formatting a null
      timestamp throws. */
  function StartKeyItem(key: Option<StockTransactionKey>): (r: Result<Option<Item>, StockDaoError>)
    ensures r.Success? <==> key.None? || key.value.timestamp.Some?
    ensures r.Failure? ==> r.error == JavaFailure(NullPointer)
    ensures r.Success? ==> (r.value.None? <==> key.None?)
    ensures r.Success? && key.Some? ==>
              && r.value.value.Keys == KeyAttributeNames
              && r.value.value["accountNumber"] == StringValue(key.value.accountNumber)
              && r.value.value["timestamp"] == S(FormatInstant(key.value.timestamp.value))
  {
    match key
    case None => Success(None)
    case Some(k) =>
      match EncodeStartKey(k)
      case Failure(e) => Failure(JavaFailure(e))
      case Success(m) =>
        assert m["accountNumber"] == StringValue(k.accountNumber) by {
          assert StringMember(m["accountNumber"]) == k.accountNumber;
        }
        Success(Some(m))
  }

  /** The start key a cursor is sent as decodes back to the cursor, in
      any entry order. */
  lemma StartKeyItemRoundTrip(key: Option<StockTransactionKey>, es: seq<Entry>)
    requires StartKeyItem(key).Success? && key.Some?
    requires Lists(es, StartKeyItem(key).value.value)
    ensures ToStockTransactionKey(es) == Success(key.value)
  {
    StartKeyRoundTrip(key.value, es);
  }

  /** One query request over the account's partition with the given
      limit, cursor and optional filter, its response turned into a
      result page. */
  function QueryTransactions(t: Table, account: string, limit: int, key: Option<StockTransactionKey>,
                             filter: Option<Condition>, readPrice: PriceReader): (r: Result<QueryResultPage, StockDaoError>)
    requires t.schema == Schema
    ensures StartKeyItem(key).Failure? ==> r == Failure(JavaFailure(NullPointer))
    ensures StartKeyItem(key).Success? && limit < 1 ==> r == Failure(StoreFailure(ValidationError))
    ensures r.Success? ==>
              && StartKeyItem(key).Success?
              && QueryPage(t, account, StartKeyItem(key).value, limit, filter).Success?
              && var page := QueryPage(t, account, StartKeyItem(key).value, limit, filter).value;
                 && AllDecode(page.items, readPrice)
                 && r.value.results == DecodedRecords(page.items, readPrice)
                 && (r.value.nextQueryKey.None? <==> page.lastEvaluatedKey.None?)
    ensures r.Success? ==> |r.value.results| <= limit
  {
    match StartKeyItem(key)
    case Failure(e) => Failure(e)
    case Success(esk) =>
      match QueryPage(t, account, esk, limit, filter)
      case Failure(e) => Failure(StoreFailure(e))
      case Success(page) =>
        match DecodeAll(page.items, readPrice)
        case Failure(e) => Failure(e)
        case Success(results) =>
          match NextQueryKey(page.lastEvaluatedKey)
          case Failure(e) => Failure(e)
          case Success(next) => Success(QueryResultPage(results, next))
  }

  // ---------------------------------------------------------------------
  // Positions in a partition

  /** How many items of the account's partition lie past a cursor. */
  function Unread(t: Table, account: string, key: Option<StockTransactionKey>): nat
  {
    match key
    case None => |Partition(t, account)|
    case Some(k) =>
      if k.timestamp.None? then 0
      else |After(Schema, Partition(t, account), FormatInstant(k.timestamp.value))|
  }

  /** The index in the partition a cursor resumes at. */
  function Start(t: Table, account: string, key: Option<StockTransactionKey>): (s: nat)
    ensures s <= |Partition(t, account)|
  {
    |Partition(t, account)| - Unread(t, account, key)
  }

  /** The index a returned cursor stops at: the partition's end when it
      is null. */
  function Stop(t: Table, account: string, next: Option<StockTransactionKey>): (s: nat)
    ensures s <= |Partition(t, account)|
  {
    if next.None? then |Partition(t, account)| else Start(t, account, next)
  }

  /** The cursor decoded from the key of a stored item resumes right after
      that item. */
  lemma CursorOfItem(t: Table, account: string, i: nat, k: StockTransactionKey)
    requires CursorSafe(t)
    requires i < |Partition(t, account)|
    requires IsNumeral(SortKeyOf(Schema, Partition(t, account)[i]))
    requires k == StockTransactionKey(Some(account), ParseInteger(SortKeyOf(Schema, Partition(t, account)[i])))
    ensures DecodeKeyItem(KeyMap(Schema, account, SortKeyOf(Schema, Partition(t, account)[i]))) == Some(k)
    ensures ValidCursor(account, Some(k))
    ensures Start(t, account, Some(k)) == i + 1
  {
    var part := Partition(t, account);
    var sk := SortKeyOf(Schema, part[i]);
    assert account in t.partitions && part[i] == t.partitions[account][i];
    InstantRoundTrip(0, sk);
    AfterKeyOfItem(Schema, part, i);
  }

  /** What one request returns, positionally: it reads from the cursor's
      index up to `limit` items (or to the end), the results are the
      decoded items of that stretch the filter keeps, and the returned
      cursor resumes right after the stretch, null exactly when the read
      ran out before the limit. */
  lemma QueryTransactionsStep(t: Table, account: string, limit: int, key: Option<StockTransactionKey>,
                              filter: Option<Condition>, readPrice: PriceReader)
    requires CursorSafe(t)
    requires QueryTransactions(t, account, limit, key, filter, readPrice).Success?
    ensures limit >= 1
    ensures var r := QueryTransactions(t, account, limit, key, filter, readPrice).value;
            var part := Partition(t, account);
            var s := Start(t, account, key);
            && (r.nextQueryKey.None? <==> |part| - s < limit)
            && Stop(t, account, r.nextQueryKey) == (if |part| - s < limit then |part| else s + limit)
            && DecodesTo(Apply(part[s..Stop(t, account, r.nextQueryKey)], filter), r.results, readPrice)
    ensures ValidCursor(account, QueryTransactions(t, account, limit, key, filter, readPrice).value.nextQueryKey)
  {
    StepCursor(t, account, limit, key, filter, readPrice);
    var s, e := StepResults(t, account, limit, key, filter, readPrice);
    var r := QueryTransactions(t, account, limit, key, filter, readPrice).value;
    var stop := Stop(t, account, r.nextQueryKey);
    assert stop == e;
    DecodesToSame(Apply(Partition(t, account)[s..e], filter), Apply(Partition(t, account)[s..stop], filter), r.results, readPrice);
  }

  /** The cursor half of QueryTransactionsStep. */
  lemma StepCursor(t: Table, account: string, limit: int, key: Option<StockTransactionKey>, filter: Option<Condition>, readPrice: PriceReader)
    requires CursorSafe(t)
    requires QueryTransactions(t, account, limit, key, filter, readPrice).Success?
    ensures limit >= 1
    ensures var r := QueryTransactions(t, account, limit, key, filter, readPrice).value;
            var part := Partition(t, account);
            var s := Start(t, account, key);
            && (r.nextQueryKey.None? <==> |part| - s < limit)
            && Stop(t, account, r.nextQueryKey) == (if |part| - s < limit then |part| else s + limit)
            && ValidCursor(account, r.nextQueryKey)
  {
    var part := Partition(t, account);
    var r := QueryTransactions(t, account, limit, key, filter, readPrice).value;
    var esk := StartKeyItem(key).value;
    var page := QueryPage(t, account, esk, limit, filter).value;
    var s := Start(t, account, key);
    StartKeyRemaining(t, account, key);
    PageOfRemaining(t, account, esk, limit, filter, s);
    assert r.nextQueryKey == NextQueryKey(page.lastEvaluatedKey).value;
    if |part| - s >= limit {
      var i := s + limit - 1;
      var sk := SortKeyOf(Schema, part[i]);
      var m := KeyMap(Schema, account, sk);
      assert page.lastEvaluatedKey == Some(m);
      assert KeyDecodes(m);
      assert IsNumeral(sk) by {
        assert DecodeKeyField("timestamp", m["timestamp"]).Success?;
      }
      CursorOfItem(t, account, i, StockTransactionKey(Some(account), ParseInteger(sk)));
    }
  }

  /** The results half of QueryTransactionsStep. */
  lemma StepResults(t: Table, account: string, limit: int, key: Option<StockTransactionKey>, filter: Option<Condition>, readPrice: PriceReader)
    returns (s: nat, e: nat)
    requires CursorSafe(t)
    requires QueryTransactions(t, account, limit, key, filter, readPrice).Success?
    ensures s == Start(t, account, key)
    ensures e == if |Partition(t, account)| - s < limit then |Partition(t, account)| else s + limit
    ensures s <= e <= |Partition(t, account)|
    ensures DecodesTo(Apply(Partition(t, account)[s..e], filter), QueryTransactions(t, account, limit, key, filter, readPrice).value.results, readPrice)
  {
    s, e := PageItems(t, account, limit, key, filter);
    var page := QueryPage(t, account, StartKeyItem(key).value, limit, filter).value;
    var records := QueryTransactions(t, account, limit, key, filter, readPrice).value.results;
    assert DecodesTo(page.items, records, readPrice);
    DecodesToSame(page.items, Apply(Partition(t, account)[s..e], filter), records, readPrice);
  }

  lemma DecodesToSame(a: seq<Item>, b: seq<Item>, records: seq<StockTransaction>, readPrice: PriceReader)
    requires a == b && DecodesTo(a, records, readPrice)
    ensures DecodesTo(b, records, readPrice)
  {
  }

  /** The items of the page a request returns: the stretch of the
      partition from the cursor's index, filtered. */
  lemma PageItems(t: Table, account: string, limit: int, key: Option<StockTransactionKey>, filter: Option<Condition>)
    returns (s: nat, e: nat)
    requires CursorSafe(t)
    requires StartKeyItem(key).Success?
    requires QueryPage(t, account, StartKeyItem(key).value, limit, filter).Success?
    ensures s == Start(t, account, key)
    ensures e == if |Partition(t, account)| - s < limit then |Partition(t, account)| else s + limit
    ensures s <= e <= |Partition(t, account)|
    ensures QueryPage(t, account, StartKeyItem(key).value, limit, filter).value.items == Apply(Partition(t, account)[s..e], filter)
  {
    s := Start(t, account, key);
    e := if |Partition(t, account)| - s < limit then |Partition(t, account)| else s + limit;
    StartKeyRemaining(t, account, key);
    PageOfRemaining(t, account, StartKeyItem(key).value, limit, filter, s);
  }

  /** The page a query returns when it reads from index s on. */
  lemma PageOfRemaining(t: Table, account: string, esk: Option<Item>, limit: int, filter: Option<Condition>, s: nat)
    requires t.schema == Schema
    requires QueryPage(t, account, esk, limit, filter).Success?
    requires s <= |Partition(t, account)|
    requires Remaining(Schema, Partition(t, account), esk) == Partition(t, account)[s..]
    ensures limit >= 1
    ensures var page := QueryPage(t, account, esk, limit, filter).value;
            var part := Partition(t, account);
            if |part| - s >= limit then
              && page.items == Apply(part[s..s + limit], filter)
              && page.lastEvaluatedKey == Some(KeyMap(Schema, account, SortKeyOf(Schema, part[s + limit - 1])))
            else
              page.items == Apply(part[s..], filter) && page.lastEvaluatedKey.None?
    ensures var part := Partition(t, account);
            var e := if |part| - s < limit then |part| else s + limit;
            QueryPage(t, account, esk, limit, filter).value.items == Apply(part[s..e], filter)
  {
    var part := Partition(t, account);
    if |part| - s >= limit {
      SuffixPrefix(part, s, limit);
      assert part[s..][limit - 1] == part[s + limit - 1];
    } else {
      SuffixIsSlice(part, s);
    }
  }

  /** The start key a valid cursor is sent as makes the store read from
      the cursor's index on. */
  lemma StartKeyRemaining(t: Table, account: string, key: Option<StockTransactionKey>)
    requires CursorSafe(t)
    requires StartKeyItem(key).Success?
    ensures Remaining(Schema, Partition(t, account), StartKeyItem(key).value) == Partition(t, account)[Start(t, account, key)..]
  {
    var part := Partition(t, account);
    if key.Some? {
      var k := FormatInstant(key.value.timestamp.value);
      assert Remaining(Schema, part, StartKeyItem(key).value) == After(Schema, part, k) by {
        assert SortKeyOf(Schema, StartKeyItem(key).value.value) == k;
      }
      assert Ascending(Schema, part) by {
        assert PartitionWellFormed(t.schema, account, part);
      }
      AfterIsSuffix(Schema, part, k);
      assert Start(t, account, key) == |part| - |After(Schema, part, k)|;
    } else {
      assert part[0..] == part;
    }
  }

  // ---------------------------------------------------------------------
  // The readers

  /** `findStockTransactionByAccountNumber(accountNumber)`: the whole
      partition, decoded in order. */
  function FindByAccount(t: Table, account: string, readPrice: PriceReader): (r: Result<seq<StockTransaction>, StockDaoError>)
    requires t.schema == Schema
    ensures r.Success? <==> AllDecode(Partition(t, account), readPrice)
    ensures r.Success? ==> |r.value| == |Partition(t, account)|
    ensures r.Success? && WellFormed(t) ==> forall i :: 0 <= i < |r.value| ==> r.value[i].accountNumber == Some(account)
  {
    var r := DecodeAll(QueryPartition(t, account), readPrice);
    assert r.Success? ==> forall i :: 0 <= i < |r.value| ==> DecodeItem(Partition(t, account)[i], readPrice) == Some(r.value[i]);
    r
  }

  /** The paged `findStockTransactionByAccountNumber`: one request with
      limit `pageSize` from the cursor, no filter. */
  function FindByAccountPage(t: Table, account: string, pageSize: int, exclusiveStartKey: Option<StockTransactionKey>, readPrice: PriceReader)
    : (r: Result<QueryResultPage, StockDaoError>)
    requires t.schema == Schema
    ensures r.Success? ==> |r.value.results| <= pageSize
    ensures r.Success? ==>
              && StartKeyItem(exclusiveStartKey).Success?
              && (r.value.nextQueryKey.None? <==>
                    |Remaining(Schema, Partition(t, account), StartKeyItem(exclusiveStartKey).value)| < pageSize)
  {
    QueryTransactions(t, account, pageSize, exclusiveStartKey, None, readPrice)
  }

  /** The filter expression `tradeAction = :tradeAction`. */
  function ActionIs(action: TradeAction): Condition
  {
    AttributeEquals("tradeAction", S(TradeActionName(action)))
  }

  function Matches(action: TradeAction): Item -> bool
  {
    HoldsFn(ActionIs(action))
  }

  /** The two-argument `findStockTransactionByAccountNumberAndTradeAction`:
      one request from the start with limit 10 and the trade-action
      filter. The store reads ten items and only then filters. */
  function FindByAccountAndAction(t: Table, account: string, action: TradeAction, readPrice: PriceReader): (r: Result<QueryResultPage, StockDaoError>)
    requires t.schema == Schema
    ensures r.Success? ==> |r.value.results| <= FixedLimit
    ensures r.Success? ==> forall i :: 0 <= i < |r.value.results| ==> r.value.results[i].tradeAction == Some(action)
  {
    var r := QueryTransactions(t, account, FixedLimit, None, Some(ActionIs(action)), readPrice);
    if r.Success? then
      ActionRecords(QueryPage(t, account, None, FixedLimit, Some(ActionIs(action))).value.items, action, readPrice);
      r
    else r
  }

  /** `doFindStockTransactionByAccountNumberAndTradeAction`: one request
      from the cursor with limit `pageSize` and the trade-action filter. */
  function DoFind(t: Table, account: string, action: TradeAction, pageSize: int, key: Option<StockTransactionKey>, readPrice: PriceReader)
    : (r: Result<QueryResultPage, StockDaoError>)
    requires t.schema == Schema
    ensures r.Success? ==> 1 <= pageSize && |r.value.results| <= pageSize
    ensures r.Success? ==> forall i :: 0 <= i < |r.value.results| ==> r.value.results[i].tradeAction == Some(action)
  {
    var r := QueryTransactions(t, account, pageSize, key, Some(ActionIs(action)), readPrice);
    if r.Success? then
      ActionRecords(QueryPage(t, account, StartKeyItem(key).value, pageSize, Some(ActionIs(action))).value.items, action, readPrice);
      r
    else r
  }

  /** `findStockTransactionByAccountNumberWithTimeRange`: the items whose
      timestamp text lies between the two formatted instants, decoded. */
  function FindByAccountWithTimeRange(t: Table, account: string, startTime: Instant, endTime: Instant, readPrice: PriceReader)
    : (r: Result<seq<StockTransaction>, StockDaoError>)
    requires t.schema == Schema
    ensures LexLess(FormatInstant(endTime), FormatInstant(startTime)) ==> r == Failure(StoreFailure(ValidationError))
    ensures !LexLess(FormatInstant(endTime), FormatInstant(startTime)) ==>
              (r.Success? <==> AllDecode(Filter(Partition(t, account), BetweenFn(Schema, FormatInstant(startTime), FormatInstant(endTime))), readPrice))
  {
    match QueryBetween(t, account, FormatInstant(startTime), FormatInstant(endTime))
    case Failure(e) => Failure(StoreFailure(e))
    case Success(items) => DecodeAll(items, readPrice)
  }

  /** The do-while loop of the four-argument reader: fetch from the
      cursor, append, and go on while fewer than `pageSize` results are
      held and the cursor is not null. */
  function Accumulate(t: Table, account: string, action: TradeAction, pageSize: int,
                      key: Option<StockTransactionKey>, results: seq<StockTransaction>, readPrice: PriceReader)
    : (r: Result<QueryResultPage, StockDaoError>)
    requires CursorSafe(t)
    ensures r.Success? ==> pageSize >= 1
    ensures r.Success? && r.value.nextQueryKey.Some? ==> |r.value.results| >= pageSize
    decreases Unread(t, account, key)
  {
    match DoFind(t, account, action, pageSize, key, readPrice)
    case Failure(e) => Failure(e)
    case Success(page) =>
      var all := results + page.results;
      if |all| < pageSize && page.nextQueryKey.Some? then
        DoFindAdvances(t, account, action, pageSize, key, readPrice);
        Accumulate(t, account, action, pageSize, page.nextQueryKey, all, readPrice)
      else Success(QueryResultPage(all, page.nextQueryKey))
  }

  /** The four-argument `findStockTransactionByAccountNumberAndTradeAction`:
      the loop, then, when it overshot, the first `pageSize` results with a
      cursor built from the last of them; otherwise everything with the
      last fetch's cursor. */
  function FindByAccountAndActionPage(t: Table, account: string, action: TradeAction, pageSize: int,
                                      exclusiveStartKey: Option<StockTransactionKey>, readPrice: PriceReader)
    : (r: Result<QueryResultPage, StockDaoError>)
    requires CursorSafe(t)
    ensures r.Success? ==> |r.value.results| <= pageSize
    ensures r.Success? && r.value.nextQueryKey.Some? ==> |r.value.results| == pageSize
  {
    match Accumulate(t, account, action, pageSize, exclusiveStartKey, [], readPrice)
    case Failure(e) => Failure(e)
    case Success(acc) =>
      if |acc.results| > pageSize then
        var last := acc.results[pageSize - 1];
        Success(QueryResultPage(acc.results[..pageSize], Some(StockTransactionKey(last.accountNumber, last.timestamp))))
      else Success(acc)
  }

  /** A client paging through every match: start from a null cursor and
      follow returned cursors until one is null. */
  function FollowCursors(t: Table, account: string, action: TradeAction, pageSize: int,
                         cursor: Option<StockTransactionKey>, readPrice: PriceReader): (r: Result<seq<StockTransaction>, StockDaoError>)
    requires CursorSafe(t)
    decreases Unread(t, account, cursor)
  {
    match FindByAccountAndActionPage(t, account, action, pageSize, cursor, readPrice)
    case Failure(e) => Failure(e)
    case Success(page) =>
      if page.nextQueryKey.None? then Success(page.results)
      else
        PageSpec(t, account, action, pageSize, cursor, readPrice);
        match FollowCursors(t, account, action, pageSize, page.nextQueryKey, readPrice)
        case Failure(e) => Failure(e)
        case Success(rest) => Success(page.results + rest)
  }

  /** A fetch that returns a cursor has moved it forward. */
  lemma DoFindAdvances(t: Table, account: string, action: TradeAction, pageSize: int, key: Option<StockTransactionKey>, readPrice: PriceReader)
    requires CursorSafe(t)
    requires DoFind(t, account, action, pageSize, key, readPrice).Success?
    requires DoFind(t, account, action, pageSize, key, readPrice).value.nextQueryKey.Some?
    ensures Unread(t, account, DoFind(t, account, action, pageSize, key, readPrice).value.nextQueryKey) < Unread(t, account, key)
  {
    QueryTransactionsStep(t, account, pageSize, key, Some(ActionIs(action)), readPrice);
  }

  /** A fetch returns a cursor the readers accept again. */
  lemma DoFindCursor(t: Table, account: string, action: TradeAction, pageSize: int, key: Option<StockTransactionKey>, readPrice: PriceReader)
    requires CursorSafe(t)
    requires DoFind(t, account, action, pageSize, key, readPrice).Success?
    ensures ValidCursor(account, DoFind(t, account, action, pageSize, key, readPrice).value.nextQueryKey)
  {
    StepCursor(t, account, pageSize, key, Some(ActionIs(action)), readPrice);
  }

  // ---------------------------------------------------------------------
  // What decoded records say about their items

  lemma TimestampOfItem(item: Item, readPrice: PriceReader)
    requires DecodeItem(item, readPrice).Some?
    ensures "timestamp" in item ==>
              && item["timestamp"].S? && IsNumeral(item["timestamp"].s)
              && DecodeItem(item, readPrice).value.timestamp == ParseInteger(item["timestamp"].s)
    ensures "timestamp" in item && IsCanonical(item["timestamp"].s) ==>
              FormatInstant(DecodeItem(item, readPrice).value.timestamp.value) == item["timestamp"].s
  {
    if "timestamp" in item {
      assert DecodeField("timestamp", item["timestamp"], readPrice).Success?;
      InstantRoundTrip(0, item["timestamp"].s);
    }
  }

  lemma RecordOfItem(item: Item, account: string, readPrice: PriceReader)
    requires DecodeItem(item, readPrice).Some? && KeyedIn(Schema, account, item)
    ensures DecodeItem(item, readPrice).value.accountNumber == Some(account)
    ensures DecodeItem(item, readPrice).value.timestamp == ParseInteger(SortKeyOf(Schema, item))
    ensures IsNumeral(SortKeyOf(Schema, item))
  {
    TimestampOfItem(item, readPrice);
  }

  lemma ActionRecords(items: seq<Item>, action: TradeAction, readPrice: PriceReader)
    requires AllDecode(items, readPrice)
    requires forall i :: 0 <= i < |items| ==> Holds(ActionIs(action), items[i])
    ensures forall i :: 0 <= i < |items| ==> DecodedRecords(items, readPrice)[i].tradeAction == Some(action)
  {
    forall i | 0 <= i < |items| ensures DecodedRecords(items, readPrice)[i].tradeAction == Some(action) {
      var item := items[i];
      assert DecodeField("tradeAction", item["tradeAction"], readPrice).Success?;
      assert TradeActionValueOf(Some(TradeActionName(action))) == Success(action);
    }
  }

  // ---------------------------------------------------------------------
  // The loop and the cut

  /** The loop reads one contiguous stretch of the partition from the
      cursor's index; the results are what it held before plus the
      decoded matches of that stretch, and the final cursor resumes right
      after it. */
  lemma {:induction false} AccumulateSpec(t: Table, account: string, action: TradeAction, pageSize: int,
                                          key: Option<StockTransactionKey>, results: seq<StockTransaction>, readPrice: PriceReader)
    requires CursorSafe(t)
    requires Accumulate(t, account, action, pageSize, key, results, readPrice).Success?
    ensures var r := Accumulate(t, account, action, pageSize, key, results, readPrice).value;
            var part := Partition(t, account);
            var s := Start(t, account, key);
            var e := Stop(t, account, r.nextQueryKey);
            && s <= e
            && AllDecode(Filter(part[s..e], Matches(action)), readPrice)
            && r.results == results + DecodedRecords(Filter(part[s..e], Matches(action)), readPrice)
    ensures ValidCursor(account, Accumulate(t, account, action, pageSize, key, results, readPrice).value.nextQueryKey)
    decreases Unread(t, account, key)
  {
    var part := Partition(t, account);
    var keep := Matches(action);
    var page := DoFind(t, account, action, pageSize, key, readPrice).value;
    var all := results + page.results;
    var a := Start(t, account, key);
    var b := Stop(t, account, page.nextQueryKey);
    assert a <= b && AllDecode(Filter(part[a..b], keep), readPrice) && page.results == DecodedRecords(Filter(part[a..b], keep), readPrice)
        && ValidCursor(account, page.nextQueryKey) by {
      QueryTransactionsStep(t, account, pageSize, key, Some(ActionIs(action)), readPrice);
    }
    if |all| < pageSize && page.nextQueryKey.Some? {
      var r := Accumulate(t, account, action, pageSize, page.nextQueryKey, all, readPrice).value;
      assert r == Accumulate(t, account, action, pageSize, key, results, readPrice).value;
      DoFindAdvances(t, account, action, pageSize, key, readPrice);
      AccumulateSpec(t, account, action, pageSize, page.nextQueryKey, all, readPrice);
      JoinStretches(part, keep, a, b, Stop(t, account, r.nextQueryKey), results, all, r.results, readPrice);
    } else {
      assert Accumulate(t, account, action, pageSize, key, results, readPrice).value == QueryResultPage(all, page.nextQueryKey);
    }
  }

  /** Two adjacent stretches read one after the other give the matches of
      the stretch they make up together. */
  lemma JoinStretches(part: seq<Item>, keep: Item -> bool, a: nat, b: nat, c: nat,
                      results: seq<StockTransaction>, mid: seq<StockTransaction>, final: seq<StockTransaction>, readPrice: PriceReader)
    requires a <= b <= c <= |part|
    requires AllDecode(Filter(part[a..b], keep), readPrice) && AllDecode(Filter(part[b..c], keep), readPrice)
    requires mid == results + DecodedRecords(Filter(part[a..b], keep), readPrice)
    requires final == mid + DecodedRecords(Filter(part[b..c], keep), readPrice)
    ensures AllDecode(Filter(part[a..c], keep), readPrice)
    ensures final == results + DecodedRecords(Filter(part[a..c], keep), readPrice)
  {
    var front := Filter(part[a..b], keep);
    var back := Filter(part[b..c], keep);
    SliceSplit(part, a, b, c);
    FilterConcat(part[a..b], part[b..c], keep);
    DecodedConcat(front, back, readPrice);
    ConcatAssociative(results, DecodedRecords(front, readPrice), DecodedRecords(back, readPrice));
  }

  /** One page of the four-argument reader, positionally: the decoded
      matches of one stretch of the partition starting at the cursor's
      index, at most `pageSize` of them, and a cursor resuming right
      after the stretch; a non-null cursor has moved forward. */
  lemma PageSpec(t: Table, account: string, action: TradeAction, pageSize: int, exclusiveStartKey: Option<StockTransactionKey>, readPrice: PriceReader)
    requires CursorSafe(t)
    requires FindByAccountAndActionPage(t, account, action, pageSize, exclusiveStartKey, readPrice).Success?
    ensures var r := FindByAccountAndActionPage(t, account, action, pageSize, exclusiveStartKey, readPrice).value;
            ReadsStretch(t, account, action, Start(t, account, exclusiveStartKey), Stop(t, account, r.nextQueryKey), r.results, readPrice)
    ensures var r := FindByAccountAndActionPage(t, account, action, pageSize, exclusiveStartKey, readPrice).value;
            r.nextQueryKey.Some? ==> Start(t, account, exclusiveStartKey) < Stop(t, account, r.nextQueryKey)
    ensures ValidCursor(account, FindByAccountAndActionPage(t, account, action, pageSize, exclusiveStartKey, readPrice).value.nextQueryKey)
  {
    if |Accumulate(t, account, action, pageSize, exclusiveStartKey, [], readPrice).value.results| > pageSize {
      PageCut(t, account, action, pageSize, exclusiveStartKey, readPrice);
    } else {
      PageWhole(t, account, action, pageSize, exclusiveStartKey, readPrice);
    }
  }

  /** PageSpec when the loop overshot and the page is cut. */
  lemma PageCut(t: Table, account: string, action: TradeAction, pageSize: int, exclusiveStartKey: Option<StockTransactionKey>, readPrice: PriceReader)
    requires CursorSafe(t)
    requires FindByAccountAndActionPage(t, account, action, pageSize, exclusiveStartKey, readPrice).Success?
    requires |Accumulate(t, account, action, pageSize, exclusiveStartKey, [], readPrice).value.results| > pageSize
    ensures var r := FindByAccountAndActionPage(t, account, action, pageSize, exclusiveStartKey, readPrice).value;
            && ReadsStretch(t, account, action, Start(t, account, exclusiveStartKey), Stop(t, account, r.nextQueryKey), r.results, readPrice)
            && Start(t, account, exclusiveStartKey) < Stop(t, account, r.nextQueryKey)
            && ValidCursor(account, r.nextQueryKey)
  {
    var part := Partition(t, account);
    var acc := Accumulate(t, account, action, pageSize, exclusiveStartKey, [], readPrice).value;
    var r := FindByAccountAndActionPage(t, account, action, pageSize, exclusiveStartKey, readPrice).value;
    var s := Start(t, account, exclusiveStartKey);
    var e := Stop(t, account, acc.nextQueryKey);
    AccumulateSpec(t, account, action, pageSize, exclusiveStartKey, [], readPrice);
    assert ReadsStretch(t, account, action, s, e, acc.results, readPrice) by {
      EmptyConcat(DecodedRecords(Filter(part[s..e], Matches(action)), readPrice));
    }
    var last := acc.results[pageSize - 1];
    assert r == QueryResultPage(acc.results[..pageSize], Some(StockTransactionKey(last.accountNumber, last.timestamp)));
    CutPage(t, account, action, s, e, acc.results, pageSize, r, readPrice);
  }

  /** The page the cut produces reads a shorter stretch from the same
      index, and its cursor resumes right after that stretch. */
  lemma CutPage(t: Table, account: string, action: TradeAction, s: nat, e: nat,
                results: seq<StockTransaction>, pageSize: int, page: QueryResultPage, readPrice: PriceReader)
    requires CursorSafe(t)
    requires ReadsStretch(t, account, action, s, e, results, readPrice)
    requires 1 <= pageSize < |results|
    requires page.results == results[..pageSize]
    requires page.nextQueryKey == Some(StockTransactionKey(results[pageSize - 1].accountNumber, results[pageSize - 1].timestamp))
    ensures ReadsStretch(t, account, action, s, Stop(t, account, page.nextQueryKey), page.results, readPrice)
    ensures s < Stop(t, account, page.nextQueryKey)
    ensures ValidCursor(account, page.nextQueryKey)
  {
    var q := CutStretch(t, account, action, s, e, results, pageSize, readPrice);
    var part := Partition(t, account);
    assert Stop(t, account, page.nextQueryKey) == s + q + 1;
    assert ReadsStretch(t, account, action, s, s + q + 1, page.results, readPrice);
    assert part[s..Stop(t, account, page.nextQueryKey)] == part[s..s + q + 1];
  }

  /** PageSpec when the loop's results are returned whole. */
  lemma PageWhole(t: Table, account: string, action: TradeAction, pageSize: int, exclusiveStartKey: Option<StockTransactionKey>, readPrice: PriceReader)
    requires CursorSafe(t)
    requires FindByAccountAndActionPage(t, account, action, pageSize, exclusiveStartKey, readPrice).Success?
    requires |Accumulate(t, account, action, pageSize, exclusiveStartKey, [], readPrice).value.results| <= pageSize
    ensures var r := FindByAccountAndActionPage(t, account, action, pageSize, exclusiveStartKey, readPrice).value;
            && ReadsStretch(t, account, action, Start(t, account, exclusiveStartKey), Stop(t, account, r.nextQueryKey), r.results, readPrice)
            && (r.nextQueryKey.Some? ==> Start(t, account, exclusiveStartKey) < Stop(t, account, r.nextQueryKey))
            && ValidCursor(account, r.nextQueryKey)
  {
    var part := Partition(t, account);
    var acc := Accumulate(t, account, action, pageSize, exclusiveStartKey, [], readPrice).value;
    var r := FindByAccountAndActionPage(t, account, action, pageSize, exclusiveStartKey, readPrice).value;
    var s := Start(t, account, exclusiveStartKey);
    var e := Stop(t, account, acc.nextQueryKey);
    AccumulateSpec(t, account, action, pageSize, exclusiveStartKey, [], readPrice);
    assert ReadsStretch(t, account, action, s, e, acc.results, readPrice) by {
      EmptyConcat(DecodedRecords(Filter(part[s..e], Matches(action)), readPrice));
    }
    assert r == acc;
    if acc.nextQueryKey.Some? {
      assert |Filter(part[s..e], Matches(action))| > 0;
    }
  }

  /** `records` are the decoded matches of the stretch [s, e) of the
      account's partition. */
  predicate ReadsStretch(t: Table, account: string, action: TradeAction, s: int, e: int, records: seq<StockTransaction>, readPrice: PriceReader)
  {
    && 0 <= s <= e <= |Partition(t, account)|
    && DecodesTo(Filter(Partition(t, account)[s..e], Matches(action)), records, readPrice)
  }

  /** The cut after the loop overshot: the first `pageSize` results are the
      matches of a shorter stretch ending at the item the last of them was
      decoded from, and the cursor built from that record resumes right
      after it. */
  lemma CutStretch(t: Table, account: string, action: TradeAction, s: nat, e: nat,
                   results: seq<StockTransaction>, pageSize: int, readPrice: PriceReader) returns (q: nat)
    requires CursorSafe(t)
    requires s <= e <= |Partition(t, account)|
    requires ReadsStretch(t, account, action, s, e, results, readPrice)
    requires 1 <= pageSize < |results|
    ensures s + q < e
    ensures ReadsStretch(t, account, action, s, s + q + 1, results[..pageSize], readPrice)
    ensures var last := results[pageSize - 1];
            var cursor := Some(StockTransactionKey(last.accountNumber, last.timestamp));
            ValidCursor(account, cursor) && Start(t, account, cursor) == s + q + 1
  {
    var part := Partition(t, account);
    q := CutAt(part, Matches(action), s, e, results, pageSize, readPrice);
    var item := part[s + q];
    var last := results[pageSize - 1];
    var sk := SortKeyOf(Schema, item);
    assert last.accountNumber == Some(account) && IsNumeral(sk) && last.timestamp == ParseInteger(sk) by {
      assert KeyedIn(Schema, account, item) by {
        assert PartitionWellFormed(Schema, account, part);
      }
      RecordOfItem(item, account, readPrice);
    }
    CursorOfItem(t, account, s + q, StockTransactionKey(last.accountNumber, last.timestamp));
  }

  /** The first n decoded matches of a stretch are the decoded matches of
      the shorter stretch that ends at the n-th match. */
  lemma CutAt(part: seq<Item>, keep: Item -> bool, s: nat, e: nat, results: seq<StockTransaction>, n: nat, readPrice: PriceReader) returns (q: nat)
    requires s <= e <= |part|
    requires AllDecode(Filter(part[s..e], keep), readPrice)
    requires results == DecodedRecords(Filter(part[s..e], keep), readPrice)
    requires 1 <= n <= |results|
    ensures s + q < e
    ensures DecodeItem(part[s + q], readPrice) == Some(results[n - 1])
    ensures AllDecode(Filter(part[s..s + q + 1], keep), readPrice)
    ensures results[..n] == DecodedRecords(Filter(part[s..s + q + 1], keep), readPrice)
  {
    var seg := part[s..e];
    var f := Filter(seg, keep);
    q := FilterPrefixAt(seg, n - 1, keep);
    assert seg[q] == part[s + q];
    DecodedPrefix(f, n, readPrice);
    SliceOfSlice(part, s, e, q + 1);
    var g := Filter(part[s..s + q + 1], keep);
    assert f[..n] == g;
    assert results[..n] == DecodedRecords(f[..n], readPrice);
  }
}

=== FILE: stock_transaction_key.dfy ===
/** The primary key of a stock transaction, (accountNumber, timestamp),
    as the readers pass it around as a cursor: the DAO encodes it into an
    exclusive start key, and decodes a last-evaluated key back into it
    with the same entry-by-entry builder walk as the record decoder,
    which accepts only the two key attributes. */
module StockTransactionKeys {
  import opened Wrappers
  import opened Numerals
  import opened Store
  import opened JavaLang

  datatype StockTransactionKey = StockTransactionKey(accountNumber: Option<string>, timestamp: Option<Instant>)

  /** `StockTransactionKey.builder().build()`. */
  const EmptyKey: StockTransactionKey := StockTransactionKey(None, None)

  const KeyAttributeNames: set<string> := {"accountNumber", "timestamp"}

  /** `getTimestampFormatted`: the ISO_INSTANT text of the timestamp;
      formatting a null timestamp throws. */
  function TimestampFormatted(k: StockTransactionKey): (r: Result<string, JavaError>)
    ensures r.Success? <==> k.timestamp.Some?
    ensures r.Failure? ==> r.error == NullPointer
    ensures r.Success? ==> ParseInstant(Some(r.value)) == Success(k.timestamp.value) && IsCanonical(r.value)
  {
    match k.timestamp
    case None => Failure(NullPointer)
    case Some(i) =>
      InstantRoundTrip(i, "");
      Success(FormatInstant(i))
  }

  /** The exclusive start key map the DAO builds from a cursor: the
      account number as a string value and the formatted timestamp. */
  function EncodeStartKey(k: StockTransactionKey): (r: Result<Item, JavaError>)
    ensures r.Success? <==> k.timestamp.Some?
    ensures r.Success? ==> r.value.Keys == KeyAttributeNames
    ensures r.Success? ==> StringMember(r.value["accountNumber"]) == k.accountNumber
    ensures r.Success? ==> r.value["timestamp"] == S(TimestampFormatted(k).value)
  {
    match TimestampFormatted(k)
    case Failure(e) => Failure(e)
    case Success(ts) => Success(map["accountNumber" := StringValue(k.accountNumber), "timestamp" := S(ts)])
  }

  datatype KeyField = AccountField(account: Option<string>) | TimestampField(instant: Instant)

  /** The switch of the key's `mapItem`. */
  function DecodeKeyField(name: string, v: AttributeValue): (r: Result<KeyField, JavaError>)
    ensures name !in KeyAttributeNames ==> r == Failure(IllegalArgument)
    ensures name == "accountNumber" ==> r == Success(AccountField(StringMember(v)))
  {
    if name == "accountNumber" then Success(AccountField(StringMember(v)))
    else if name == "timestamp" then
      match ParseInstant(StringMember(v))
      case Failure(e) => Failure(e)
      case Success(i) => Success(TimestampField(i))
    else Failure(IllegalArgument)
  }

  function SetKeyField(b: StockTransactionKey, f: KeyField): StockTransactionKey
  {
    match f
    case AccountField(a) => b.(accountNumber := a)
    case TimestampField(i) => b.(timestamp := Some(i))
  }

  /** The builder walk over the entries in iteration order. */
  function DecodeKeyEntries(b: StockTransactionKey, es: seq<Entry>): (r: Result<StockTransactionKey, JavaError>)
    ensures r.Success? <==> forall i :: 0 <= i < |es| ==> DecodeKeyField(es[i].0, es[i].1).Success?
    decreases |es|
  {
    if es == [] then Success(b)
    else
      match DecodeKeyField(es[0].0, es[0].1)
      case Failure(e) => Failure(e)
      case Success(f) =>
        assert forall i :: 1 <= i < |es| ==> es[i] == es[1..][i - 1];
        DecodeKeyEntries(SetKeyField(b, f), es[1..])
  }

  /** `toStockTransactionKey`. */
  function ToStockTransactionKey(es: seq<Entry>): Result<StockTransactionKey, JavaError>
  {
    DecodeKeyEntries(EmptyKey, es)
  }

  predicate KeyDecodes(m: Item)
  {
    forall k :: k in m ==> DecodeKeyField(k, m[k]).Success?
  }

  /** The key a decodable map stands for, whatever the entry order. */
  function KeyDecoded(b: StockTransactionKey, m: Item): StockTransactionKey
    requires KeyDecodes(m)
  {
    StockTransactionKey(
      accountNumber := if "accountNumber" in m then StringMember(m["accountNumber"]) else b.accountNumber,
      timestamp := if "timestamp" in m then Some(DecodeKeyField("timestamp", m["timestamp"]).value.instant) else b.timestamp)
  }

  /** A map decodes exactly when one entry does and the rest of the map
      does. */
  lemma KeyDecodesStep(m: Item, name: string)
    requires name in m
    ensures KeyDecodes(m) <==> DecodeKeyField(name, m[name]).Success? && KeyDecodes(m - {name})
  {
    if DecodeKeyField(name, m[name]).Success? && KeyDecodes(m - {name}) {
      forall k | k in m ensures DecodeKeyField(k, m[k]).Success? {
        if k != name { assert k in m - {name}; }
      }
    }
  }

  lemma {:induction false} DecodeKeyEntriesIsDecoded(b: StockTransactionKey, es: seq<Entry>, m: Item)
    requires Lists(es, m)
    ensures DecodeKeyEntries(b, es).Success? <==> KeyDecodes(m)
    ensures DecodeKeyEntries(b, es).Success? ==> DecodeKeyEntries(b, es).value == KeyDecoded(b, m)
    decreases |es|
  {
    if es != [] {
      var name := es[0].0;
      ListsTail(es, m);
      KeyDecodesStep(m, name);
      match DecodeKeyField(name, es[0].1)
      case Failure(_) =>
      case Success(f) =>
        DecodeKeyEntriesIsDecoded(SetKeyField(b, f), es[1..], m - {name});
    }
  }

  /** Whether a key map decodes, and to what, does not depend on the
      entry order. */
  lemma KeyDecodeOrderIndependent(es1: seq<Entry>, es2: seq<Entry>, m: Item)
    requires Lists(es1, m) && Lists(es2, m)
    ensures ToStockTransactionKey(es1).Success? == ToStockTransactionKey(es2).Success?
    ensures ToStockTransactionKey(es1).Success? ==> ToStockTransactionKey(es1) == ToStockTransactionKey(es2)
  {
    DecodeKeyEntriesIsDecoded(EmptyKey, es1, m);
    DecodeKeyEntriesIsDecoded(EmptyKey, es2, m);
  }

  /** A map with an attribute other than the two key attributes (an
      index key, say) makes the walk throw IllegalArgumentException, when
      its timestamp (if any) is well formed. */
  lemma {:induction false} KeyUnknownAttributeRejected(b: StockTransactionKey, es: seq<Entry>)
    requires exists i :: 0 <= i < |es| && es[i].0 !in KeyAttributeNames
    requires forall i :: 0 <= i < |es| && es[i].0 in KeyAttributeNames ==> DecodeKeyField(es[i].0, es[i].1).Success?
    ensures DecodeKeyEntries(b, es) == Failure(IllegalArgument)
    decreases |es|
  {
    match DecodeKeyField(es[0].0, es[0].1)
    case Failure(_) =>
    case Success(f) =>
      var rest := es[1..];
      var j :| 0 <= j < |es| && es[j].0 !in KeyAttributeNames;
      assert j > 0 && rest[j - 1] == es[j];
      forall i | 0 <= i < |rest| && rest[i].0 in KeyAttributeNames
        ensures DecodeKeyField(rest[i].0, rest[i].1).Success?
      {
        assert rest[i] == es[i + 1];
      }
      KeyUnknownAttributeRejected(SetKeyField(b, f), rest);
  }

  /** A missing key attribute leaves that field null. */
  lemma MissingKeyAttributeIsNull(es: seq<Entry>, m: Item)
    requires Lists(es, m) && KeyDecodes(m)
    ensures "accountNumber" !in m ==> ToStockTransactionKey(es).value.accountNumber.None?
    ensures "timestamp" !in m ==> ToStockTransactionKey(es).value.timestamp.None?
  {
    DecodeKeyEntriesIsDecoded(EmptyKey, es, m);
  }

  /** Encoding a cursor as the DAO does and decoding the map, in any
      entry order, gives the cursor back. */
  lemma StartKeyRoundTrip(k: StockTransactionKey, es: seq<Entry>)
    requires EncodeStartKey(k).Success?
    requires Lists(es, EncodeStartKey(k).value)
    ensures ToStockTransactionKey(es) == Success(k)
  {
    var m := EncodeStartKey(k).value;
    assert KeyDecodes(m);
    DecodeKeyEntriesIsDecoded(EmptyKey, es, m);
  }

  /** The key decoder as the readers use it, on a whole map. */
  function DecodeKeyItem(m: Item): (r: Option<StockTransactionKey>)
    ensures r.Some? <==> KeyDecodes(m)
  {
    if KeyDecodes(m) then Some(KeyDecoded(EmptyKey, m)) else None
  }

  /** The whole-map key decoder agrees with the entry walk in every order. */
  lemma DecodeKeyItemAgrees(m: Item, es: seq<Entry>)
    requires Lists(es, m)
    ensures DecodeKeyItem(m).Some? <==> ToStockTransactionKey(es).Success?
    ensures DecodeKeyItem(m).Some? ==> ToStockTransactionKey(es) == Success(DecodeKeyItem(m).value)
  {
    DecodeKeyEntriesIsDecoded(EmptyKey, es, m);
  }
}

=== FILE: store.dfy ===
/** The key-value store the DAOs talk to, reduced to what they use: a table
    whose items are attribute maps, grouped by partition-key value and kept
    in ascending sort-key order inside each partition; queries over one
    partition (optionally from an exclusive start key, with a limit that is
    applied before the filter); a conditional single-item update; and an
    all-or-nothing transaction of conditional updates. Each write is one
    atomic step. */
module Store {
  import opened Wrappers
  import opened Strings
  import opened Seqs

  /** An attribute value: a string (S), a number carried as its text (N), or
      a value with no member set, which is what the SDK builds from a null
      string and what the store refuses to write. */
  datatype AttributeValue = S(s: string) | N(n: string) | Unset

  /** `AttributeValue.s()`: null unless the value is a string. */
  function StringMember(v: AttributeValue): (r: Option<string>)
    ensures r.Some? <==> v.S?
  {
    if v.S? then Some(v.s) else None
  }

  /** `AttributeValue.n()`: null unless the value is a number. */
  function NumberMember(v: AttributeValue): (r: Option<string>)
    ensures r.Some? <==> v.N?
  {
    if v.N? then Some(v.n) else None
  }

  type Item = map<string, AttributeValue>

  /** `stringValue(s)` and `AttributeValue.builder().s(s).build()`: a
      string value, or for null a value with no member set. */
  function StringValue(s: Option<string>): (v: AttributeValue)
    ensures StringMember(v) == s && !v.N?
  {
    match s
    case None => Unset
    case Some(text) => S(text)
  }

  /** One entry of an item, as `entrySet()` yields it. */
  type Entry = (string, AttributeValue)

  /** `es` lists the entries of `m`, each once, in some order: an
      iteration order of the map. */
  predicate Lists(es: seq<Entry>, m: Item)
  {
    && (forall i, j :: 0 <= i < j < |es| ==> es[i].0 != es[j].0)
    && (forall i :: 0 <= i < |es| ==> es[i].0 in m && m[es[i].0] == es[i].1)
    && (forall k :: k in m ==> exists i :: 0 <= i < |es| && es[i].0 == k)
  }

  /** Dropping the first entry of a listing lists the rest of the map. */
  lemma ListsTail(es: seq<Entry>, m: Item)
    requires Lists(es, m) && es != []
    ensures es[0].0 in m && m[es[0].0] == es[0].1
    ensures Lists(es[1..], m - {es[0].0})
  {
    var rest := es[1..];
    var m' := m - {es[0].0};
    forall k | k in m' ensures exists i :: 0 <= i < |rest| && rest[i].0 == k {
      var i :| 0 <= i < |es| && es[i].0 == k;
      assert i != 0 && rest[i - 1].0 == k;
    }
    forall i | 0 <= i < |rest| ensures rest[i].0 in m' && m'[rest[i].0] == rest[i].1 {
      assert rest[i] == es[i + 1];
    }
  }


  /** `item.get(name)` followed by `.s()`: null when the attribute is absent
      or not a string. */
  function StringAttribute(item: Item, name: string): (r: Option<string>)
    ensures r.Some? <==> name in item && item[name].S?
  {
    if name in item then StringMember(item[name]) else None
  }

  datatype KeySchema = KeySchema(partitionKey: string, sortKey: string)

  datatype Table = Table(schema: KeySchema, partitions: map<string, seq<Item>>)

  datatype StoreError =
    | ValidationError        // a malformed request, refused before it runs
    | ConditionalCheckFailed // a single-item condition did not hold
    | TransactionCanceled    // some condition of a transaction did not hold

  /** The number of actions DynamoDB accepts in one transactional write. */
  const MaxTransactionActions: nat := 100

  /** The sort-key text of an item ("" when it has none, which a
      well-formed table rules out). */
  function SortKeyOf(schema: KeySchema, item: Item): string
  {
    if schema.sortKey in item && item[schema.sortKey].S? then item[schema.sortKey].s else ""
  }

  /** The item carries string key attributes and belongs to partition p. */
  predicate KeyedIn(schema: KeySchema, p: string, item: Item)
  {
    && schema.partitionKey in item && item[schema.partitionKey] == S(p)
    && schema.sortKey in item && item[schema.sortKey].S?
  }

  /** Sort keys strictly ascending, hence also pairwise distinct. */
  predicate Ascending(schema: KeySchema, part: seq<Item>)
  {
    forall i, j :: 0 <= i < j < |part| ==> LexLess(SortKeyOf(schema, part[i]), SortKeyOf(schema, part[j]))
  }

  predicate PartitionWellFormed(schema: KeySchema, p: string, part: seq<Item>)
  {
    && (forall i :: 0 <= i < |part| ==> KeyedIn(schema, p, part[i]))
    && Ascending(schema, part)
  }

  predicate WellFormed(t: Table)
  {
    && t.schema.partitionKey != t.schema.sortKey
    && forall p :: p in t.partitions ==> PartitionWellFormed(t.schema, p, t.partitions[p])
  }

  /** The items of partition p in sort-key order (none for an unknown p). */
  function Partition(t: Table, p: string): (part: seq<Item>)
    ensures WellFormed(t) ==> PartitionWellFormed(t.schema, p, part)
  {
    if p in t.partitions then t.partitions[p] else []
  }

  /** The primary-key attribute map of the item at (p, sk). */
  function KeyMap(schema: KeySchema, p: string, sk: string): (m: Item)
    requires schema.partitionKey != schema.sortKey
    ensures m.Keys == {schema.partitionKey, schema.sortKey}
    ensures m[schema.partitionKey] == S(p) && m[schema.sortKey] == S(sk)
  {
    map[schema.partitionKey := S(p), schema.sortKey := S(sk)]
  }

  /** A start key a query over partition p accepts: exactly the two key
      attributes, both strings, with p as the partition value. */
  predicate IsStartKeyFor(schema: KeySchema, p: string, m: Item)
  {
    && m.Keys == {schema.partitionKey, schema.sortKey}
    && m[schema.partitionKey] == S(p)
    && m[schema.sortKey].S?
  }

  // ---------------------------------------------------------------------
  // Filters over one partition

  /** A filter expression `name = :value`. */
  datatype Condition = AttributeEquals(name: string, value: AttributeValue)

  predicate Holds(c: Condition, item: Item)
  {
    c.name in item && item[c.name] == c.value
  }

  function HoldsFn(c: Condition): Item -> bool
  {
    item => Holds(c, item)
  }

  /** Applies an optional filter expression. */
  function Apply(items: seq<Item>, filter: Option<Condition>): seq<Item>
  {
    if filter.None? then items else Filter(items, HoldsFn(filter.value))
  }

  function AfterFn(schema: KeySchema, k: string): Item -> bool
  {
    item => LexLess(k, SortKeyOf(schema, item))
  }

  /** The items whose sort key is strictly greater than k. */
  function After(schema: KeySchema, part: seq<Item>, k: string): seq<Item>
  {
    Filter(part, AfterFn(schema, k))
  }

  function SortKeyEqualsFn(schema: KeySchema, k: string): Item -> bool
  {
    item => SortKeyOf(schema, item) == k
  }

  function BeginsWithFn(schema: KeySchema, prefix: string): Item -> bool
  {
    item => StartsWith(SortKeyOf(schema, item), prefix)
  }

  function BetweenFn(schema: KeySchema, lo: string, hi: string): Item -> bool
  {
    item => LexLessOrEqual(lo, SortKeyOf(schema, item)) && LexLessOrEqual(SortKeyOf(schema, item), hi)
  }

  // ---------------------------------------------------------------------
  // Queries

  /** `keyConditionExpression("pk = :p")`: the whole partition, in order. */
  function QueryPartition(t: Table, p: string): seq<Item>
  {
    Partition(t, p)
  }

  /** `pk = :p AND sk = :k`. */
  function QuerySortKeyEquals(t: Table, p: string, k: string): (r: seq<Item>)
    ensures forall x :: x in r <==> x in Partition(t, p) && SortKeyOf(t.schema, x) == k
  {
    FilterMembers(Partition(t, p), SortKeyEqualsFn(t.schema, k));
    Filter(Partition(t, p), SortKeyEqualsFn(t.schema, k))
  }

  /** `pk = :p AND begins_with(sk, :prefix)`. */
  function QueryBeginsWith(t: Table, p: string, prefix: string): (r: seq<Item>)
    ensures forall i :: 0 <= i < |r| ==> StartsWith(SortKeyOf(t.schema, r[i]), prefix)
    ensures forall x :: x in r <==> x in Partition(t, p) && StartsWith(SortKeyOf(t.schema, x), prefix)
  {
    FilterMembers(Partition(t, p), BeginsWithFn(t.schema, prefix));
    Filter(Partition(t, p), BeginsWithFn(t.schema, prefix))
  }

  /** `pk = :p AND sk BETWEEN :lo AND :hi`; a lower bound above the upper
      one is refused. */
  function QueryBetween(t: Table, p: string, lo: string, hi: string): (r: Result<seq<Item>, StoreError>)
    ensures r.Failure? <==> LexLess(hi, lo)
    ensures r.Success? ==> forall i :: 0 <= i < |r.value| ==>
              LexLessOrEqual(lo, SortKeyOf(t.schema, r.value[i])) && LexLessOrEqual(SortKeyOf(t.schema, r.value[i]), hi)
    ensures r.Success? ==> forall x :: x in r.value <==>
              x in Partition(t, p) && LexLessOrEqual(lo, SortKeyOf(t.schema, x)) && LexLessOrEqual(SortKeyOf(t.schema, x), hi)
  {
    if LexLess(hi, lo) then Failure(ValidationError)
    else
      FilterMembers(Partition(t, p), BetweenFn(t.schema, lo, hi));
      Success(Filter(Partition(t, p), BetweenFn(t.schema, lo, hi)))
  }

  /** A query on a local secondary index whose sort key is the attribute
      `name`: the items of partition p whose `name` equals v. Items with
      equal index keys are taken in table order. */
  function QueryIndexEquals(t: Table, p: string, name: string, v: AttributeValue): (r: seq<Item>)
    ensures forall x :: x in r <==> x in Partition(t, p) && name in x && x[name] == v
  {
    FilterMembers(Partition(t, p), HoldsFn(AttributeEquals(name, v)));
    Filter(Partition(t, p), HoldsFn(AttributeEquals(name, v)))
  }

  /** One response of a limited query. */
  datatype Page = Page(items: seq<Item>, lastEvaluatedKey: Option<Item>)

  /** The part of a partition a query with this start key reads from. */
  function Remaining(schema: KeySchema, part: seq<Item>, exclusiveStartKey: Option<Item>): seq<Item>
  {
    if exclusiveStartKey.None? then part else After(schema, part, SortKeyOf(schema, exclusiveStartKey.value))
  }

  /** A query with `exclusiveStartKey`, `limit` and an optional filter. The
      store reads at most `limit` items past the start key and only then
      applies the filter, so a page can hold fewer than `limit` items while
      more matches remain. When the read stopped at the limit, the response
      carries the key of the last item read, even if nothing follows it. */
  function QueryPage(t: Table, p: string, exclusiveStartKey: Option<Item>, limit: int,
                     filter: Option<Condition>): (r: Result<Page, StoreError>)
    requires t.schema.partitionKey != t.schema.sortKey
    ensures r.Failure? <==> limit < 1 || (exclusiveStartKey.Some? && !IsStartKeyFor(t.schema, p, exclusiveStartKey.value))
    ensures r.Success? ==> |r.value.items| <= limit
    ensures r.Success? && filter.Some? ==> forall i :: 0 <= i < |r.value.items| ==> Holds(filter.value, r.value.items[i])
    ensures r.Success? ==> (r.value.lastEvaluatedKey.None? <==> |Remaining(t.schema, Partition(t, p), exclusiveStartKey)| < limit)
  {
    if limit < 1 then Failure(ValidationError)
    else if exclusiveStartKey.Some? && !IsStartKeyFor(t.schema, p, exclusiveStartKey.value) then Failure(ValidationError)
    else
      var remaining := Remaining(t.schema, Partition(t, p), exclusiveStartKey);
      if |remaining| >= limit then
        var read := remaining[..limit];
        Success(Page(Apply(read, filter), Some(KeyMap(t.schema, p, SortKeyOf(t.schema, read[limit - 1])))))
      else
        Success(Page(Apply(remaining, filter), None))
  }

  // ---------------------------------------------------------------------
  // Point lookup by primary key

  /** The position of the item with sort key k at or after index `from`. */
  function IndexFrom(schema: KeySchema, part: seq<Item>, k: string, from: nat): (r: Option<nat>)
    requires from <= |part|
    ensures r.Some? ==> from <= r.value < |part| && SortKeyOf(schema, part[r.value]) == k
    ensures r.Some? ==> forall j :: from <= j < r.value ==> SortKeyOf(schema, part[j]) != k
    ensures r.None? ==> forall j :: from <= j < |part| ==> SortKeyOf(schema, part[j]) != k
    decreases |part| - from
  {
    if from == |part| then None
    else if SortKeyOf(schema, part[from]) == k then Some(from)
    else IndexFrom(schema, part, k, from + 1)
  }

  function IndexOfKey(schema: KeySchema, part: seq<Item>, k: string): Option<nat>
  {
    IndexFrom(schema, part, k, 0)
  }

  /** The stored item with primary key (p, k), if any. */
  function ItemAt(t: Table, p: string, k: string): (r: Option<Item>)
    ensures r.Some? ==> r.value in Partition(t, p) && SortKeyOf(t.schema, r.value) == k
    ensures r.None? ==> forall i :: 0 <= i < |Partition(t, p)| ==> SortKeyOf(t.schema, Partition(t, p)[i]) != k
  {
    var part := Partition(t, p);
    match IndexOfKey(t.schema, part, k)
    case Some(i) => Some(part[i])
    case None => None
  }

  lemma AscendingDistinct(schema: KeySchema, part: seq<Item>, i: nat, j: nat)
    requires Ascending(schema, part)
    requires i < |part| && j < |part| && i != j
    ensures SortKeyOf(schema, part[i]) != SortKeyOf(schema, part[j])
  {
    if i < j {
      LexLessIrreflexive(SortKeyOf(schema, part[i]));
    } else {
      LexLessIrreflexive(SortKeyOf(schema, part[j]));
    }
  }

  /** In a well-formed table the item at index i is the one ItemAt finds. */
  lemma ItemAtIndex(t: Table, p: string, i: nat)
    requires WellFormed(t)
    requires i < |Partition(t, p)|
    ensures IndexOfKey(t.schema, Partition(t, p), SortKeyOf(t.schema, Partition(t, p)[i])) == Some(i)
    ensures ItemAt(t, p, SortKeyOf(t.schema, Partition(t, p)[i])) == Some(Partition(t, p)[i])
  {
    var part := Partition(t, p);
    var r := IndexOfKey(t.schema, part, SortKeyOf(t.schema, part[i]));
    if r != Some(i) {
      assert r.Some?;
      AscendingDistinct(t.schema, part, i, r.value);
    }
  }

  /** A query on the full primary key finds exactly the item ItemAt finds. */
  lemma QuerySortKeyEqualsIsItemAt(t: Table, p: string, k: string)
    requires WellFormed(t)
    ensures First(QuerySortKeyEquals(t, p, k)) == ItemAt(t, p, k)
  {
    var part := Partition(t, p);
    var found := QuerySortKeyEquals(t, p, k);
    match IndexOfKey(t.schema, part, k)
    case None =>
      FilterKeepsNone(part, SortKeyEqualsFn(t.schema, k));
    case Some(i) =>
      assert part == part[..i] + [part[i]] + part[i + 1..];
      FilterKeepsNone(part[..i], SortKeyEqualsFn(t.schema, k));
      var back := part[i + 1..];
      forall j | 0 <= j < |back|
        ensures !SortKeyEqualsFn(t.schema, k)(back[j])
      {
        AscendingDistinct(t.schema, part, i, i + 1 + j);
      }
      FilterKeepsNone(back, SortKeyEqualsFn(t.schema, k));
      FilterConcat(part[..i] + [part[i]], part[i + 1..], SortKeyEqualsFn(t.schema, k));
      FilterConcat(part[..i], [part[i]], SortKeyEqualsFn(t.schema, k));
      assert [part[i]][1..] == [];
      assert found == [part[i]];
  }

  // ---------------------------------------------------------------------
  // Writes

  /** The store after a write, and the exception the write raised, if any. */
  datatype Write<E> = Write(after: Table, failure: Option<E>)

  /** Key attributes cannot be the target of an update. */
  predicate TouchesKey(schema: KeySchema, updates: Item)
  {
    schema.partitionKey in updates || schema.sortKey in updates
  }

  /** `UpdateItem` with a condition expression: when the item at (p, k)
      exists and satisfies `cond`, its attributes are overwritten by
      `updates` (SET); otherwise, including when no such item exists, the
      condition fails and nothing is written. */
  function ConditionalUpdate(t: Table, p: string, k: string, cond: Condition, updates: Item): (w: Write<StoreError>)
    ensures w.failure.Some? ==> w.after == t
    ensures w.failure.None? <==> !TouchesKey(t.schema, updates) && ItemAt(t, p, k).Some? && Holds(cond, ItemAt(t, p, k).value)
  {
    if TouchesKey(t.schema, updates) then Write(t, Some(ValidationError))
    else
      var part := Partition(t, p);
      match IndexOfKey(t.schema, part, k)
      case None => Write(t, Some(ConditionalCheckFailed))
      case Some(i) =>
        if !Holds(cond, part[i]) then Write(t, Some(ConditionalCheckFailed))
        else Write(t.(partitions := t.partitions[p := part[i := part[i] + updates]]), None)
  }

  /** Every key of the set names an item that satisfies `cond`. */
  predicate AllSatisfy(t: Table, p: string, keys: set<string>, cond: Condition)
  {
    forall k :: k in keys ==> ItemAt(t, p, k).Some? && Holds(cond, ItemAt(t, p, k).value)
  }

  /** `TransactWriteItems` made of one conditional update per key of
      partition p: between 1 and MaxTransactionActions actions are
      accepted; if any condition fails the whole transaction is canceled
      and nothing is written; otherwise every keyed item receives
      `updates`. */
  function TransactUpdate(t: Table, p: string, keys: set<string>, cond: Condition, updates: Item): (w: Write<StoreError>)
    ensures w.failure.Some? ==> w.after == t
    ensures w.failure.None? <==>
              && 1 <= |keys| <= MaxTransactionActions
              && !TouchesKey(t.schema, updates)
              && AllSatisfy(t, p, keys, cond)
  {
    if |keys| == 0 || |keys| > MaxTransactionActions || TouchesKey(t.schema, updates) then
      Write(t, Some(ValidationError))
    else if !AllSatisfy(t, p, keys, cond) then
      Write(t, Some(TransactionCanceled))
    else
      Write(t.(partitions := t.partitions[p := UpdateKeyed(t.schema, Partition(t, p), keys, updates)]), None)
  }

  /** The items of a partition, those whose sort key is among `keys`
      given `updates`. */
  function UpdateKeyed(schema: KeySchema, part: seq<Item>, keys: set<string>, updates: Item): (r: seq<Item>)
    ensures |r| == |part|
    ensures forall i :: 0 <= i < |part| ==> r[i] == if SortKeyOf(schema, part[i]) in keys then part[i] + updates else part[i]
  {
    seq(|part|, i requires 0 <= i < |part| => if SortKeyOf(schema, part[i]) in keys then part[i] + updates else part[i])
  }

  // ---------------------------------------------------------------------
  // Facts about ordering and queries

  lemma AscendingTail(schema: KeySchema, part: seq<Item>)
    requires Ascending(schema, part) && |part| > 0
    ensures Ascending(schema, part[1..])
  {
    forall i, j | 0 <= i < j < |part[1..]|
      ensures LexLess(SortKeyOf(schema, part[1..][i]), SortKeyOf(schema, part[1..][j]))
    {
      assert part[1..][i] == part[i + 1] && part[1..][j] == part[j + 1];
    }
  }

  /** In an ascending partition the items after any key form a suffix. */
  lemma AfterIsSuffix(schema: KeySchema, part: seq<Item>, k: string)
    requires Ascending(schema, part)
    ensures |After(schema, part, k)| <= |part|
    ensures After(schema, part, k) == part[|part| - |After(schema, part, k)|..]
  {
    var s := AfterSuffixFrom(schema, part, k);
  }

  /** The index the suffix of items after k starts at. */
  lemma {:induction false} AfterSuffixFrom(schema: KeySchema, part: seq<Item>, k: string) returns (s: nat)
    requires Ascending(schema, part)
    ensures s <= |part| && After(schema, part, k) == part[s..]
    decreases |part|
  {
    if part == [] {
      s := 0;
    } else {
      AscendingTail(schema, part);
      var s' := AfterSuffixFrom(schema, part[1..], k);
      if AfterFn(schema, k)(part[0]) {
        forall j | 0 <= j < |part[1..]|
          ensures AfterFn(schema, k)(part[1..][j])
        {
          LexLessTransitive(k, SortKeyOf(schema, part[0]), SortKeyOf(schema, part[j + 1]));
        }
        FilterKeepsAll(part[1..], AfterFn(schema, k));
        assert After(schema, part, k) == [part[0]] + part[1..];
        assert [part[0]] + part[1..] == part[0..];
        s := 0;
      } else {
        assert After(schema, part, k) == After(schema, part[1..], k);
        assert part[1..][s'..] == part[s' + 1..];
        s := s' + 1;
      }
    }
  }

  /** Starting after the sort key of the item at index i resumes exactly at
      index i + 1. */
  lemma AfterKeyOfItem(schema: KeySchema, part: seq<Item>, i: nat)
    requires Ascending(schema, part)
    requires i < |part|
    ensures After(schema, part, SortKeyOf(schema, part[i])) == part[i + 1..]
  {
    var k := SortKeyOf(schema, part[i]);
    assert part == part[..i + 1] + part[i + 1..];
    var front := part[..i + 1];
    forall j | 0 <= j < |front|
      ensures !AfterFn(schema, k)(front[j])
    {
      if j == i {
        LexLessIrreflexive(k);
      } else {
        LexLessAsymmetric(SortKeyOf(schema, part[j]), k);
      }
    }
    FilterKeepsNone(front, AfterFn(schema, k));
    FilterKeepsAll(part[i + 1..], AfterFn(schema, k));
    FilterConcat(part[..i + 1], part[i + 1..], AfterFn(schema, k));
  }

  /** A stretch of an ascending partition is ascending. */
  lemma AscendingSlice(schema: KeySchema, part: seq<Item>, s: nat, e: nat)
    requires Ascending(schema, part) && s <= e <= |part|
    ensures Ascending(schema, part[s..e])
  {
    forall i, j | 0 <= i < j < e - s
      ensures LexLess(SortKeyOf(schema, part[s..e][i]), SortKeyOf(schema, part[s..e][j]))
    {
      assert part[s..e][i] == part[s + i] && part[s..e][j] == part[s + j];
    }
  }

  /** Filtering keeps an ascending sequence ascending. */
  lemma {:induction false} FilterAscending(schema: KeySchema, part: seq<Item>, keep: Item -> bool)
    requires Ascending(schema, part)
    ensures Ascending(schema, Filter(part, keep))
    decreases |part|
  {
    if part != [] {
      AscendingTail(schema, part);
      FilterAscending(schema, part[1..], keep);
      var rest := Filter(part[1..], keep);
      forall j | 0 <= j < |rest|
        ensures LexLess(SortKeyOf(schema, part[0]), SortKeyOf(schema, rest[j]))
      {
        FilterMembers(part[1..], keep);
        assert rest[j] in part[1..];
        var m :| 0 <= m < |part[1..]| && part[1..][m] == rest[j];
        assert part[m + 1] == rest[j];
      }
      if keep(part[0]) {
        var r := Filter(part, keep);
        assert r == [part[0]] + rest;
        forall i, j | 0 <= i < j < |r|
          ensures LexLess(SortKeyOf(schema, r[i]), SortKeyOf(schema, r[j]))
        {
          if i > 0 {
            assert r[i] == rest[i - 1] && r[j] == rest[j - 1];
          } else {
            assert r[j] == rest[j - 1];
          }
        }
      }
    }
  }

  // ---------------------------------------------------------------------
  // Effects of the writes

  /** Same sort keys at the same positions give the same key search. */
  lemma {:induction false} SameSortKeysSameIndex(schema: KeySchema, a: seq<Item>, b: seq<Item>, k: string, from: nat)
    requires |a| == |b| && from <= |a|
    requires forall j :: 0 <= j < |a| ==> SortKeyOf(schema, a[j]) == SortKeyOf(schema, b[j])
    ensures IndexFrom(schema, a, k, from) == IndexFrom(schema, b, k, from)
    decreases |a| - from
  {
    if from < |a| {
      SameSortKeysSameIndex(schema, a, b, k, from + 1);
    }
  }

  /** Replacing the items of partition p by items with the same sort keys
      (and the same partition) keeps the table well-formed, leaves every
      other partition alone, and moves each key's item to the replacement
      at the same position. */
  lemma ReplaceWithSameKeys(t: Table, p: string, part': seq<Item>)
    requires WellFormed(t) && p in t.partitions
    requires |part'| == |t.partitions[p]|
    requires forall j :: 0 <= j < |part'| ==> SortKeyOf(t.schema, part'[j]) == SortKeyOf(t.schema, t.partitions[p][j])
    requires forall j :: 0 <= j < |part'| ==> KeyedIn(t.schema, p, part'[j])
    ensures WellFormed(t.(partitions := t.partitions[p := part']))
    ensures forall k :: IndexOfKey(t.schema, part', k) == IndexOfKey(t.schema, t.partitions[p], k)
    ensures forall q :: q != p ==> Partition(t.(partitions := t.partitions[p := part']), q) == Partition(t, q)
  {
    var part := t.partitions[p];
    forall k ensures IndexOfKey(t.schema, part', k) == IndexOfKey(t.schema, part, k) {
      SameSortKeysSameIndex(t.schema, part', part, k, 0);
    }
  }

  lemma UpdateKeepsKey(schema: KeySchema, p: string, item: Item, updates: Item)
    requires KeyedIn(schema, p, item) && !TouchesKey(schema, updates)
    ensures KeyedIn(schema, p, item + updates)
    ensures SortKeyOf(schema, item + updates) == SortKeyOf(schema, item)
  {
  }

  /** A successful conditional update changes the one keyed item, by
      exactly `updates`, and no other item of the table. */
  lemma ConditionalUpdateEffect(t: Table, p: string, k: string, cond: Condition, updates: Item)
    requires WellFormed(t)
    requires ConditionalUpdate(t, p, k, cond, updates).failure.None?
    ensures WellFormed(ConditionalUpdate(t, p, k, cond, updates).after)
    ensures ItemAt(ConditionalUpdate(t, p, k, cond, updates).after, p, k) == Some(ItemAt(t, p, k).value + updates)
    ensures forall q, k' :: q != p || k' != k ==>
              ItemAt(ConditionalUpdate(t, p, k, cond, updates).after, q, k') == ItemAt(t, q, k')
    ensures |Partition(ConditionalUpdate(t, p, k, cond, updates).after, p)| == |Partition(t, p)|
  {
    var part := Partition(t, p);
    var i := IndexOfKey(t.schema, part, k).value;
    assert p in t.partitions;
    var part' := part[i := part[i] + updates];
    UpdateKeepsKey(t.schema, p, part[i], updates);
    ReplaceWithSameKeys(t, p, part');
  }

  /** A successful transaction gives every keyed item `updates` and
      leaves every other item of the table as it was. */
  lemma TransactUpdateEffect(t: Table, p: string, keys: set<string>, cond: Condition, updates: Item)
    requires WellFormed(t)
    requires TransactUpdate(t, p, keys, cond, updates).failure.None?
    ensures WellFormed(TransactUpdate(t, p, keys, cond, updates).after)
    ensures forall k :: k in keys ==>
              ItemAt(TransactUpdate(t, p, keys, cond, updates).after, p, k) == Some(ItemAt(t, p, k).value + updates)
    ensures forall q, k :: q != p || k !in keys ==>
              ItemAt(TransactUpdate(t, p, keys, cond, updates).after, q, k) == ItemAt(t, q, k)
  {
    var part := Partition(t, p);
    var k0 :| k0 in keys;
    assert ItemAt(t, p, k0).Some?;
    assert p in t.partitions;
    var part' := UpdateKeyed(t.schema, part, keys, updates);
    var after := t.(partitions := t.partitions[p := part']);
    UpdateKeyedSameKeys(t, p, keys, updates);
    forall k | k in keys
      ensures ItemAt(after, p, k) == Some(ItemAt(t, p, k).value + updates)
    {
      assert IndexOfKey(t.schema, part', k) == IndexOfKey(t.schema, part, k);
    }
    forall q, k | q != p || k !in keys
      ensures ItemAt(after, q, k) == ItemAt(t, q, k)
    {
      if q == p {
        assert IndexOfKey(t.schema, part', k) == IndexOfKey(t.schema, part, k);
      } else {
        assert Partition(after, q) == Partition(t, q);
      }
    }
  }

  /** Updating the keyed items of a partition keeps their keys, so the
      table stays well-formed and every key is found where it was. */
  lemma UpdateKeyedSameKeys(t: Table, p: string, keys: set<string>, updates: Item)
    requires WellFormed(t) && p in t.partitions && !TouchesKey(t.schema, updates)
    ensures var part' := UpdateKeyed(t.schema, t.partitions[p], keys, updates);
            && WellFormed(t.(partitions := t.partitions[p := part']))
            && (forall k :: IndexOfKey(t.schema, part', k) == IndexOfKey(t.schema, t.partitions[p], k))
            && (forall q :: q != p ==> Partition(t.(partitions := t.partitions[p := part']), q) == Partition(t, q))
  {
    var part := t.partitions[p];
    var part' := UpdateKeyed(t.schema, part, keys, updates);
    forall j | 0 <= j < |part'|
      ensures SortKeyOf(t.schema, part'[j]) == SortKeyOf(t.schema, part[j]) && KeyedIn(t.schema, p, part'[j])
    {
      UpdateKeepsKey(t.schema, p, part[j], updates);
    }
    ReplaceWithSameKeys(t, p, part');
  }
}

=== FILE: strings.dfy ===
/** String operations the store and the mappers rely on: the ordering of
    sort keys, `startsWith`, and Java's `lastIndexOf`/`substring`. */
module Strings {

  /** Strict lexicographic order on strings, character by character.
      Dafny characters are Unicode scalar values, so this is code-point
      order, which is also the order of the UTF-8 bytes that DynamoDB
      compares for string sort keys. */
  predicate LexLess(a: string, b: string)
    decreases |a|
  {
    if |a| == 0 then |b| > 0
    else |b| > 0 && (a[0] < b[0] || (a[0] == b[0] && LexLess(a[1..], b[1..])))
  }

  /** The non-strict companion of LexLess, as used by BETWEEN. */
  predicate LexLessOrEqual(a: string, b: string)
  {
    a == b || LexLess(a, b)
  }

  lemma {:induction false} LexLessIrreflexive(a: string)
    ensures !LexLess(a, a)
    decreases |a|
  {
    if |a| > 0 {
      LexLessIrreflexive(a[1..]);
    }
  }

  lemma {:induction false} LexLessTransitive(a: string, b: string, c: string)
    requires LexLess(a, b) && LexLess(b, c)
    ensures LexLess(a, c)
    decreases |a|
  {
    if |a| > 0 && a[0] == b[0] && b[0] == c[0] {
      LexLessTransitive(a[1..], b[1..], c[1..]);
    }
  }

  lemma LexLessAsymmetric(a: string, b: string)
    requires LexLess(a, b)
    ensures !LexLess(b, a)
  {
    if LexLess(b, a) {
      LexLessTransitive(a, b, a);
      LexLessIrreflexive(a);
    }
  }

  /** Java's `s.startsWith(prefix)`. */
  predicate StartsWith(s: string, prefix: string)
  {
    |prefix| <= |s| && s[..|prefix|] == prefix
  }

  /** `t` occurs in `s` starting at index `i`. */
  predicate OccursAt(s: string, t: string, i: int)
  {
    0 <= i && i + |t| <= |s| && s[i..i + |t|] == t
  }

  /** Java's `s.lastIndexOf(t)` for a non-empty `t`: the largest index at
      which `t` occurs, or -1 when it does not occur at all. */
  function LastIndexOf(s: string, t: string): (r: int)
    requires |t| > 0
    ensures r == -1 || 0 <= r <= |s| - |t|
    ensures r >= 0 ==> OccursAt(s, t, r)
    ensures forall i :: r < i <= |s| - |t| ==> !OccursAt(s, t, i)
  {
    LastIndexAtOrBelow(s, t, |s| - |t|)
  }

  /** The largest index `i <= from` at which `t` occurs in `s`, or -1. */
  function LastIndexAtOrBelow(s: string, t: string, from: int): (r: int)
    requires |t| > 0
    requires from <= |s| - |t|
    ensures r == -1 || 0 <= r <= from
    ensures r >= 0 ==> OccursAt(s, t, r)
    ensures forall i :: r < i <= from ==> !OccursAt(s, t, i)
    decreases from + 1
  {
    if from < 0 then -1
    else if OccursAt(s, t, from) then from
    else LastIndexAtOrBelow(s, t, from - 1)
  }

  /** Java's `s.substring(begin)`, defined for `0 <= begin <= |s|`. */
  function Substring(s: string, begin: int): (r: string)
    requires 0 <= begin <= |s|
    ensures |r| == |s| - begin
    ensures s == s[..begin] + r
  {
    s[begin..]
  }
}

=== FILE: theatre_dao.dfy ===
/** The theatre DAO over the single table keyed by (showId, sortKey): a
    partition holds one show record under the sort key "SHOW" and one
    record per ticket under "TICKET#<id>". Tickets are reserved by a
    conditional update from AVAILABLE to RESERVED (one ticket) or by a
    transaction of such updates (several tickets); readers look a record
    up by key, by ticket reference (through a local secondary index on
    `ticketRef`), or split a whole partition into the show and its
    tickets. Show and ticket records are their attribute maps. */
module TheatreDao {
  import opened Wrappers
  import opened Strings
  import opened Seqs
  import opened Store
  import opened Grouping
  import TicketMapper

  const Schema: KeySchema := KeySchema("showId", "sortKey")
  const ShowSortKey: string := "SHOW"
  const TicketSortKeyPrefix: string := "TICKET#"
  const Available: string := "AVAILABLE"
  const Reserved: string := "RESERVED"

  type ShowItem = Item
  type TicketItem = Item

  /** `ShowItem.builder().build()`: a show record with every field null. */
  const EmptyShowItem: ShowItem := map[]

  datatype DaoError =
    | TicketReservation           // the ticket was missing or not AVAILABLE
    | NullPointer                 // a null field was dereferenced
    | StoreFailure(cause: StoreError)

  /** The table this DAO works on, in the store's invariant. */
  predicate IsTheatreTable(t: Table)
  {
    t.schema == Schema && WellFormed(t)
  }

  function StatusOf(item: Item): Option<string>
  {
    StringAttribute(item, "status")
  }

  function TicketRefOf(item: Item): Option<string>
  {
    StringAttribute(item, "ticketRef")
  }

  function SortKeyAttribute(item: Item): Option<string>
  {
    StringAttribute(item, "sortKey")
  }

  /** The record at (showId, ticketId) exists and is AVAILABLE. */
  predicate IsAvailable(t: Table, showId: string, ticketId: string)
  {
    ItemAt(t, showId, ticketId).Some? && StatusOf(ItemAt(t, showId, ticketId).value) == Some(Available)
  }

  /** The condition `#status = :expected_status`. */
  const ExpectAvailable: Condition := AttributeEquals("status", S(Available))

  /** The update `SET #status = :new_status, #ticketRef = :new_reference`. */
  function Reservation(ticketRef: string): (u: Item)
    ensures u.Keys == {"status", "ticketRef"}
  {
    map["status" := S(Reserved), "ticketRef" := S(ticketRef)]
  }

  lemma ExpectAvailableHolds(item: Item)
    ensures Holds(ExpectAvailable, item) <==> StatusOf(item) == Some(Available)
  {
  }

  // ---------------------------------------------------------------------
  // Reservation

  /** `reserveTicket`: one conditional update; a failed condition (the
      ticket is missing or not AVAILABLE) surfaces as a reservation
      failure and writes nothing. */
  function ReserveTicket(t: Table, showId: string, ticketId: string, ticketRef: string): (w: Write<DaoError>)
    requires t.schema == Schema
    ensures w.failure.None? <==> IsAvailable(t, showId, ticketId)
    ensures w.failure.Some? ==> w.after == t && w.failure == Some(TicketReservation)
  {
    var u := ConditionalUpdate(t, showId, ticketId, ExpectAvailable, Reservation(ticketRef));
    match u.failure
    case None => Write(u.after, None)
    case Some(ConditionalCheckFailed) => Write(u.after, Some(TicketReservation))
    case Some(e) => Write(u.after, Some(StoreFailure(e)))
  }

  /** A successful reservation leaves the ticket RESERVED under the given
      reference, changes no other attribute of it, and changes no other
      record of the table (other tickets and the show record included). */
  lemma ReserveTicketEffect(t: Table, showId: string, ticketId: string, ticketRef: string)
    requires IsTheatreTable(t)
    requires ReserveTicket(t, showId, ticketId, ticketRef).failure.None?
    ensures var after := ReserveTicket(t, showId, ticketId, ticketRef).after;
            && IsTheatreTable(after)
            && ItemAt(after, showId, ticketId).Some?
            && StatusOf(ItemAt(after, showId, ticketId).value) == Some(Reserved)
            && TicketRefOf(ItemAt(after, showId, ticketId).value) == Some(ticketRef)
    ensures var before := ItemAt(t, showId, ticketId).value;
            var now := ItemAt(ReserveTicket(t, showId, ticketId, ticketRef).after, showId, ticketId).value;
            forall a :: a != "status" && a != "ticketRef" ==>
              (a in now <==> a in before) && (a in before ==> now[a] == before[a])
    ensures forall q, k :: q != showId || k != ticketId ==>
              ItemAt(ReserveTicket(t, showId, ticketId, ticketRef).after, q, k) == ItemAt(t, q, k)
  {
    ConditionalUpdateEffect(t, showId, ticketId, ExpectAvailable, Reservation(ticketRef));
  }

  /** Reserving the same ticket again fails, writes nothing, and the first
      reference stays on the ticket. */
  lemma ReserveTwice(t: Table, showId: string, ticketId: string, ref1: string, ref2: string)
    requires IsTheatreTable(t)
    requires ReserveTicket(t, showId, ticketId, ref1).failure.None?
    ensures var t1 := ReserveTicket(t, showId, ticketId, ref1).after;
            && ReserveTicket(t1, showId, ticketId, ref2).failure == Some(TicketReservation)
            && ReserveTicket(t1, showId, ticketId, ref2).after == t1
            && ItemAt(t1, showId, ticketId).Some?
            && TicketRefOf(ItemAt(t1, showId, ticketId).value) == Some(ref1)
  {
    ReserveTicketEffect(t, showId, ticketId, ref1);
  }

  /** `reserveTickets`: one transaction with a conditional update per id.
      It succeeds only when the set holds between 1 and 100 ids and every
      one of them is AVAILABLE; otherwise it raises the store's error and
      no ticket changes. */
  function ReserveTickets(t: Table, showId: string, ticketIds: set<string>, ticketRef: string): (w: Write<DaoError>)
    requires t.schema == Schema
    ensures w.failure.None? <==>
              1 <= |ticketIds| <= MaxTransactionActions && forall id :: id in ticketIds ==> IsAvailable(t, showId, id)
    ensures w.failure.Some? ==> w.after == t
    ensures w.failure.Some? ==>
              w.failure == Some(StoreFailure(if 1 <= |ticketIds| <= MaxTransactionActions then TransactionCanceled else ValidationError))
  {
    var u := TransactUpdate(t, showId, ticketIds, ExpectAvailable, Reservation(ticketRef));
    if u.failure.None? then Write(u.after, None) else Write(u.after, Some(StoreFailure(u.failure.value)))
  }

  /** A successful `reserveTickets` leaves every id of the set RESERVED
      under the one reference and every other record as it was. */
  lemma ReserveTicketsEffect(t: Table, showId: string, ticketIds: set<string>, ticketRef: string)
    requires IsTheatreTable(t)
    requires ReserveTickets(t, showId, ticketIds, ticketRef).failure.None?
    ensures IsTheatreTable(ReserveTickets(t, showId, ticketIds, ticketRef).after)
    ensures forall id :: id in ticketIds ==>
              && ItemAt(ReserveTickets(t, showId, ticketIds, ticketRef).after, showId, id).Some?
              && StatusOf(ItemAt(ReserveTickets(t, showId, ticketIds, ticketRef).after, showId, id).value) == Some(Reserved)
              && TicketRefOf(ItemAt(ReserveTickets(t, showId, ticketIds, ticketRef).after, showId, id).value) == Some(ticketRef)
    ensures forall q, k :: q != showId || k !in ticketIds ==>
              ItemAt(ReserveTickets(t, showId, ticketIds, ticketRef).after, q, k) == ItemAt(t, q, k)
  {
    TransactUpdateEffect(t, showId, ticketIds, ExpectAvailable, Reservation(ticketRef));
  }

  // ---------------------------------------------------------------------
  // Point readers

  /** `findTicketById`: the first item of the query on the full key. */
  function FindTicketById(t: Table, showId: string, ticketId: string): (r: Option<TicketItem>)
    ensures r.Some? ==> r.value in Partition(t, showId) && SortKeyOf(t.schema, r.value) == ticketId
    ensures r.None? <==> forall i :: 0 <= i < |Partition(t, showId)| ==> SortKeyOf(t.schema, Partition(t, showId)[i]) != ticketId
  {
    First(QuerySortKeyEquals(t, showId, ticketId))
  }

  /** `findShowById`: the record under the sort key "SHOW", if any. */
  function FindShowById(t: Table, showId: string): (r: Option<ShowItem>)
    ensures r.Some? ==> r.value in Partition(t, showId) && SortKeyOf(t.schema, r.value) == ShowSortKey
    ensures r.None? <==> forall i :: 0 <= i < |Partition(t, showId)| ==> SortKeyOf(t.schema, Partition(t, showId)[i]) != ShowSortKey
  {
    First(QuerySortKeyEquals(t, showId, ShowSortKey))
  }

  /** In a well-formed table both key readers return the stored record at
      that key, and nothing when there is none. */
  lemma FindByKeyIsItemAt(t: Table, showId: string, ticketId: string)
    requires IsTheatreTable(t)
    ensures FindTicketById(t, showId, ticketId) == ItemAt(t, showId, ticketId)
    ensures FindShowById(t, showId) == ItemAt(t, showId, ShowSortKey)
  {
    QuerySortKeyEqualsIsItemAt(t, showId, ticketId);
    QuerySortKeyEqualsIsItemAt(t, showId, ShowSortKey);
  }

  /** `findTicketByReference`: the first item of the index query on
      `ticketRef`; items with equal references come in table order. */
  function FindTicketByReference(t: Table, showId: string, ticketRef: string): (r: Option<TicketItem>)
    ensures r.Some? ==> r.value in Partition(t, showId) && TicketRefOf(r.value) == Some(ticketRef)
    ensures r.None? <==> forall i :: 0 <= i < |Partition(t, showId)| ==> TicketRefOf(Partition(t, showId)[i]) != Some(ticketRef)
  {
    var found := QueryIndexEquals(t, showId, "ticketRef", S(ticketRef));
    assert forall i :: 0 <= i < |Partition(t, showId)| && TicketRefOf(Partition(t, showId)[i]) == Some(ticketRef) ==>
      HoldsFn(AttributeEquals("ticketRef", S(ticketRef)))(Partition(t, showId)[i]);
    First(found)
  }

  /** No record of the partition carries this reference yet (as for a
      freshly generated UUID). */
  predicate IsFreshReference(t: Table, showId: string, ticketRef: string)
  {
    forall i :: 0 <= i < |Partition(t, showId)| ==> TicketRefOf(Partition(t, showId)[i]) != Some(ticketRef)
  }

  /** After reserving a ticket under a fresh reference, looking the
      reference up finds that ticket, RESERVED. */
  lemma ReserveThenFindByReference(t: Table, showId: string, ticketId: string, ticketRef: string)
    requires IsTheatreTable(t)
    requires IsFreshReference(t, showId, ticketRef)
    requires ReserveTicket(t, showId, ticketId, ticketRef).failure.None?
    ensures var after := ReserveTicket(t, showId, ticketId, ticketRef).after;
            && FindTicketByReference(after, showId, ticketRef) == ItemAt(after, showId, ticketId)
            && FindTicketByReference(after, showId, ticketRef).Some?
            && StatusOf(FindTicketByReference(after, showId, ticketRef).value) == Some(Reserved)
  {
    var after := ReserveTicket(t, showId, ticketId, ticketRef).after;
    ReserveTicketEffect(t, showId, ticketId, ticketRef);
    var part := Partition(after, showId);
    var keep := HoldsFn(AttributeEquals("ticketRef", S(ticketRef)));
    var item := ItemAt(after, showId, ticketId).value;
    var i :| 0 <= i < |part| && part[i] == item;
    forall j | 0 <= j < |part| && j != i
      ensures !keep(part[j])
    {
      var k := SortKeyOf(Schema, part[j]);
      ItemAtIndex(after, showId, j);
      if k == ticketId {
        ItemAtIndex(after, showId, i);
        AscendingDistinct(Schema, part, i, j);
      } else {
        assert ItemAt(after, showId, k) == ItemAt(t, showId, k);
      }
    }
    FilterSingle(part, i, keep);
  }

  // ---------------------------------------------------------------------
  // Partition readers

  function IsTicketRecordFn(): Item -> bool
  {
    item => SortKeyAttribute(item).Some? && StartsWith(SortKeyAttribute(item).value, TicketSortKeyPrefix)
  }

  predicate IsShowRecord(item: Item)
  {
    SortKeyAttribute(item) == Some(ShowSortKey)
  }

  /** The loop of `findShowAndTicketsById` over the query's items: a
      "SHOW" record replaces the placeholder show, a "TICKET#" record is
      appended to the tickets, any other record is skipped, and a record
      without a string sort key makes the loop throw. */
  function SplitShowAndTickets(items: seq<Item>): (r: Result<(ShowItem, seq<TicketItem>), DaoError>)
    ensures r.Success? <==> forall i :: 0 <= i < |items| ==> SortKeyAttribute(items[i]).Some?
    ensures r.Success? ==> r.value.1 == Filter(items, IsTicketRecordFn())
    ensures r.Success? && (forall i :: 0 <= i < |items| ==> !IsShowRecord(items[i])) ==> r.value.0 == EmptyShowItem
    ensures r.Success? && (exists i :: 0 <= i < |items| && IsShowRecord(items[i])) ==>
              r.value.0 in items && IsShowRecord(r.value.0)
    decreases |items|
  {
    if items == [] then Success((EmptyShowItem, []))
    else
      var n := |items| - 1;
      var front := items[..n];
      var item := items[n];
      match SplitShowAndTickets(front)
      case Failure(e) => Failure(e)
      case Success(acc) =>
        match SortKeyAttribute(item)
        case None => Failure(NullPointer)
        case Some(sortKey) =>
          FilterSnoc(items, n, IsTicketRecordFn());
          assert items[..n + 1] == items;
          assert forall i :: 0 <= i < n ==> front[i] == items[i];
          if sortKey == ShowSortKey then Success((item, acc.1))
          else if StartsWith(sortKey, TicketSortKeyPrefix) then Success((acc.0, acc.1 + [item]))
          else Success(acc)
  }

  /** `findShowAndTicketsById`: one query over the whole partition, split.
      It throws exactly when a record of the show has no string sort key;
      the tickets are the show's `TICKET#` records in key order, and the
      show is a `SHOW` record of the partition, or the placeholder when
      there is none. */
  function FindShowAndTicketsById(t: Table, showId: string): (r: Result<(ShowItem, seq<TicketItem>), DaoError>)
    ensures r.Success? <==> forall i :: 0 <= i < |Partition(t, showId)| ==> SortKeyAttribute(Partition(t, showId)[i]).Some?
    ensures r.Success? ==> r.value.1 == Filter(Partition(t, showId), IsTicketRecordFn())
    ensures r.Success? && (forall i :: 0 <= i < |Partition(t, showId)| ==> !IsShowRecord(Partition(t, showId)[i])) ==>
              r.value.0 == EmptyShowItem
    ensures r.Success? && (exists i :: 0 <= i < |Partition(t, showId)| && IsShowRecord(Partition(t, showId)[i])) ==>
              r.value.0 in Partition(t, showId) && IsShowRecord(r.value.0)
  {
    SplitShowAndTickets(QueryPartition(t, showId))
  }

  lemma SortKeyAttributeInTable(t: Table, showId: string, i: nat)
    requires IsTheatreTable(t) && i < |Partition(t, showId)|
    ensures SortKeyAttribute(Partition(t, showId)[i]) == Some(SortKeyOf(Schema, Partition(t, showId)[i]))
  {
  }

  /** On a well-formed table the split agrees with the separate queries:
      the show is what `findShowById` finds (or the empty placeholder, for
      instance when the partition is empty), and the tickets are exactly
      the records whose sort key begins with "TICKET#", in query order. */
  lemma FindShowAndTicketsByIdMatchesQueries(t: Table, showId: string)
    requires IsTheatreTable(t)
    ensures FindShowAndTicketsById(t, showId).Success?
    ensures FindShowAndTicketsById(t, showId).value.0 ==
              (if FindShowById(t, showId).Some? then FindShowById(t, showId).value else EmptyShowItem)
    ensures FindShowAndTicketsById(t, showId).value.1 == QueryBeginsWith(t, showId, TicketSortKeyPrefix)
  {
    var part := Partition(t, showId);
    forall i | 0 <= i < |part|
      ensures SortKeyAttribute(part[i]) == Some(SortKeyOf(Schema, part[i]))
      ensures IsTicketRecordFn()(part[i]) == BeginsWithFn(Schema, TicketSortKeyPrefix)(part[i])
    {
      SortKeyAttributeInTable(t, showId, i);
    }
    FilterCongruent(part, IsTicketRecordFn(), BeginsWithFn(Schema, TicketSortKeyPrefix));
    FindByKeyIsItemAt(t, showId, ShowSortKey);
    var show := FindShowAndTicketsById(t, showId).value.0;
    if exists i :: 0 <= i < |part| && IsShowRecord(part[i]) {
      var i :| 0 <= i < |part| && part[i] == show;
      ItemAtIndex(t, showId, i);
    }
  }

  // ---------------------------------------------------------------------
  // Grouping by seat area

  function AreaOfFn(): Item -> Option<string>
  {
    item => StringAttribute(item, "area")
  }

  /** The grouping in `findAverageTicketPriceBySeatArea`: the ticket
      records of the show grouped by area, each group being what that
      area's average price is taken over. A null area is refused by the
      grouping and a null price by the averaging, both with a
      NullPointerException. */
  function FindTicketsBySeatArea(t: Table, showId: string): (r: Result<map<string, seq<TicketItem>>, DaoError>)
    ensures var tickets := QueryBeginsWith(t, showId, TicketSortKeyPrefix);
            r.Success? <==> forall i :: 0 <= i < |tickets| ==>
                              StringAttribute(tickets[i], "area").Some? && TicketMapper.PriceAttribute(tickets[i]).Some?
  {
    var tickets := QueryBeginsWith(t, showId, TicketSortKeyPrefix);
    match GroupBy(tickets, AreaOfFn())
    case Failure(_) => Failure(NullPointer)
    case Success(groups) =>
      if exists i :: 0 <= i < |tickets| && TicketMapper.PriceAttribute(tickets[i]).None? then Failure(NullPointer)
      else Success(groups)
  }

  /** The areas averaged over are exactly those that occur among the
      show's tickets, and each area's group is exactly its tickets. */
  lemma FindTicketsBySeatAreaGroups(t: Table, showId: string)
    requires FindTicketsBySeatArea(t, showId).Success?
    ensures var tickets := QueryBeginsWith(t, showId, TicketSortKeyPrefix);
            var groups := FindTicketsBySeatArea(t, showId).value;
            && (forall a :: a in groups <==> Occurs(tickets, AreaOfFn(), a))
            && (forall a :: a in groups ==> groups[a] == Filter(tickets, HasKeyFn(AreaOfFn(), a)))
  {
    GroupByGroups(QueryBeginsWith(t, showId, TicketSortKeyPrefix), AreaOfFn());
  }
}

=== FILE: ticket_mapper.dfy ===
/** The two MapStruct mappers from a stored ticket record to the `Ticket`
    DTO. A ticket record is viewed as its attribute map: a field of the
    record is null exactly when its attribute is absent (or of the other
    kind). The theatre mapper renames `ticketRef` to `reference` and leaves
    `id` unset; the stock mapper also derives `id` from the sort key with
    an expression that strips one character too few. */
module TicketMapper {
  import opened Wrappers
  import opened Strings
  import opened Store

  /** The sort-key prefix of ticket records. */
  const TicketPrefix: string := "TICKET#"

  /** The `Ticket` DTO; `price` carries the stored number text. */
  datatype Ticket = Ticket(
    id: Option<string>,
    status: Option<string>,
    price: Option<string>,
    area: Option<string>,
    reference: Option<string>)

  function PriceAttribute(item: Item): (r: Option<string>)
    ensures r.Some? <==> "price" in item && item["price"].N?
  {
    if "price" in item then NumberMember(item["price"]) else None
  }

  /** The theatre mapper: every field copied by name, `reference` taken
      from `ticketRef`, and `id` left null because the record has no such
      property. */
  function TheatreMapFromItem(item: Item): (r: Ticket)
    ensures r.id.None?
    ensures r.reference == StringAttribute(item, "ticketRef")
    ensures r.status == StringAttribute(item, "status") && r.area == StringAttribute(item, "area")
    ensures r.price == PriceAttribute(item)
  {
    Ticket(None, StringAttribute(item, "status"), PriceAttribute(item),
           StringAttribute(item, "area"), StringAttribute(item, "ticketRef"))
  }

  // ---------------------------------------------------------------------
  // The stock mapper's id expression

  /** `sortKey.substring(sortKey.lastIndexOf(TICKET_PREFIX) + 1)` as
      written: it skips only the first character of the prefix. */
  function TicketIdAsWritten(sortKey: string): (id: string)
  {
    Substring(sortKey, LastIndexOf(sortKey, TicketPrefix) + 1)
  }

  /** The id the expression evidently intends: what follows the last
      occurrence of the prefix, or the whole key when there is none. */
  function TicketId(sortKey: string): (id: string)
  {
    var i := LastIndexOf(sortKey, TicketPrefix);
    if i < 0 then sortKey else Substring(sortKey, i + |TicketPrefix|)
  }

  /** The as-written id is always a suffix of the sort key, one character
      past the start of the last match; with no match it is the whole key. */
  lemma TicketIdAsWrittenIsSuffix(sortKey: string)
    ensures var i := LastIndexOf(sortKey, TicketPrefix);
            && |TicketIdAsWritten(sortKey)| == |sortKey| - (i + 1)
            && sortKey == sortKey[..i + 1] + TicketIdAsWritten(sortKey)
    ensures LastIndexOf(sortKey, TicketPrefix) == -1 ==> TicketIdAsWritten(sortKey) == sortKey
  {
  }

  /** Whenever the prefix occurs, the as-written id still begins with the
      rest of it, "ICKET#", so it never equals the intended id's tail. */
  lemma TicketIdAsWrittenKeepsPrefixTail(sortKey: string)
    requires LastIndexOf(sortKey, TicketPrefix) >= 0
    ensures StartsWith(TicketIdAsWritten(sortKey), TicketPrefix[1..])
    ensures TicketIdAsWritten(sortKey) == TicketPrefix[1..] + TicketId(sortKey)
  {
    var i := LastIndexOf(sortKey, TicketPrefix);
    assert sortKey[i..i + 7] == TicketPrefix;
    assert sortKey[i + 1..] == sortKey[i + 1..i + 7] + sortKey[i + 7..];
    assert sortKey[i + 1..i + 7] == TicketPrefix[1..];
  }

  /** The concrete input: the record keyed "TICKET#ABC" gets id "ICKET#ABC". */
  lemma TicketIdAsWrittenExample()
    ensures TicketIdAsWritten("TICKET#ABC") == "ICKET#ABC"
    ensures TicketId("TICKET#ABC") == "ABC"
  {
    var s := "TICKET#ABC";
    assert OccursAt(s, TicketPrefix, 0);
    assert !OccursAt(s, TicketPrefix, 1) by { assert s[1 + 6] != TicketPrefix[6]; }
    assert !OccursAt(s, TicketPrefix, 2) by { assert s[2 + 6] != TicketPrefix[6]; }
    assert !OccursAt(s, TicketPrefix, 3) by { assert s[3 + 6] != TicketPrefix[6]; }
    assert LastIndexOf(s, TicketPrefix) == 0;
  }

  /** No proper suffix of the prefix is also a prefix of it, so in
      "TICKET#" + id a match can only start at 0 or inside id. */
  lemma PrefixDoesNotOverlap(id: string, j: int)
    requires 0 < j < |TicketPrefix|
    ensures !OccursAt(TicketPrefix + id, TicketPrefix, j)
  {
    var s := TicketPrefix + id;
    assert s[6] == '#';
    assert TicketPrefix[6 - j] != '#';
    assert j + 7 <= |s| ==> s[j..j + 7][6 - j] == s[6];
  }

  /** The corrected id recovers any id that does not itself contain the
      prefix from the sort key "TICKET#" + id. */
  lemma {:induction false} TicketIdRoundTrip(id: string)
    requires forall j :: 0 <= j <= |id| - |TicketPrefix| ==> !OccursAt(id, TicketPrefix, j)
    ensures TicketId(TicketPrefix + id) == id
    ensures TicketIdAsWritten(TicketPrefix + id) == TicketPrefix[1..] + id
  {
    var s := TicketPrefix + id;
    var i := LastIndexOf(s, TicketPrefix);
    assert OccursAt(s, TicketPrefix, 0);
    if i > 0 {
      if i < |TicketPrefix| {
        PrefixDoesNotOverlap(id, i);
      } else {
        assert s[i..i + 7] == id[i - 7..i];
        assert OccursAt(id, TicketPrefix, i - 7);
      }
    }
    assert i == 0;
    assert s[7..] == id;
  }

  /** The stock mapper as written: a null sort key makes the expression
      throw; otherwise `id` comes from the sort key and the other fields
      are copied as in the theatre mapper. */
  function StockMapFromItemAsWritten(item: Item): (r: Option<Ticket>)
    ensures r.Some? <==> StringAttribute(item, "sortKey").Some?
    ensures r.Some? ==> r.value == TheatreMapFromItem(item).(id := Some(TicketIdAsWritten(StringAttribute(item, "sortKey").value)))
  {
    match StringAttribute(item, "sortKey")
    case None => None
    case Some(sk) => Some(TheatreMapFromItem(item).(id := Some(TicketIdAsWritten(sk))))
  }

  /** The stock mapper with the corrected id: a ticket stored under
      "TICKET#" + id maps back to id. */
  function StockMapFromItem(item: Item): (r: Option<Ticket>)
    ensures r.Some? <==> StringAttribute(item, "sortKey").Some?
    ensures r.Some? ==> r.value.reference == StringAttribute(item, "ticketRef")
    ensures forall id ::
              (&& StringAttribute(item, "sortKey") == Some(TicketPrefix + id)
               && forall j :: 0 <= j <= |id| - |TicketPrefix| ==> !OccursAt(id, TicketPrefix, j))
              ==> r.value.id == Some(id)
  {
    match StringAttribute(item, "sortKey")
    case None => None
    case Some(sk) =>
      forall id | sk == TicketPrefix + id && (forall j :: 0 <= j <= |id| - |TicketPrefix| ==> !OccursAt(id, TicketPrefix, j))
        ensures TicketId(sk) == id
      {
        TicketIdRoundTrip(id);
      }
      Some(TheatreMapFromItem(item).(id := Some(TicketId(sk))))
  }
}

=== FILE: wrappers.dfy ===
/** Failure-carrying result types shared by every module of the model:
    `Option` stands for a Java reference that may be null or an empty
    `Optional`, `Result` for a call that returns a value or throws. */
module Wrappers {

  datatype Option<+T> = None | Some(value: T)

  datatype Result<+T, +E> = Success(value: T) | Failure(error: E)
}
